=== FILE: README.md ===
# SupermarketWS price-comparison core, in Dafny

SupermarketWS scrapes Chilean supermarket sites (Lider, Jumbo), stores
products, prices and supermarkets in PostgreSQL, and serves a price
comparison over HTTP to a Next.js frontend. This project models the
deterministic data logic of that system and proves properties of it:

- **Text canonicalisers** (`Text`, `Numbers`): the product-name normaliser,
  `cleanText`, `slugify`, `extractPrice` (Chilean `$1.990` notation, with
  `parseFloat`), `extractNumber` (with `parseInt`).
- **Domain entities** (`ProductEntity`, `PriceEntity`, `SupermarketEntity`):
  constructor defaults and JavaScript truthiness coercions, validation,
  discount / effective-price / savings arithmetic, and the camelCase ↔
  snake_case row mapping with its round trip.
- **Scraped records** (`Scraping`, `Orchestrator`): `createProductObject`,
  the post-extraction part of the Lider and Jumbo card parsers (DOM lookups
  are given optional strings), `parseArgs`, the dispatch in `main`, and the
  summary tallies.
- **Repository query semantics** (`Sql`, `Tables`, `ProductRepository`,
  `PriceRepository`, `SupermarketRepository`): tables are sequences of rows;
  the `$n` placeholder builder, filters, `ORDER BY` (SQL `NULL` ordering),
  `LIMIT`/`OFFSET` windows, the joins, the `COALESCE` partial update,
  `findSimilar`'s threshold/top-10 rule, and per-retailer statistics.
- **Comparison and display arithmetic** (`PriceController`, `Helpers`): the
  best deal and `savingsVsBest` of the comparison endpoint, the limit
  handling of the offers and history endpoints, and the frontend helpers
  (savings, whole-percent discount, relative time, truncation, logo and
  colour lookups, grouping by category).

Conventions (module `Js`): `Option<T>` is a nullable value, `Field<T>` keeps
JavaScript's `undefined` and `null` apart where default parameters or
filters treat them differently, truthiness is spelled out per type (empty
string, `0` and absent are falsy). Numbers are exact `real`s, `Math.round`
is `floor(x + 0.5)`. The clock (`now`), fresh database ids (`newId`) and the
PostgreSQL `similarity` function are parameters.

The backend's `Product.normalizeName` and the scrapers' `normalizeProductName`
are the same five-step pipeline, as are `Supermarket.generateSlug` and
`slugify`; each pair is modelled by one function (`Text.NormalizeProductName`,
`Text.Slugify`) used by both sides.

## Model

| member | source | states |
|---|---|---|
| Text.NormalizeProductName | scrapers/src/base/utils.js:10-20 | an absent or empty name gives `""`; every result has only `a-z`, `0-9` and single spaces, none at either end |
| Text.NormalizeIdempotent | scrapers/src/base/utils.js:10-20 | normalising a normalised name changes nothing |
| Text.NormalizedIsFixedPoint | scrapers/src/base/utils.js:13-19 | every string of the normalised shape is its own normal form |
| Text.CleanText | scrapers/src/base/utils.js:66-69 | absent text gives `""`; the result has whitespace only as single plain spaces and none at either end |
| Text.CleanTextIdempotent | scrapers/src/base/utils.js:66-69 | cleaning a cleaned text changes nothing |
| Text.Slugify | scrapers/src/base/utils.js:76-87 | absent text gives `""`; a slug has only `a-z`, `0-9` and hyphens and never two hyphens in a row |
| Text.SlugIsFixedPoint | scrapers/src/base/utils.js:79-86 | every string of the slug shape is its own slug |
| Text.SlugifyIdempotent | scrapers/src/base/utils.js:76-87 | slugifying a slug changes nothing |
| Text.LeadingBlankSlug | scrapers/src/base/utils.js:83-86 | blanks become hyphens before the final `trim`, so a leading blank survives as a leading hyphen (`" a"` gives `"-a"`) |
| Text.EmptySlug | scrapers/src/base/utils.js:82 | ASCII text with no letter, digit, blank or hyphen has the empty slug |
| Text.Squash | scrapers/src/base/utils.js:18 | replacing runs of a class by one character leaves no adjacent pair of that class, maps the first and last characters, and is empty only for empty input |
| Text.SquashFixed | scrapers/src/base/utils.js:84-85 | a string with no runs is left unchanged by run replacement |
| Text.Trim | scrapers/src/base/utils.js:19 | `trim` returns an infix with no whitespace at either end, empty exactly when the text is all whitespace |
| Text.TrimKeeps | scrapers/src/base/utils.js:19 | `trim` keeps every per-character property and the absence of adjacent pairs |
| Text.Unaccent | scrapers/src/base/utils.js:14-16 | after lower-casing, NFD and mark removal no combining mark is left |
| Text.UnaccentFixed | scrapers/src/base/utils.js:14-16 | plain lower-case ASCII is unchanged by the accent folding |
| Numbers.ParseInt | scrapers/src/base/utils.js:58 | `parseInt` is a number exactly when, after blanks and a sign, a digit follows |
| Numbers.ParseIntOfNat | scrapers/src/base/utils.js:58 | `parseInt` reads back the decimal rendering of every natural number |
| Numbers.ExtractPrice | scrapers/src/base/utils.js:27-37 | absent or empty text gives no price |
| Numbers.ParseFloatNeedsDigit | scrapers/src/base/utils.js:34 | the modelled `parseFloat`, which leaves out `Infinity` (see "## Left out"), gives a number only for a text holding a digit, in the integer part or after the point |
| Numbers.ExtractPriceNeedsDigit | scrapers/src/base/utils.js:27-36 | a finite price is extracted only from a text that has a digit: cleaning drops none and `parseFloat` needs one for a finite number (an `Infinity` text is left out, see "## Left out") |
| Numbers.ExtractPesoText | scrapers/src/base/utils.js:31-35 | a printed peso amount `$d.ddd` reads back as that amount: dots are thousands separators |
| Numbers.ExtractDecimalComma | scrapers/src/base/utils.js:31-35 | grouped digits, a comma and more digits read as the integer plus the decimal fraction |
| Numbers.ExtractPriceExamples | scrapers/src/base/utils.js:24-36 | `"$1.990"` is 1990, `"1.990,5"` is 1990.5, and `"$"`, `""` and absent are no price |
| Numbers.ExtractNumber | scrapers/src/base/utils.js:55-59 | there is a number exactly when the text is present and contains a digit |
| Numbers.ExtractNumberReadsFirstRun | scrapers/src/base/utils.js:55-59 | the value is that of the first maximal digit run, whatever text surrounds it |
| Numbers.CleanGroupThousands | scrapers/src/base/utils.js:31-33 | removing the thousands separators of grouped digits gives back the digits |
| ProductEntity.New | backend/src/domain/entities/Product.js:3-41 | a supplied non-empty `normalizedName` is kept verbatim, otherwise it is the normalised name; `isAvailable` is false only when given as `false` |
| ProductEntity.SuppliedNormalizedNameKept | backend/src/domain/entities/Product.js:27 | a supplied normalised name wins even when it disagrees with the name |
| ProductEntity.Validate | backend/src/domain/entities/Product.js:57-72 | valid exactly when no error is listed; the name error is listed iff the trimmed name is blank, the supermarket error iff the id is falsy |
| ProductEntity.ValidateIff | backend/src/domain/entities/Product.js:57-72 | valid iff non-blank name and supermarket id; errors are listed name first |
| ProductEntity.ToDB | backend/src/domain/entities/Product.js:75-94 | every property goes to its snake_case column, the normalised name and availability as present values; `last_scraped_at` is the stored instant or `now` when absent; timestamps of creation and update are not written |
| ProductEntity.FromRow | backend/src/domain/entities/Product.js:97-120 | a row is read through the constructor: every column to its camelCase property, the normalised name recomputed from the name when the stored one is empty or `NULL`, availability false only for a stored false |
| ProductEntity.RoundTrip | backend/src/domain/entities/Product.js:75-120 | reading back a written product gives it back, except the unwritten timestamps and an absent scrape time filled with `now` |
| ProductEntity.NewRoundTrip | backend/src/domain/entities/Product.js:3-120 | the round trip holds for every constructed product |
| PriceEntity.New | backend/src/domain/entities/Price.js:3-29 | falsy offer, discount and per-unit price become `null`; currency defaults to `CLP` and `isCurrent` to true only when undefined, a given value (false included) is kept and `null` stays `null`; `hasOffer` only when given true |
| PriceEntity.CalculateDiscount | backend/src/domain/entities/Price.js:32-41 | only the discount and offer flag change; there is an offer iff the offer is truthy and the normal price positive, and then the discount is `(normal - offer) / normal * 100` rounded to two decimals, within 0.005 of the exact value |
| PriceEntity.DiscountExample | backend/src/domain/entities/Price.js:32-41 | 1000 with an offer of 750 gives a 25% discount |
| PriceEntity.DiscountInRange | backend/src/domain/entities/Price.js:33-35 | for a valid price with a positive offer the computed discount lies in [0, 100] |
| PriceEntity.NegativeOfferIsValid | backend/src/domain/entities/Price.js:57-76 | validation lets a negative offer through, and its discount exceeds 100 |
| PriceEntity.EffectivePrice | backend/src/domain/entities/Price.js:44-46 | the effective price is a truthy offer, otherwise the normal price |
| PriceEntity.Savings | backend/src/domain/entities/Price.js:49-54 | savings are normal minus offer with an offer flag and a truthy offer, otherwise 0 |
| PriceEntity.ValidPriceBounds | backend/src/domain/entities/Price.js:44-76 | for a valid price the effective price is at most the normal price and the savings are at least 0 |
| PriceEntity.Validate | backend/src/domain/entities/Price.js:57-76 | each error is listed exactly when its check fails; valid iff none is listed |
| PriceEntity.ValidateIff | backend/src/domain/entities/Price.js:57-76 | valid iff product id present, normal price positive and no truthy offer above it |
| PriceEntity.RoundTrip | backend/src/domain/entities/Price.js:79-113 | reading back a written price gives it back, except the creation time and a zero discount |
| PriceEntity.ToDB | backend/src/domain/entities/Price.js:79-93 | every property goes to its snake_case column, the offer flag as a present boolean, the effective date as given; `created_at` is left to the database |
| PriceEntity.FromRow | backend/src/domain/entities/Price.js:96-113 | a row is read through the constructor: keys, normal price, currency and current flag as stored; falsy offer, discount and per-unit price become `null`; the offer flag only for a stored true; a missing effective date becomes the read time |
| PriceEntity.ZeroDiscountLost | backend/src/domain/entities/Price.js:21 | an offer equal to the normal price stores discount 0, which comes back as `null` |
| SupermarketEntity.New | backend/src/domain/entities/Supermarket.js:3-25 | a supplied non-empty slug is kept, otherwise derived from the name; location defaults to `Temuco` and `isActive` to true only when undefined; a given value (false included) is kept and `null` stays `null` |
| SupermarketEntity.Validate | backend/src/domain/entities/Supermarket.js:42-61 | each error is listed exactly when its check fails; valid iff none is listed |
| SupermarketEntity.ValidateIff | backend/src/domain/entities/Supermarket.js:42-61 | valid iff non-blank name, website URL and non-empty slug |
| SupermarketEntity.PunctuationNameHasNoSlug | backend/src/domain/entities/Supermarket.js:17 | the name `"!!!"` gets the empty slug and fails with exactly the slug error |
| SupermarketEntity.ToDB | backend/src/domain/entities/Supermarket.js:64-75 | every property goes to its snake_case column, the slug as a present value; timestamps are not written |
| SupermarketEntity.FromRow | backend/src/domain/entities/Supermarket.js:78-93 | a row is read through the constructor: every column to its camelCase property, the slug derived from the name when the stored one is empty or `NULL`, and a `NULL` location or active flag kept as `null` |
| SupermarketEntity.RoundTrip | backend/src/domain/entities/Supermarket.js:64-93 | reading back a written supermarket gives it back, except the unwritten timestamps |
| SupermarketEntity.StoredSlugKept | backend/src/domain/entities/Supermarket.js:78-93 | a stored slug is kept on reading even when the name would give another |
| Scraping.CreateProductObject | scrapers/src/base/BaseScraper.js:190-210 | normalised name from the name, category defaulting to `Sin categoría`, falsy optionals become `null`, normal price passed through, offer flag iff an offer below the normal price |
| Scraping.ZeroOfferFlagged | scrapers/src/base/BaseScraper.js:205-206 | an offer of 0 is stored as no offer yet flags the product as on offer |
| Scraping.OfferFlagMeansCheaper | scrapers/src/base/BaseScraper.js:205-206 | away from a zero offer, the flag is set iff a stored offer is below the normal price |
| Scraping.ExternalIdFromUrl | scrapers/src/scrapers/lider.js:174 | the id has neither `/` nor `?` |
| Scraping.ExternalIdOfQueryUrl | scrapers/src/scrapers/lider.js:174 | the id of `base/id?query` is `id` |
| Scraping.ParseLider | scrapers/src/scrapers/lider.js:167-194 | a record exactly for a non-empty title and a truthy normal price; it carries the title, the normal price, the offer or `null`, the trimmed unit text as description, the extracted per-unit price, the category or the default, brand and image, the link, and the id cut from the link, non-empty and without `/` or `?`; the offer flag is set iff an offer below the normal price was read |
| Scraping.LiderReadsCard | scrapers/src/scrapers/lider.js:122-199 | a card with a printed peso amount, no offer and a link ending in an id yields that amount and id, and no offer |
| Scraping.ParseJumbo | scrapers/src/scrapers/jumbo.js:152-170 | a record exactly for a non-empty name and a truthy normal price; it carries the extracted normal price, the offer or `null`, the category or the default, brand and image, and the id cut from the link; no description or per-unit price; the link is prefixed with the site's base URL; the offer flag is set iff an offer below the normal price was read |
| Scraping.JumboReadsCard | scrapers/src/scrapers/jumbo.js:152-170 | a card with a name, a price printed as `$1.990` and a link `path/id` yields that amount, the id and the prefixed link, with no offer |
| Orchestrator.ParseArgs | scrapers/src/index.js:123-139 | `all` iff `--all` is an argument; a supermarket iff some `--supermarket=` argument; other arguments are ignored |
| Orchestrator.LastSupermarketWins | scrapers/src/index.js:130-136 | the supermarket is the second `=`-field of the last `--supermarket=` argument |
| Orchestrator.SecondFieldStopsAtEquals | scrapers/src/index.js:134 | the name is cut at a second `=` |
| Orchestrator.Dispatch | scrapers/src/index.js:159-181 | `--all` wins over a named supermarket; a scraper runs by name only for a non-empty name; otherwise usage |
| Orchestrator.EmptyNameShowsUsage | scrapers/src/index.js:162-180 | `--supermarket=` with an empty name shows the usage |
| Orchestrator.Summarize | scrapers/src/index.js:88-117 | successful and failed scrapers partition the results; the product total is the sum of counts, missing counts as 0 |
| Orchestrator.FailureAddsNothing | scrapers/src/index.js:95 | a failed result without a count adds nothing to the product total |
| Sql.AndEquals | backend/src/infrastructure/repositories/ProductRepository.js:14-31 | each added condition takes the next placeholder `$n` and its parameter is appended, so numbering stays consecutive |
| Sql.Paginate | backend/src/infrastructure/repositories/ProductRepository.js:33-37 | `LIMIT` and `OFFSET` take the last two placeholders |
| Sql.AndEqualsSelects | backend/src/infrastructure/repositories/ProductRepository.js:14-31 | a row passes an extended query iff it passed before and the new column equals its parameter (`NULL` equals nothing) |
| Sql.LikeContains | backend/src/infrastructure/repositories/ProductRepository.js:64 | `%t%` matches exactly the texts containing `t` when `t` has no wildcard |
| ProductRepository.FilterQuerySelects | backend/src/infrastructure/repositories/ProductRepository.js:7-31 | the built conditions select exactly the rows the filter means: supermarket and category by truthiness, availability when defined |
| ProductRepository.FindAllMeaning | backend/src/infrastructure/repositories/ProductRepository.js:6-41 | `findAll` is the filtered table, newest first, in the window `[offset, offset + limit)` |
| ProductRepository.FindAll | backend/src/infrastructure/repositories/ProductRepository.js:6-41 | at most `limit` products, the rows of the filtered page read back in order |
| ProductRepository.Count | backend/src/infrastructure/repositories/ProductRepository.js:192-217 | the number of table rows the filter matches |
| ProductRepository.FindAllProperties | backend/src/infrastructure/repositories/ProductRepository.js:6-41 | every returned row is in the table and matches, they are newest first, and the page is full when enough rows match |
| ProductRepository.CountMeaning | backend/src/infrastructure/repositories/ProductRepository.js:192-217 | `count` is the size of the same filtered table, whatever the window |
| ProductRepository.NullAvailabilityMatchesNothing | backend/src/infrastructure/repositories/ProductRepository.js:27-30 | a `null` availability filter compares with `NULL` and counts nothing |
| ProductRepository.FindById | backend/src/infrastructure/repositories/ProductRepository.js:44-48 | a product iff some row has the id, and then one such row |
| ProductRepository.FindByExternalId | backend/src/infrastructure/repositories/ProductRepository.js:51-55 | a product iff some row has the supermarket and external id; absent keys find nothing |
| ProductRepository.SearchRows | backend/src/infrastructure/repositories/ProductRepository.js:58-79 | at most `limit` rows, each in the table and a hit by similarity or substring, ordered by similarity descending; a full page when enough rows hit; from offset 0, every hit when they all fit |
| ProductRepository.SearchTop | backend/src/infrastructure/repositories/ProductRepository.js:58-79 | from offset 0, a hit left out is no more similar than any row returned: the page holds the best hits |
| ProductRepository.Search | backend/src/infrastructure/repositories/ProductRepository.js:58-79 | the rows `SearchRows` selects, read back as products in the same order |
| ProductRepository.SearchSubstring | backend/src/infrastructure/repositories/ProductRepository.js:64 | `ILIKE '%t%'` matches exactly the names containing `t`, ignoring case |
| ProductRepository.SearchTermKeepsWildcards | backend/src/infrastructure/repositories/ProductRepository.js:59-61 | the search term keeps punctuation: `50%` stays `50%` |
| ProductRepository.SimilarRows | backend/src/infrastructure/repositories/ProductRepository.js:82-99 | rows of the table, each of the category and scoring above the threshold (default 0.65), best score first; exactly 10 or all such rows, whichever is fewer, and every such row when at most 10 qualify |
| ProductRepository.SimilarTopTen | backend/src/infrastructure/repositories/ProductRepository.js:82-99 | a qualifying row left out scores no higher than any row kept |
| ProductRepository.FindSimilar | backend/src/infrastructure/repositories/ProductRepository.js:82-99 | at most 10 matches, each scoring above the threshold, scores not increasing, one per selected row and carrying that row's product |
| ProductRepository.Create | backend/src/infrastructure/repositories/ProductRepository.js:102-137 | an invalid product is rejected with its joined errors before any insert; otherwise exactly one row is appended |
| ProductRepository.CreateReturnsProduct | backend/src/infrastructure/repositories/ProductRepository.js:102-137 | the created product is the given one with the new id, the timestamps and the scrape time filled in |
| ProductRepository.CreateRejectsNameless | backend/src/infrastructure/repositories/ProductRepository.js:103-106 | a product without a name is rejected with exactly the name error |
| ProductRepository.Update | backend/src/infrastructure/repositories/ProductRepository.js:140-182 | only rows with the id change, each by the merge; a product is returned iff the id exists, it is what `findById` reads afterwards, and it is the merge of a row with that id |
| ProductRepository.MergeProperties | backend/src/infrastructure/repositories/ProductRepository.js:146-170 | each of the thirteen `SET` columns takes a non-null incoming value, else keeps its own; keys and creation time are kept, `updated_at` is `now` |
| ProductRepository.RenameKeepsNormalizedName | backend/src/infrastructure/repositories/ProductRepository.js:146-170 | a new name does not recompute the normalised name |
| ProductRepository.Delete | backend/src/infrastructure/repositories/ProductRepository.js:185-189 | exactly the rows with the id go, and the result is true iff one existed |
| ProductRepository.DeleteShrinks | backend/src/infrastructure/repositories/ProductRepository.js:185-189 | the result is true iff the table got shorter |
| PriceRepository.FindCurrentByProductId | backend/src/infrastructure/repositories/PriceRepository.js:6-10 | a price iff some current row of the product exists, and then one such row |
| PriceRepository.FindHistoryByProductId | backend/src/infrastructure/repositories/PriceRepository.js:13-22 | at most `limit` (default 30) rows of that product, most recent first; from offset 0, when they all fit, exactly the product's rows |
| PriceRepository.HistoryPageFull | backend/src/infrastructure/repositories/PriceRepository.js:13-22 | the page is full when enough history rows exist past the offset |
| PriceRepository.HistoryMostRecent | backend/src/infrastructure/repositories/PriceRepository.js:13-22 | from offset 0, a row of the product left out comes no earlier than any row returned in `ORDER BY recorded_at DESC` (`NULL` first): the page holds the most recent rows |
| PriceRepository.CompareByMasterProduct | backend/src/infrastructure/repositories/PriceRepository.js:25-54 | a permutation of the join, sorted by offer-else-normal price ascending |
| PriceRepository.CompareMeaning | backend/src/infrastructure/repositories/PriceRepository.js:25-54 | a row is returned iff it projects a match of the master with a current price, an available product and an active supermarket |
| PriceRepository.CompareNullMaster | backend/src/infrastructure/repositories/PriceRepository.js:45 | a `null` master id compares with `NULL` and finds nothing |
| PriceRepository.FindWithOffers | backend/src/infrastructure/repositories/PriceRepository.js:57-93 | at most `limit` rows, biggest discount first; a full page when the join has enough rows; from offset 0, every join row when they all fit |
| PriceRepository.OffersTop | backend/src/infrastructure/repositories/PriceRepository.js:57-93 | from offset 0, a join row left out comes no earlier than any row returned in `ORDER BY discount_percentage DESC` (`NULL` first): the page holds the biggest discounts |
| PriceRepository.FindWithOffersMeaning | backend/src/infrastructure/repositories/PriceRepository.js:68-89 | every row is a current offer of an available product, of the given supermarket when one is given |
| PriceRepository.OfferJoinRows | backend/src/infrastructure/repositories/PriceRepository.js:68-89 | a row is in the join iff it projects a current offer of an available product and its supermarket, of the given supermarket when one is given |
| PriceRepository.FindWithOffersComplete | backend/src/infrastructure/repositories/PriceRepository.js:57-93 | from offset 0, when the join fits in one page, every current offer is returned |
| PriceRepository.Create | backend/src/infrastructure/repositories/PriceRepository.js:96-129 | an invalid price is rejected before any insert; otherwise exactly one row is appended |
| PriceRepository.CreateStoresDiscount | backend/src/infrastructure/repositories/PriceRepository.js:97-110 | the discount is recomputed before the insert: a valid positive offer is stored with its flag and a discount in [0, 100] |
| PriceRepository.CreateKeepsOlderCurrent | backend/src/infrastructure/repositories/PriceRepository.js:96-129 | an older current price of the product stays current beside the new one |
| PriceRepository.Update | backend/src/infrastructure/repositories/PriceRepository.js:132-161 | only rows with the id change, each by the merge; a price is returned iff the id exists, and it is the merge of a row with that id read back |
| PriceRepository.MergeProperties | backend/src/infrastructure/repositories/PriceRepository.js:137-160 | each of the seven `SET` columns takes a non-null incoming value, else keeps its own; key, currency and dates are kept; `is_current` can be set false |
| PriceRepository.OfferCannotBeCleared | backend/src/infrastructure/repositories/PriceRepository.js:137-160 | an update cannot clear an offer to `null` |
| PriceRepository.GetStatsBySupermarket | backend/src/infrastructure/repositories/PriceRepository.js:164-182 | the total is the number of joined rows and the offer count the number of them on offer, so never more; min ≤ avg ≤ max of effective price, all present or all `null` |
| PriceRepository.StatsCountsMeaning | backend/src/infrastructure/repositories/PriceRepository.js:164-182 | the total is positive iff some current price joins a product of the supermarket; the offer count is positive iff one of them is on offer |
| PriceRepository.StatsPriceBounds | backend/src/infrastructure/repositories/PriceRepository.js:166-177 | every counted effective price lies between the minimum and the maximum |
| PriceRepository.AvgDiscountOverOffers | backend/src/infrastructure/repositories/PriceRepository.js:166-177 | the average discount exists iff some counted row is on offer with a discount |
| SupermarketRepository.ActiveQuerySelects | backend/src/infrastructure/repositories/SupermarketRepository.js:6-19 | the `isActive` condition is added only when defined and selects exactly the rows it names |
| SupermarketRepository.FindAllMeaning | backend/src/infrastructure/repositories/SupermarketRepository.js:6-19 | `findAll` is the filtered table ordered by name; a row is returned iff it is in the table and matches |
| SupermarketRepository.FindAll | backend/src/infrastructure/repositories/SupermarketRepository.js:6-19 | the rows the filter selects, ordered by name, read back in order |
| SupermarketRepository.Count | backend/src/infrastructure/repositories/SupermarketRepository.js:111-122 | the number of rows `findAll` returns under the same filter |
| SupermarketRepository.CountIsFindAllSize | backend/src/infrastructure/repositories/SupermarketRepository.js:111-122 | `count` is the size of `findAll` under the same filter |
| SupermarketRepository.FindById | backend/src/infrastructure/repositories/SupermarketRepository.js:22-26 | a supermarket iff some row has the id, and then one such row |
| SupermarketRepository.FindBySlug | backend/src/infrastructure/repositories/SupermarketRepository.js:29-33 | a supermarket iff some row has the slug, and then one such row |
| SupermarketRepository.ChainRows | backend/src/infrastructure/repositories/SupermarketRepository.js:36-40 | exactly the rows of that chain, ordered by name |
| SupermarketRepository.FindByChainGroup | backend/src/infrastructure/repositories/SupermarketRepository.js:36-40 | the rows of that chain, ordered by name, read back in order |
| SupermarketRepository.Create | backend/src/infrastructure/repositories/SupermarketRepository.js:43-68 | an invalid supermarket is rejected before any insert; otherwise exactly one row is appended |
| SupermarketRepository.CreateReturnsSupermarket | backend/src/infrastructure/repositories/SupermarketRepository.js:43-68 | the created supermarket is the given one with the new id and timestamps |
| SupermarketRepository.Update | backend/src/infrastructure/repositories/SupermarketRepository.js:71-101 | only rows with the id change, each by the merge; the result is what `findById` reads afterwards, stamped with the update time, and present iff the id existed |
| SupermarketRepository.MergeProperties | backend/src/infrastructure/repositories/SupermarketRepository.js:75-100 | each of the seven `SET` columns takes a non-null incoming value, else keeps its own; the slug is replaced only when given; key and creation time are kept, `updated_at` is `now` |
| SupermarketRepository.RenameKeepsSlug | backend/src/infrastructure/repositories/SupermarketRepository.js:75-100 | a new name does not re-derive the slug |
| SupermarketRepository.Delete | backend/src/infrastructure/repositories/SupermarketRepository.js:104-108 | exactly the rows with the id go: `findById` finds nothing afterwards, and the result is true iff it found the supermarket before |
| PriceController.CompareRows | backend/src/api/controllers/priceController.js:7-58 | 400 iff the master id is falsy, 404 iff no rows; otherwise one item per row in order, savings against the first row (0 for it), best deal from the first row |
| PriceController.Compare | backend/src/api/controllers/priceController.js:11-16 | a missing master id is rejected whatever the database holds |
| PriceController.SavingsNonNegative | backend/src/api/controllers/priceController.js:28-37 | over the repository's order, with no zero offer and no `null` normal price, every saving is at least 0 |
| PriceController.ZeroOfferNegativeSavings | backend/src/api/controllers/priceController.js:30-35 | with prices as numbers, a zero offer sorts first in SQL but reads as the normal price here, giving a negative saving |
| PriceController.OffersLimit | backend/src/api/controllers/priceController.js:63-66 | the offers limit defaults to 20, is `min(parseInt(limit), 100)`, and is not a number when the text is not |
| PriceController.GetOffers | backend/src/api/controllers/priceController.js:61-83 | 200 iff limit and offset are numbers and not negative, else 500; at most 100 rows |
| PriceController.GetHistory | backend/src/api/controllers/priceController.js:86-108 | 200 iff limit and offset are numbers and not negative, else 500; at most `limit` rows, all of that product |
| PriceController.OnlyOffersAreCapped | backend/src/api/controllers/priceController.js:66-92 | `limit=500` becomes 100 for offers but stays 500 for the history |
| PriceController.NonNumericLimitFails | backend/src/api/controllers/priceController.js:66 | a limit that is not a number fails the offers request |
| Helpers.CalculateSavings | frontend/src/utils/helpers.js:18-21 | savings are positive iff a truthy offer is below the normal price, and then the offer plus the savings is the normal price; otherwise 0 |
| Helpers.CalculateDiscountPercentage | frontend/src/utils/helpers.js:26-29 | 0 in the same cases; otherwise the rounded percentage, infinite (`None`) only for a zero normal price |
| Helpers.WholePercentInRange | frontend/src/utils/helpers.js:26-29 | for `0 < offer < normal` the percentage is a whole number in [0, 100] |
| Helpers.SavingsAgreeWithEntity | frontend/src/utils/helpers.js:18-21 | with an offer flag, the frontend savings equal the entity's when positive and are 0 otherwise |
| Helpers.WholePercentNearStored | frontend/src/utils/helpers.js:26-29 | the whole percentage shown differs from the stored two-decimal discount by less than 0.505 |
| Helpers.RelativeDays | frontend/src/utils/helpers.js:56-60 | `Hoy` iff 0 days, `Ayer` iff 1, otherwise `Hace n unidad` |
| Helpers.FormatRelativeTime | frontend/src/utils/helpers.js:48-61 | no date gives `N/A`; otherwise the text of the floored day difference |
| Helpers.RelativeCountReadsBack | frontend/src/utils/helpers.js:58-60 | from 2 days on, the count printed after `Hace ` reads back as `d / unit` with unit 1, 7 or 30, at least 1 |
| Helpers.WeeksAtMostFour | frontend/src/utils/helpers.js:59 | between 7 and 29 days the text counts 1 to 4 weeks |
| Helpers.TruncateText | frontend/src/utils/helpers.js:66-70 | absent text gives `""`; an omitted `maxLength` is 50; short text is unchanged; long text is its first `maxLength` characters and `...`, length `maxLength + 3` |
| Helpers.TruncateDefault | frontend/src/utils/helpers.js:66 | leaving out `maxLength` truncates exactly as passing 50 |
| Helpers.TruncateIdempotent | frontend/src/utils/helpers.js:66-70 | truncating a truncated text changes nothing |
| Helpers.SupermarketLogo | frontend/src/utils/helpers.js:75-90 | total: one of two glyphs, the convenience-store glyph exactly for the four listed slugs |
| Helpers.ChainColor | frontend/src/utils/helpers.js:95-104 | total: the chain's colour when listed, gray exactly otherwise |
| Helpers.ChainColorsDistinct | frontend/src/utils/helpers.js:96-101 | two listed chains never share a colour |
| Helpers.GroupByCategory | frontend/src/utils/helpers.js:124-133 | group keys are distinct and the groups hold as many items as there are products |
| Helpers.GroupByCategoryMeaning | frontend/src/utils/helpers.js:124-133 | keys are the categories (or `Sin categoría`) in first-occurrence order; each group is the products with that key, in input order |
| Helpers.GroupsPartition | frontend/src/utils/helpers.js:124-133 | each product lies in exactly one group, the one of its key |

## Left out

- Unicode beyond Latin-1: lower-casing and NFD decomposition are exact on U+0000..U+00FF; other code points are treated as caseless and non-decomposing. String lengths count code points, not UTF-16 units.
- Floating point: prices, discounts and averages are exact rationals. `Math.round` is `floor(x + 0.5)`. Agreement with doubles holds only where the double is exact.
- `parseFloat` (Numbers.ParseFloat) does not read the word `Infinity`: a price text starting with it (optionally signed) gives no price here, where JavaScript would give an infinite one.
- Numbers.ParseInt: models base 10 only. A `0x` prefix, which `parseInt` without a radix reads as hexadecimal, is read as `0`.
- Column values are JavaScript numbers and booleans. The PostgreSQL driver's text form of `NUMERIC` and `COUNT` results is not modelled.
- Text collation: `ORDER BY name` is code-point order. SQL ties keep the model's stable insertion order, where PostgreSQL leaves ties unspecified.
- `similarity` and the trigram `%` operator are an uninterpreted parameter. `search` reads `%` as similarity above the default trigram threshold 0.3, given as a constant.
- LIKE metacharacters: `search` never escapes its term, so a term's `%`, `_` and `\` act as LIKE metacharacters. `Sql.LikeMatch` reads them as PostgreSQL's default escape `\` does: `%` any run, `_` one character, `\` makes the next character literal (so a term ending in `\` turns the closing `%` into a literal `%`). A pattern ending in a lone `\`, which PostgreSQL rejects with an error, matches a literal `\` here; `search` never builds one, because its pattern always ends in `%`.
- price_history rows carry only the columns the queries read.
- JavaScript objects as maps: `groupByCategory` is a list of groups in first-occurrence order. Integer-like keys, which a JavaScript object lists first, and prototype keys such as `constructor` in the logo and colour lookups, are not modelled.
- Helpers.GroupByCategory: a category named after an `Object.prototype` member (`constructor`, `toString`, `valueOf`, `hasOwnProperty`, `__proto__`, ...) finds `acc[category]` already set to the inherited value, so the array is never created and `push` throws a `TypeError`. That throw is not modelled: such a category is grouped like any other, and `GroupByCategoryMeaning` and `GroupsPartition` hold only for categories that are not prototype member names.
- DOM lookups, Playwright navigation, timers (`randomDelay`, `retryWithBackoff`, `debounce`), random user agents, the inter-scraper sleep, `process.exit` and file output are left out. Card lookups are given optional strings.
- `runAll` and `runScraper` run I/O. `Dispatch` returns which branch `main` takes, and a failing run's result is an input to `Summarize`.
- Database driver and transactions: `query` and `withTransaction` are not modelled. The repositories never call `withTransaction`.
- SQL text: queries are modelled structurally (conditions, placeholder numbers and parameters), not as strings.
- Not implemented by the code, so not modelled: an ingestion/upsert coordinator, any writer of `product_matches`, and retiring an old current price. `PriceRepository.CreateKeepsOlderCurrent` shows that two current prices can coexist.
- `productController` and `supermarketController` (request plumbing, a limit clamp and a `hasMore` flag), routes, server, config, and the frontend pages, components and HTTP client are left out.
- `formatPrice` and `formatDate` depend on `Intl` number and date formatting, and are left out.
- Helpers.FormatRelativeTime: the date is given as a millisecond timestamp and the clock as a parameter. Unparseable date strings (an `Invalid Date`, which yields `Hace NaN meses`) are not modelled.
- Helpers.TruncateText: `maxLength` is a natural number or omitted (then 50). A `null`, negative or fractional maximum is not modelled.
- Helpers.CalculateSavings: the normal price is a number. A `null` or missing normal price is not modelled.
- PriceController.Compare: a database failure (the 500 response of `compare`) is not modelled. When prices arrive as numbers, the controller's `offer_price || normal_price` differs from the SQL `COALESCE` only for a zero offer, see `PriceController.ZeroOfferNegativeSavings`. With `NUMERIC` delivered as text (see the column-values line above) an offer of `"0.00"` is truthy and the two agree.
- PriceController.SavingsNonNegative: requires rows with no zero offer and a present normal price. Without that, savings can be negative.

=== FILE: helpers.dfy ===
/**
  `Helpers`: the frontend's display helpers — savings and whole-percent
  discount, relative dates, truncation, the logo and chain-colour lookups,
  and grouping products by category.

  Prices are `real` with `None` for a missing offer; a date is its
  millisecond timestamp, and the clock reading is a parameter.
 */
module Helpers {
  import opened Js
  import opened Tables
  import opened Numbers
  import Prices = PriceEntity

  // ---------------------------------------------------------------------------
  // calculateSavings / calculateDiscountPercentage
  // ---------------------------------------------------------------------------

  /** There is something to save: a truthy offer below the normal price. */
  predicate Discounted(normalPrice: real, offerPrice: Option<real>) {
    TruthyNum(offerPrice) && offerPrice.value < normalPrice
  }

  /** `calculateSavings(normalPrice, offerPrice)`. */
  function CalculateSavings(normalPrice: real, offerPrice: Option<real>): (r: real)
    ensures r >= 0.0
    ensures r > 0.0 <==> Discounted(normalPrice, offerPrice)
    ensures r > 0.0 ==> offerPrice.value + r == normalPrice
  {
    if !TruthyNum(offerPrice) || offerPrice.value >= normalPrice then 0.0
    else normalPrice - offerPrice.value
  }

  /** `calculateDiscountPercentage(normalPrice, offerPrice)`: the share saved,
      rounded to a whole percent. `None` is the `Infinity` of a zero normal
      price with a negative offer. */
  function CalculateDiscountPercentage(normalPrice: real, offerPrice: Option<real>): (r: Option<int>)
    ensures !Discounted(normalPrice, offerPrice) ==> r == Some(0)
    ensures r.None? <==> Discounted(normalPrice, offerPrice) && normalPrice == 0.0
    ensures Discounted(normalPrice, offerPrice) && normalPrice != 0.0 ==>
      r == Some(Prices.Round(CalculateSavings(normalPrice, offerPrice) / normalPrice * 100.0))
  {
    if !TruthyNum(offerPrice) || offerPrice.value >= normalPrice then Some(0)
    else if normalPrice == 0.0 then None
    else Some(Prices.Round((normalPrice - offerPrice.value) / normalPrice * 100.0))
  }

  /** With a positive offer below the normal price, the whole percent lies in
      [0, 100]. */
  lemma WholePercentInRange(normalPrice: real, offerPrice: real)
    requires 0.0 < offerPrice < normalPrice
    ensures CalculateDiscountPercentage(normalPrice, Some(offerPrice)).Some?
    ensures 0 <= CalculateDiscountPercentage(normalPrice, Some(offerPrice)).value <= 100
  {
    Prices.PercentOffInRange(normalPrice, offerPrice);
  }

  /** The savings shown are the entity's `getSavings()` when that is
      positive and 0 otherwise. */
  lemma SavingsAgreeWithEntity(p: Prices.Price)
    requires p.hasOffer && p.normalPrice.Some?
    ensures Prices.Savings(p).Some?
    ensures CalculateSavings(p.normalPrice.value, p.offerPrice) ==
      (if Prices.Savings(p).value > 0.0 then Prices.Savings(p).value else 0.0)
  {
  }

  /** For a valid price with a positive offer below the normal price, the
      whole percent shown is within half a point of the percentage the
      entity stores. */
  lemma WholePercentNearStored(p: Prices.Price)
    requires Prices.Validate(p).isValid
    requires p.offerPrice.Some? && 0.0 < p.offerPrice.value < p.normalPrice.value
    ensures CalculateDiscountPercentage(p.normalPrice.value, p.offerPrice).Some?
    ensures Prices.CalculateDiscount(p).discountPercentage.Some?
    ensures var shown := CalculateDiscountPercentage(p.normalPrice.value, p.offerPrice).value as real;
      var stored := Prices.CalculateDiscount(p).discountPercentage.value;
      -0.505 < shown - stored < 0.505
  {
    var n := p.normalPrice.value;
    var o := p.offerPrice.value;
    assert (n - o) / n * 100.0 == Prices.PercentOff(n, o);
  }

  // ---------------------------------------------------------------------------
  // formatRelativeTime
  // ---------------------------------------------------------------------------

  const DayMs: nat := 1000 * 60 * 60 * 24

  /** Whole days elapsed, rounded down (`Math.floor`). */
  function DaysBetween(date: int, now: int): (d: int)
    ensures d * DayMs <= now - date < (d + 1) * DayMs
  {
    (now - date) / DayMs
  }

  /** The unit a day count is shown in: days below a week, weeks below 30
      days, months after that. */
  function Unit(d: int): (u: nat)
    ensures u > 0
  {
    if d < 7 then 1 else if d < 30 then 7 else 30
  }

  function UnitName(d: int): string {
    if d < 7 then "días" else if d < 30 then "semanas" else "meses"
  }

  /** "Hace n unit" for a difference of two or more days, or of a negative
      number of days (a date in the future). */
  function Ago(d: int): (r: string)
    ensures |r| > 4 && r[..5] == "Hace "
    ensures r[5..] == IntToString(d / Unit(d)) + " " + UnitName(d)
  {
    var head := "Hace ";
    var tail := IntToString(d / Unit(d)) + " " + UnitName(d);
    assert (head + tail)[..5] == head;
    assert (head + tail)[5..] == tail;
    head + tail
  }

  /** The text for a day difference. */
  function RelativeDays(d: int): (r: string)
    ensures r == "Hoy" <==> d == 0
    ensures r == "Ayer" <==> d == 1
    ensures d != 0 && d != 1 ==> r == Ago(d)
  {
    if d == 0 then "Hoy"
    else if d == 1 then "Ayer"
    else Ago(d)
  }

  /** `formatRelativeTime(dateString)` at clock reading `now`. */
  function FormatRelativeTime(date: Option<int>, now: int): (r: string)
    ensures date.None? ==> r == "N/A"
    ensures date.Some? ==> r == RelativeDays(DaysBetween(date.value, now))
  {
    match date
    case None => "N/A"
    case Some(t) => RelativeDays(DaysBetween(t, now))
  }

  /** For a past date two or more days back, the number in the text is the
      count of whole units elapsed, at least 1, and reads back with
      `parseInt`. */
  lemma RelativeCountReadsBack(d: int)
    requires d >= 2
    ensures var n := d / Unit(d);
      n >= 1 && n * Unit(d) <= d < (n + 1) * Unit(d) &&
      RelativeDays(d)[..5] == "Hace " &&
      ParseInt(RelativeDays(d)[5..]) == Some(n)
  {
    UnitCount(d);
    AgoReadsBack(d);
  }

  lemma UnitCount(d: int)
    requires d >= 2
    ensures var n := d / Unit(d); n >= 1 && n * Unit(d) <= d < (n + 1) * Unit(d)
  {
  }

  lemma AgoReadsBack(d: int)
    requires d >= 2
    ensures ParseInt(Ago(d)[5..]) == Some(d / Unit(d))
  {
    var n: nat := d / Unit(d);
    var text := NatToString(n);
    ConcatAssoc(text, " ", UnitName(d));
    ParseIntStops(text, " " + UnitName(d));
  }

  /** Weeks are shown only from 1 to 4. */
  lemma WeeksAtMostFour(d: int)
    requires 7 <= d < 30
    ensures 1 <= d / Unit(d) <= 4
  {
  }

  // ---------------------------------------------------------------------------
  // truncateText
  // ---------------------------------------------------------------------------

  const DefaultMaxLength: nat := 50

  /** `truncateText(text, maxLength)`; an omitted `maxLength` (`None`)
      takes the default 50. */
  function TruncateText(text: Option<string>, maxLength: Option<nat>): (r: string)
    ensures !TruthyStr(text) ==> r == ""
    ensures |r| <= maxLength.GetOr(DefaultMaxLength) + 3
    ensures var m := maxLength.GetOr(DefaultMaxLength);
      TruthyStr(text) && |text.value| <= m ==> r == text.value
    ensures var m := maxLength.GetOr(DefaultMaxLength);
      TruthyStr(text) && |text.value| > m ==>
        |r| == m + 3 && r[..m] == text.value[..m] && r[m..] == "..."
  {
    var m := maxLength.GetOr(DefaultMaxLength);
    if !TruthyStr(text) then ""
    else if |text.value| <= m then text.value
    else text.value[..m] + "..."
  }

  /** Omitting `maxLength` is passing 50. */
  lemma TruncateDefault(text: Option<string>)
    ensures TruncateText(text, None) == TruncateText(text, Some(50))
  {
  }

  /** Truncating a truncated text changes nothing. */
  lemma TruncateIdempotent(text: Option<string>, maxLength: Option<nat>)
    ensures TruncateText(Some(TruncateText(text, maxLength)), maxLength) == TruncateText(text, maxLength)
  {
    var m := maxLength.GetOr(DefaultMaxLength);
    var r := TruncateText(text, maxLength);
    if TruthyStr(text) && |text.value| > m {
      assert r == r[..m] + r[m..];
    }
  }

  // ---------------------------------------------------------------------------
  // getSupermarketLogo / getChainColor
  // ---------------------------------------------------------------------------

  const DepartmentStore := "\U{1F3EC}"
  const ConvenienceStore := "\U{1F3EA}"

  const Logos: map<string, string> := map[
    "jumbo" := DepartmentStore,
    "lider" := ConvenienceStore,
    "santa-isabel" := DepartmentStore,
    "acuenta" := ConvenienceStore,
    "unimarc" := DepartmentStore,
    "mayorista-10" := ConvenienceStore,
    "cugat" := DepartmentStore,
    "el-trebol" := ConvenienceStore,
    "eltit" := DepartmentStore]

  /** The slugs drawn with the convenience-store glyph. */
  const ConvenienceSlugs: set<string> := {"lider", "acuenta", "mayorista-10", "el-trebol"}

  /** `getSupermarketLogo(slug)`: the table entry, or the department-store
      glyph for an unknown slug. */
  function SupermarketLogo(slug: Option<string>): (r: string)
    ensures r == DepartmentStore || r == ConvenienceStore
    ensures r == ConvenienceStore <==> slug.Some? && slug.value in ConvenienceSlugs
  {
    if slug.Some? && slug.value in Logos then Logos[slug.value] else DepartmentStore
  }

  const Gray := "bg-gray-100 text-gray-800"

  const ChainColors: map<string, string> := map[
    "Cencosud" := "bg-blue-100 text-blue-800",
    "Walmart" := "bg-yellow-100 text-yellow-800",
    "SMU" := "bg-green-100 text-green-800",
    "Regional" := "bg-purple-100 text-purple-800"]

  /** `getChainColor(chainGroup)`: the table entry, or gray. */
  function ChainColor(chainGroup: Option<string>): (r: string)
    ensures r == Gray <==> !(chainGroup.Some? && chainGroup.value in ChainColors)
    ensures r != Gray ==> r == ChainColors[chainGroup.value]
  {
    if chainGroup.Some? && chainGroup.value in ChainColors then ChainColors[chainGroup.value] else Gray
  }

  /** Two groups share a colour only if both are unknown or they are the
      same group. */
  lemma ChainColorsDistinct(a: Option<string>, b: Option<string>)
    requires ChainColor(a) == ChainColor(b) && ChainColor(a) != Gray
    ensures a == b
  {
  }

  // ---------------------------------------------------------------------------
  // groupByCategory
  // ---------------------------------------------------------------------------

  const Uncategorized := "Sin categoría"

  /** `product.category || 'Sin categoría'`. */
  function CategoryKey(category: Option<string>): (k: string)
    ensures k != ""
    ensures TruthyStr(category) ==> k == category.value
    ensures !TruthyStr(category) ==> k == Uncategorized
  {
    if TruthyStr(category) then category.value else Uncategorized
  }

  /** One entry of the result object: a key and its array. */
  datatype Group<T> = Group(key: string, items: seq<T>)

  function Keys<T>(groups: seq<Group<T>>): (ks: seq<string>)
    ensures |ks| == |groups|
    ensures forall i :: 0 <= i < |groups| ==> ks[i] == groups[i].key
  {
    if |groups| == 0 then [] else [groups[0].key] + Keys(groups[1..])
  }

  predicate Distinct(ks: seq<string>) {
    forall i, j :: 0 <= i < j < |ks| ==> ks[i] != ks[j]
  }

  /** How many products the groups hold together. */
  function TotalItems<T>(groups: seq<Group<T>>): nat {
    if |groups| == 0 then 0 else |groups[0].items| + TotalItems(groups[1..])
  }

  /** One step of the `reduce`: push the product onto its key's array,
      creating the array (at the end of the key order) on first use. */
  function AddTo<T>(groups: seq<Group<T>>, k: string, p: T): (r: seq<Group<T>>)
    ensures Keys(r) == if k in Keys(groups) then Keys(groups) else Keys(groups) + [k]
    ensures k !in Keys(groups) ==> r == groups + [Group(k, [p])]
    ensures TotalItems(r) == TotalItems(groups) + 1
  {
    if |groups| == 0 then [Group(k, [p])]
    else if groups[0].key == k then
      var r := [groups[0].(items := groups[0].items + [p])] + groups[1..];
      assert r[1..] == groups[1..];
      r
    else
      var rest := AddTo(groups[1..], k, p);
      var r := [groups[0]] + rest;
      assert r[1..] == rest;
      r
  }

  /** With distinct keys, the product goes onto the array of its own key
      and every other array stays as it was. */
  lemma {:induction false} AddToItems<T>(groups: seq<Group<T>>, k: string, p: T)
    requires Distinct(Keys(groups))
    ensures forall i :: 0 <= i < |groups| ==>
      AddTo(groups, k, p)[i].items == groups[i].items + (if groups[i].key == k then [p] else [])
  {
    if |groups| > 0 && groups[0].key != k {
      assert Keys(groups[1..]) == Keys(groups)[1..];
      AddToItems(groups[1..], k, p);
      var r := AddTo(groups, k, p);
      assert r == [groups[0]] + AddTo(groups[1..], k, p);
      forall i | 1 <= i < |groups|
        ensures r[i].items == groups[i].items + (if groups[i].key == k then [p] else [])
      {
        assert r[i] == AddTo(groups[1..], k, p)[i - 1];
      }
    } else if |groups| > 0 {
      forall i | 1 <= i < |groups| ensures groups[i].key != k {
        assert Keys(groups)[0] != Keys(groups)[i];
      }
    }
  }

  /** `groupByCategory(products)`: the `reduce` over the products in order. */
  function GroupByCategory<T>(products: seq<T>, category: T -> Option<string>): (r: seq<Group<T>>)
    ensures Distinct(Keys(r))
    ensures TotalItems(r) == |products|
  {
    if |products| == 0 then []
    else
      var n := |products| - 1;
      AddTo(GroupByCategory(products[..n], category), CategoryKey(category(products[n])), products[n])
  }

  /** The product belongs under key `k`. */
  function InGroup<T>(category: T -> Option<string>, k: string): T -> bool {
    p => CategoryKey(category(p)) == k
  }

  /** The keys of the products, each once, in order of first occurrence. */
  function Categories<T(!new)>(products: seq<T>, category: T -> Option<string>): (ks: seq<string>)
    ensures Distinct(ks)
    ensures forall k :: k in ks <==> exists p :: p in products && CategoryKey(category(p)) == k
  {
    if |products| == 0 then []
    else
      var n := |products| - 1;
      var init := Categories(products[..n], category);
      var k := CategoryKey(category(products[n]));
      assert forall p :: p in products <==> p in products[..n] || p == products[n];
      if k in init then init else init + [k]
  }

  /** The grouping has one group per category, in order of first
      occurrence, and each group holds exactly that category's products in
      their original order. */
  lemma {:induction false} GroupByCategoryMeaning<T(!new)>(products: seq<T>, category: T -> Option<string>)
    ensures Keys(GroupByCategory(products, category)) == Categories(products, category)
    ensures forall i :: 0 <= i < |GroupByCategory(products, category)| ==>
      GroupByCategory(products, category)[i].items ==
        Where(products, InGroup(category, GroupByCategory(products, category)[i].key))
  {
    if |products| > 0 {
      var n := |products| - 1;
      var init := products[..n];
      var x := products[n];
      var k := CategoryKey(category(x));
      assert products == init + [x];
      GroupByCategoryMeaning(init, category);
      var before := GroupByCategory(init, category);
      var r := GroupByCategory(products, category);
      assert r == AddTo(before, k, x);
      AddToItems(before, k, x);
      forall i | 0 <= i < |r|
        ensures r[i].items == Where(products, InGroup(category, r[i].key))
      {
        var key := r[i].key;
        WhereSnoc(init, x, InGroup(category, key));
        if i == |before| {
          assert k !in Keys(before) && key == k;
          assert forall p :: p in init ==> !InGroup(category, k)(p);
          WhereNone(init, InGroup(category, k));
        }
      }
    }
  }

  /** Every product lands in exactly one group: the one of its key. */
  lemma GroupsPartition<T(!new)>(products: seq<T>, category: T -> Option<string>, p: T)
    requires p in products
    ensures var r := GroupByCategory(products, category);
      exists i :: 0 <= i < |r| && r[i].key == CategoryKey(category(p)) && p in r[i].items &&
        forall j :: 0 <= j < |r| && p in r[j].items ==> j == i
  {
    var r := GroupByCategory(products, category);
    GroupByCategoryMeaning(products, category);
    var k := CategoryKey(category(p));
    assert k in Categories(products, category);
    var i :| 0 <= i < |r| && Keys(r)[i] == k;
    assert p in r[i].items;
    forall j | 0 <= j < |r| && p in r[j].items ensures j == i {
      assert InGroup(category, r[j].key)(p);
    }
  }
}

=== FILE: js.dfy ===
/**
  JavaScript value conventions shared by the whole model.

  - `Option<T>` stands for a value that may be `null` (or, once stored,
    `undefined`): `None` is the absent value.
  - `Field<T>` keeps `undefined` and `null` apart, for the few places where
    the source treats them differently (default parameters fire only on
    `undefined`; a SQL filter is skipped only when its value is `undefined`).
  - Truthiness is spelled out per type: the empty string, `0` and absent
    values are falsy.
 */
module Js {

  /** Record identifiers. The HTTP layer hands them over as query-string
      text, so they are strings; the empty string is the only falsy id. */
  type Id = string

  /** Instants in milliseconds; a JavaScript `Date` object is always truthy. */
  type Timestamp = int

  datatype Option<+T> = None | Some(value: T) {
    function GetOr(default: T): T {
      match this
      case Some(v) => v
      case None => default
    }
  }

  datatype Field<+T> = Undefined | Null | Defined(value: T) {
    /** The value as stored: `undefined` and `null` both become absent. */
    function ToOption(): Option<T> {
      match this
      case Defined(v) => Some(v)
      case _ => None
    }
  }

  /** A stored value handed back to a constructor: absent is `null`. */
  function FromOption<T>(o: Option<T>): Field<T> {
    match o
    case Some(v) => Defined(v)
    case None => Null
  }

  predicate TruthyStr(o: Option<string>) {
    o.Some? && o.value != ""
  }

  predicate TruthyNum(o: Option<real>) {
    o.Some? && o.value != 0.0
  }

  /** `x || null` on a string. */
  function StrOrNull(o: Option<string>): (r: Option<string>)
    ensures r.Some? <==> TruthyStr(o)
    ensures r.Some? ==> r == o
  {
    if TruthyStr(o) then o else None
  }

  /** `x || null` on a number. */
  function NumOrNull(o: Option<real>): (r: Option<real>)
    ensures r.Some? <==> TruthyNum(o)
    ensures r.Some? ==> r == o
  {
    if TruthyNum(o) then o else None
  }

  /** `x || d` on a string. */
  function StrOr(o: Option<string>, d: string): (r: string)
    ensures TruthyStr(o) ==> r == o.value
    ensures !TruthyStr(o) ==> r == d
  {
    if TruthyStr(o) then o.value else d
  }

  /** `x ? parseFloat(x) : null` on a number input: falsy becomes `null`. */
  function NumberOrNull(f: Field<real>): (r: Option<real>)
    ensures r.Some? ==> r.value != 0.0 && f == Defined(r.value)
    ensures f.Defined? && f.value != 0.0 ==> r == Some(f.value)
  {
    if f.Defined? && f.value != 0.0 then Some(f.value) else None
  }

  /** A default parameter `p = d`: applies only when the argument is `undefined`. */
  function DefaultIfUndefined<T>(f: Field<T>, d: T): (r: Option<T>)
    ensures f.Undefined? ==> r == Some(d)
    ensures f.Null? ==> r.None?
    ensures f.Defined? ==> r == Some(f.value)
  {
    match f
    case Undefined => Some(d)
    case Null => None
    case Defined(v) => Some(v)
  }

  /** A stored value handed back to a constructor is kept as it was: the
      default does not fire on `null`. */
  lemma StoredDefault<T>(o: Option<T>, d: T)
    ensures DefaultIfUndefined(FromOption(o), d) == o
  {
  }

  /** `if (failed) errors.push(message)`: what one validation check adds. */
  function Check(failed: bool, message: string): (r: seq<string>)
    ensures message in r <==> failed
    ensures forall x :: x in r ==> x == message
    ensures |r| == 0 <==> !failed
  {
    if failed then [message] else []
  }
}

=== FILE: numbers.dfy ===
/**
  Number reading and writing: `extractPrice` and `extractNumber` of the
  scrapers' utility module, the `parseFloat` they rely on, and decimal
  rendering of integers.

  Numbers are exact (`real` and `nat`): the model does not round to IEEE
  doubles, so it agrees with JavaScript only where the double is exact.
 */
module Numbers {
  import opened Js
  import opened Text

  // ---------------------------------------------------------------------------
  // Digits
  // ---------------------------------------------------------------------------

  predicate AllDigits(s: string) { AllChars(s, IsDigit) }

  predicate IsNotDigit(c: char) { !IsDigit(c) }

  function Pow10(n: nat): (r: nat)
    ensures r >= 1
  {
    if n == 0 then 1 else 10 * Pow10(n - 1)
  }

  function DigitValue(c: char): (r: nat)
    requires IsDigit(c)
    ensures r < 10
  {
    c as int - '0' as int
  }

  function DigitChar(d: nat): (c: char)
    requires d < 10
    ensures IsDigit(c) && DigitValue(c) == d
  {
    ('0' as int + d) as char
  }

  /** The value of a decimal digit string, most significant digit first. */
  function DigitsValue(s: string): (r: nat)
    requires AllDigits(s)
    ensures r < Pow10(|s|)
  {
    if |s| == 0 then 0 else 10 * DigitsValue(s[..|s| - 1]) + DigitValue(s[|s| - 1])
  }

  /** The longest prefix made of digits. */
  function TakeDigits(s: string): (r: string)
    ensures |r| <= |s| && r == s[..|r|]
    ensures AllDigits(r)
    ensures |r| < |s| ==> !IsDigit(s[|r|])
  {
    if |s| > 0 && IsDigit(s[0]) then [s[0]] + TakeDigits(s[1..]) else ""
  }

  /** Decimal rendering of a natural number, without leading zeros. */
  function NatToString(n: nat): (r: string)
    ensures |r| > 0 && AllDigits(r)
    ensures DigitsValue(r) == n
    ensures |r| > 1 ==> r[0] != '0'
  {
    if n < 10 then [DigitChar(n)]
    else
      var init := NatToString(n / 10);
      var r := init + [DigitChar(n % 10)];
      assert r[..|r| - 1] == init;
      r
  }

  /** Decimal rendering of an integer, as template literals print it. */
  function IntToString(i: int): (r: string)
    ensures |r| > 0
    ensures i >= 0 ==> r == NatToString(i)
    ensures i < 0 ==> r == "-" + NatToString(-i)
  {
    if i < 0 then "-" + NatToString(-i) else NatToString(i)
  }

  /** The value of the digits after a decimal point. */
  function Fraction(f: string): (r: real)
    requires AllDigits(f)
    ensures 0.0 <= r < 1.0
  {
    if |f| == 0 then 0.0 else (DigitValue(f[0]) as real + Fraction(f[1..])) / 10.0
  }

  // ---------------------------------------------------------------------------
  // parseFloat
  // ---------------------------------------------------------------------------

  /** `x` times ten to the power `k`, or divided by it when `negative`. */
  function ScaleBy(x: real, k: nat, negative: bool): real
    decreases k
  {
    if k == 0 then x
    else if negative then ScaleBy(x / 10.0, k - 1, negative)
    else ScaleBy(x * 10.0, k - 1, negative)
  }

  /** `x` scaled by the exponent part `e[+-]digits` at the start of `s`;
      unchanged when `s` does not start with a complete exponent part. */
  function ApplyExponent(x: real, s: string): real {
    if |s| >= 2 && (s[0] == 'e' || s[0] == 'E') then
      var u := if s[1] == '-' || s[1] == '+' then s[2..] else s[1..];
      var digits := TakeDigits(u);
      ScaleBy(x, DigitsValue(digits), s[1] == '-')
    else x
  }

  /** An unsigned decimal literal at the start of `u`: digits, optionally a
      point and more digits (at least one digit in all), optionally an
      exponent part. */
  function ParseUnsigned(u: string): Option<real> {
    var intPart := TakeDigits(u);
    ParseAfterInteger(intPart, u[|intPart|..])
  }

  /** The rest of a literal once its integer digits `intPart` are read. */
  function ParseAfterInteger(intPart: string, rest: string): Option<real>
    requires AllDigits(intPart)
  {
    if |rest| > 0 && rest[0] == '.' then
      var fracPart := TakeDigits(rest[1..]);
      if |intPart| == 0 && |fracPart| == 0 then None
      else Some(Literal(intPart, fracPart, rest[1 + |fracPart|..]))
    else if |intPart| == 0 then None
    else Some(Literal(intPart, "", rest))
  }

  /** The value of integer digits, fraction digits and an exponent part. */
  function Literal(intPart: string, fracPart: string, tail: string): real
    requires AllDigits(intPart) && AllDigits(fracPart)
  {
    ApplyExponent(DigitsValue(intPart) as real + Fraction(fracPart), tail)
  }

  function Negate(o: Option<real>): Option<real> {
    match o
    case Some(v) => Some(-v)
    case None => None
  }

  /** `parseFloat`: the longest prefix (after leading whitespace) that is a
      decimal literal with optional sign, fraction and exponent; `None` when
      there is none (JavaScript's `NaN`). */
  function ParseFloat(s: string): Option<real> {
    var t := DropWhile(s, IsSpace);
    if |t| > 0 && t[0] == '-' then Negate(ParseUnsigned(t[1..]))
    else if |t| > 0 && t[0] == '+' then ParseUnsigned(t[1..])
    else ParseUnsigned(t)
  }

  /** `parseInt(s)` in base 10: leading whitespace, an optional sign, then
      the longest run of digits; `None` (JavaScript's `NaN`) when the run is
      empty. */
  function ParseInt(s: string): (r: Option<int>)
    ensures r.Some? <==> |TakeDigits(Unsigned(DropWhile(s, IsSpace)))| > 0
  {
    var t := DropWhile(s, IsSpace);
    var d := TakeDigits(Unsigned(t));
    if |d| == 0 then None
    else if |t| > 0 && t[0] == '-' then Some(-(DigitsValue(d) as int))
    else Some(DigitsValue(d))
  }

  /** The text after an optional leading sign. */
  function Unsigned(t: string): (u: string)
    ensures |u| <= |t|
  {
    if |t| > 0 && (t[0] == '-' || t[0] == '+') then t[1..] else t
  }

  /** Text that starts with a digit is read from its first character. */
  lemma ParseIntFromDigit(t: string)
    requires |t| > 0 && IsDigit(t[0])
    ensures ParseInt(t) == Some(DigitsValue(TakeDigits(t)))
  {
    DigitIsPlain(t[0]);
    assert DropWhile(t, IsSpace) == t;
    assert Unsigned(t) == t;
  }

  lemma DigitIsPlain(c: char)
    requires IsDigit(c)
    ensures !IsSpace(c) && c != '-' && c != '+'
  {
  }

  /** `parseInt` reads back what `String(n)` prints. */
  lemma ParseIntOfNat(n: nat)
    ensures ParseInt(NatToString(n)) == Some(n)
  {
    var r := NatToString(n);
    ParseIntFromDigit(r);
    TakeAllDigits(r);
  }

  /** `parseInt` stops at the first character that is not a digit. */
  lemma ParseIntStops(digits: string, rest: string)
    requires |digits| > 0 && AllDigits(digits)
    requires |rest| > 0 && !IsDigit(rest[0])
    ensures ParseInt(digits + rest) == Some(DigitsValue(digits))
  {
    assert (digits + rest)[0] == digits[0];
    ParseIntFromDigit(digits + rest);
    TakeDigitsStops(digits, rest);
  }

  // ---------------------------------------------------------------------------
  // extractPrice, extractNumber
  // ---------------------------------------------------------------------------

  /** The cleaning step of `extractPrice`: `$`, whitespace and dots
      (thousands separators) go, commas become decimal points. */
  function CleanPriceText(s: string): (r: string)
    ensures |r| <= |s|
    ensures forall i :: 0 <= i < |r| ==> r[i] != '$' && r[i] != ',' && !IsSpace(r[i])
  {
    if |s| == 0 then ""
    else
      var c := s[0];
      var head := if c == '$' || c == '.' || IsSpace(c) then "" else if c == ',' then "." else [c];
      head + CleanPriceText(s[1..])
  }

  /** `extractPrice`: `None` for an absent or empty text and for a text
      whose cleaned form does not start with a number. */
  function ExtractPrice(priceText: Option<string>): (r: Option<real>)
    ensures !TruthyStr(priceText) ==> r.None?
  {
    if !TruthyStr(priceText) then None else ParseFloat(CleanPriceText(priceText.value))
  }

  /** `extractNumber`: the value of the first maximal run of digits. */
  function ExtractNumber(text: Option<string>): (r: Option<nat>)
    ensures r.Some? <==> TruthyStr(text) && exists i :: 0 <= i < |text.value| && IsDigit(text.value[i])
  {
    if !TruthyStr(text) then None
    else
      var rest := DropWhile(text.value, IsNotDigit);
      if |rest| == 0 then None
      else
        assert IsDigit(text.value[|text.value| - |rest|]);
        Some(DigitsValue(TakeDigits(rest)))
  }

  // ---------------------------------------------------------------------------
  // The Chilean price text `extractPrice` is written for
  // ---------------------------------------------------------------------------

  /** Digits grouped in threes from the right with `.` (as in `1.990`). */
  function GroupThousands(digits: string): (r: string)
    requires AllDigits(digits)
    decreases |digits|
  {
    if |digits| <= 3 then digits
    else GroupThousands(digits[..|digits| - 3]) + "." + digits[|digits| - 3..]
  }

  /** A whole peso amount as printed on the retailers' pages: `$1.990`. */
  function PesoText(n: nat): string {
    "$" + GroupThousands(NatToString(n))
  }

  // ---------------------------------------------------------------------------
  // Lemmas
  // ---------------------------------------------------------------------------

  /** Cleaning drops no digit: if the cleaned text has one, so has the input. */
  lemma {:induction false} CleanKeepsDigits(s: string)
    requires exists i :: 0 <= i < |CleanPriceText(s)| && IsDigit(CleanPriceText(s)[i])
    ensures exists i :: 0 <= i < |s| && IsDigit(s[i])
  {
    var c := CleanPriceText(s);
    var i :| 0 <= i < |c| && IsDigit(c[i]);
    var head := if s[0] == '$' || s[0] == '.' || IsSpace(s[0]) then "" else if s[0] == ',' then "." else [s[0]];
    assert c == head + CleanPriceText(s[1..]);
    if i < |head| {
      assert IsDigit(s[0]);
    } else {
      assert IsDigit(CleanPriceText(s[1..])[i - |head|]);
      CleanKeepsDigits(s[1..]);
      var j :| 0 <= j < |s[1..]| && IsDigit(s[1..][j]);
      assert IsDigit(s[j + 1]);
    }
  }

  lemma {:induction false} CleanAppend(a: string, b: string)
    ensures CleanPriceText(a + b) == CleanPriceText(a) + CleanPriceText(b)
  {
    if |a| > 0 {
      assert (a + b)[1..] == a[1..] + b;
      CleanAppend(a[1..], b);
    } else {
      assert a + b == b;
    }
  }

  lemma {:induction false} CleanDigits(s: string)
    requires AllDigits(s)
    ensures CleanPriceText(s) == s
  {
    if |s| > 0 {
      CleanDigits(s[1..]);
      assert s == [s[0]] + s[1..];
    }
  }

  /** An unsigned literal has a digit somewhere: in its integer part or,
      when that is empty, right after the point. */
  lemma ParseUnsignedNeedsDigit(u: string)
    requires ParseUnsigned(u).Some?
    ensures exists i :: 0 <= i < |u| && IsDigit(u[i])
  {
    var intPart := TakeDigits(u);
    if |intPart| > 0 {
      assert IsDigit(u[0]);
    } else {
      var rest := u[|intPart|..];
      assert |rest| > 0 && rest[0] == '.';
      var fracPart := TakeDigits(rest[1..]);
      assert |fracPart| > 0;
      assert IsDigit(u[1]);
    }
  }

  /** `parseFloat` yields a finite number only for a text holding a digit. */
  lemma ParseFloatNeedsDigit(s: string)
    requires ParseFloat(s).Some?
    ensures exists i :: 0 <= i < |s| && IsDigit(s[i])
  {
    var t := DropWhile(s, IsSpace);
    var u := if |t| > 0 && (t[0] == '-' || t[0] == '+') then t[1..] else t;
    assert ParseUnsigned(u).Some?;
    ParseUnsignedNeedsDigit(u);
    var i :| 0 <= i < |u| && IsDigit(u[i]);
    assert u == s[|s| - |u|..];
    assert IsDigit(s[|s| - |u| + i]);
  }

  /** `extractPrice` finds a finite price only in a text that has a digit. */
  lemma ExtractPriceNeedsDigit(s: string)
    requires ExtractPrice(Some(s)).Some?
    ensures exists i :: 0 <= i < |s| && IsDigit(s[i])
  {
    ParseFloatNeedsDigit(CleanPriceText(s));
    CleanKeepsDigits(s);
  }

  /** Removing the thousands separators gives back the digits. */
  lemma {:induction false} CleanGroupThousands(digits: string)
    requires AllDigits(digits)
    ensures CleanPriceText(GroupThousands(digits)) == digits
    decreases |digits|
  {
    if |digits| > 3 {
      var hi := digits[..|digits| - 3];
      var lo := digits[|digits| - 3..];
      CleanGroupThousands(hi);
      CleanGroupStep(GroupThousands(hi), lo);
      assert hi + lo == digits;
    } else {
      CleanDigits(digits);
    }
  }

  /** The separator in front of a group of digits is dropped. */
  lemma CleanGroupStep(g: string, lo: string)
    requires AllDigits(lo)
    ensures CleanPriceText(g + "." + lo) == CleanPriceText(g) + lo
  {
    CleanAppend(g + ".", lo);
    CleanDot(g);
    CleanDigits(lo);
  }

  lemma CleanDot(g: string)
    ensures CleanPriceText(g + ".") == CleanPriceText(g)
  {
    CleanAppend(g, ".");
    assert CleanPriceText(".") == "";
    assert CleanPriceText(g) + "" == CleanPriceText(g);
  }

  lemma {:induction false} TakeAllDigits(s: string)
    requires AllDigits(s)
    ensures TakeDigits(s) == s
  {
    if |s| > 0 {
      TakeAllDigits(s[1..]);
    }
  }

  lemma {:induction false} TakeDigitsStops(a: string, b: string)
    requires AllDigits(a)
    requires |b| > 0 && !IsDigit(b[0])
    ensures TakeDigits(a + b) == a
  {
    if |a| > 0 {
      assert (a + b)[1..] == a[1..] + b;
      TakeDigitsStops(a[1..], b);
    } else {
      assert a + b == b;
    }
  }

  /** Text that starts with a digit is read as an unsigned literal. */
  lemma ParseStartsWithDigit(u: string)
    requires |u| > 0 && IsDigit(u[0])
    ensures ParseFloat(u) == ParseUnsigned(u)
  {
    DigitIsPlain(u[0]);
    NoLeadingBlank(u);
  }

  lemma NoLeadingBlank(u: string)
    requires |u| > 0 && !IsSpace(u[0])
    ensures DropWhile(u, IsSpace) == u
  {
  }

  /** `parseFloat` of a plain digit string is its value. */
  lemma ParseDigits(a: string)
    requires |a| > 0 && AllDigits(a)
    ensures ParseFloat(a) == Some(DigitsValue(a) as real)
  {
    ParseStartsWithDigit(a);
    UnsignedDigits(a);
  }

  lemma UnsignedDigits(a: string)
    requires |a| > 0 && AllDigits(a)
    ensures ParseUnsigned(a) == Some(DigitsValue(a) as real)
  {
    TakeAllDigits(a);
    assert a[|a|..] == "";
    assert ParseAfterInteger(a, "") == Some(Literal(a, "", ""));
    LiteralPlain(a, "");
  }

  /** `parseFloat` of `a.b` with digit strings `a` (non-empty) and `b`. */
  lemma ParseDecimal(a: string, b: string)
    requires |a| > 0 && AllDigits(a) && AllDigits(b)
    ensures ParseFloat(a + "." + b) == Some(DigitsValue(a) as real + Fraction(b))
  {
    var s := a + "." + b;
    ConcatAssoc(a, ".", b);
    assert s[0] == a[0];
    ParseStartsWithDigit(s);
    UnsignedPoint(a, b);
    SomeLiteral(a, b);
  }

  lemma ConcatAssoc(a: string, b: string, c: string)
    ensures a + b + c == a + (b + c)
  {
  }

  lemma UnsignedPoint(a: string, b: string)
    requires AllDigits(a) && AllDigits(b) && |a + b| > 0
    ensures ParseUnsigned(a + ("." + b)) == Some(Literal(a, b, ""))
  {
    UnsignedSplit(a, "." + b);
    AfterIntegerPoint(a, b);
  }

  lemma SomeLiteral(a: string, b: string)
    requires AllDigits(a) && AllDigits(b)
    ensures Some(Literal(a, b, "")) == Some(DigitsValue(a) as real + Fraction(b))
  {
    LiteralPlain(a, b);
  }

  /** The integer digits of a literal end where a non-digit starts. */
  lemma UnsignedSplit(a: string, rest: string)
    requires AllDigits(a) && |rest| > 0 && !IsDigit(rest[0])
    ensures ParseUnsigned(a + rest) == ParseAfterInteger(a, rest)
  {
    TakeDigitsStops(a, rest);
    assert (a + rest)[|a|..] == rest;
  }

  lemma AfterIntegerPoint(a: string, b: string)
    requires AllDigits(a) && AllDigits(b) && |a + b| > 0
    ensures ParseAfterInteger(a, "." + b) == Some(Literal(a, b, ""))
  {
    var rest := "." + b;
    assert rest[1..] == b;
    TakeAllDigits(b);
    assert rest[1 + |b|..] == "";
  }

  lemma LiteralPlain(a: string, b: string)
    requires AllDigits(a) && AllDigits(b)
    ensures Literal(a, b, "") == DigitsValue(a) as real + Fraction(b)
  {
  }

  lemma {:induction false} GroupThousandsEnds(digits: string)
    requires |digits| > 0 && AllDigits(digits)
    ensures |GroupThousands(digits)| > 0
    ensures GroupThousands(digits)[|GroupThousands(digits)| - 1] == digits[|digits| - 1]
    decreases |digits|
  {
    if |digits| > 3 {
      GroupThousandsEnds(digits[..|digits| - 3]);
    }
  }

  /** A printed amount has no surrounding blanks. */
  lemma PesoTextTrimmed(n: nat)
    ensures Trim(PesoText(n)) == PesoText(n)
  {
    GroupThousandsEnds(NatToString(n));
    TrimFixed(PesoText(n));
  }

  /** Reading back a printed peso amount gives the amount: `extractPrice`
      treats dots as thousands separators. */
  lemma ExtractPesoText(n: nat)
    ensures ExtractPrice(Some(PesoText(n))) == Some(n as real)
  {
    CleanPesoText(n);
    ParseDigits(NatToString(n));
  }

  lemma CleanPesoText(n: nat)
    ensures CleanPriceText(PesoText(n)) == NatToString(n)
  {
    var digits := NatToString(n);
    CleanAppend("$", GroupThousands(digits));
    CleanGroupThousands(digits);
    assert CleanPriceText("$") == "";
  }

  /** The comma is the decimal mark: `1.990,5` reads as 1990.5. */
  lemma ExtractDecimalComma(a: string, b: string)
    requires |a| > 0 && AllDigits(a) && AllDigits(b)
    ensures ExtractPrice(Some(GroupThousands(a) + "," + b)) == Some(DigitsValue(a) as real + Fraction(b))
  {
    CleanAppend(GroupThousands(a) + ",", b);
    CleanAppend(GroupThousands(a), ",");
    CleanGroupThousands(a);
    CleanDigits(b);
    assert CleanPriceText(",") == ".";
    assert CleanPriceText(GroupThousands(a) + "," + b) == a + "." + b;
    ParseDecimal(a, b);
  }

  /** `extractNumber` reads the first number in a text, whatever surrounds it. */
  lemma ExtractNumberReadsFirstRun(before: string, n: nat, after: string)
    requires forall i :: 0 <= i < |before| ==> !IsDigit(before[i])
    requires |after| > 0 ==> !IsDigit(after[0])
    ensures ExtractNumber(Some(before + NatToString(n) + after)) == Some(n)
  {
    var digits := NatToString(n);
    var rest := digits + after;
    var s := before + rest;
    assert before + digits + after == s;
    DropNonDigits(before, rest);
    if |after| > 0 {
      TakeDigitsStops(digits, after);
    } else {
      assert rest == digits;
      TakeAllDigits(digits);
    }
    assert TakeDigits(rest) == digits;
  }

  lemma {:induction false} DropNonDigits(a: string, b: string)
    requires forall i :: 0 <= i < |a| ==> !IsDigit(a[i])
    requires |b| > 0 && IsDigit(b[0])
    ensures DropWhile(a + b, IsNotDigit) == b
  {
    if |a| > 0 {
      assert (a + b)[1..] == a[1..] + b;
      DropNonDigits(a[1..], b);
    } else {
      assert a + b == b;
    }
  }

  /** The worked examples: `$1.990` is 1990, `1.990,5` is 1990.5, and a
      bare `$` (or an empty or absent text) is no price at all. */
  lemma ExtractPriceExamples()
    ensures ExtractPrice(Some("$1.990")) == Some(1990.0)
    ensures ExtractPrice(Some("1.990,5")) == Some(1990.5)
    ensures ExtractPrice(Some("$")) == None
    ensures ExtractPrice(Some("")) == None && ExtractPrice(None) == None
  {
    PesoExample();
    CommaExample();
    assert CleanPriceText("$") == "";
    assert DropWhile("", IsSpace) == "";
  }

  lemma PesoExample()
    ensures ExtractPrice(Some("$1.990")) == Some(1990.0)
  {
    ExtractPesoText(1990);
    PrintedExample();
  }

  lemma PrintedExample()
    ensures PesoText(1990) == "$1.990"
  {
    assert NatToString(19) == "19";
    assert NatToString(199) == "199";
    assert NatToString(1990) == "1990";
    GroupedExample();
  }

  lemma GroupedExample()
    ensures GroupThousands("1990") == "1.990"
  {
    assert "1990"[..1] == "1";
    assert "1990"[1..] == "990";
  }

  lemma CommaExample()
    ensures ExtractPrice(Some("1.990,5")) == Some(1990.5)
  {
    ExtractDecimalComma("1990", "5");
    CommaText();
    DigitsExample();
  }

  lemma CommaText()
    ensures GroupThousands("1990") + "," + "5" == "1.990,5"
  {
    GroupedExample();
  }

  lemma DigitsExample()
    ensures DigitsValue("1990") == 1990 && Fraction("5") == 0.5
  {
    assert "1990"[..3] == "199";
    assert "199"[..2] == "19";
    assert "19"[..1] == "1";
    assert "5"[1..] == "";
  }
}

=== FILE: orchestrator.dfy ===
/**
  The scraper command line: `parseArgs`, the dispatch in `main`, and the
  tallies `printSummary` reports. Running a scraper drives a browser and
  is not part of this model; its results are inputs here.
 */
module Orchestrator {
  import opened Js
  import opened Text
  import opened Tables

  // ---------------------------------------------------------------------------
  // parseArgs
  // ---------------------------------------------------------------------------

  datatype Options = Options(all: bool, supermarket: Option<string>)

  const AllFlag := "--all"
  const SupermarketPrefix := "--supermarket="

  /** The registered scrapers, in key order. */
  const Registry: seq<string> := ["jumbo", "lider"]

  predicate StartsWith(s: string, prefix: string) {
    |prefix| <= |s| && s[..|prefix|] == prefix
  }

  predicate IsSupermarketArg(arg: string) {
    StartsWith(arg, SupermarketPrefix)
  }

  /** `arg.split('=')[1]`: the text between the first and the second `=`
      (to the end when there is no second one). */
  function SecondField(arg: string): (r: string)
    requires IsSupermarketArg(arg)
    ensures '=' !in r
  {
    BeforeFirst(arg[|SupermarketPrefix|..], '=')
  }

  /** One iteration of the argument loop. */
  function Step(o: Options, arg: string): Options {
    if arg == AllFlag then o.(all := true)
    else if IsSupermarketArg(arg) then o.(supermarket := Some(SecondField(arg)))
    else o
  }

  /** `parseArgs()` over the command-line arguments (after the first two):
      `--all` sets the flag, the last `--supermarket=` names the scraper,
      anything else is ignored. */
  function ParseArgs(args: seq<string>): (o: Options)
    ensures o.all <==> AllFlag in args
    ensures o.supermarket.None? <==> forall i :: 0 <= i < |args| ==> !IsSupermarketArg(args[i])
  {
    if |args| == 0 then Options(false, None)
    else
      var prev := args[..|args| - 1];
      assert args == prev + [args[|args| - 1]];
      Step(ParseArgs(prev), args[|args| - 1])
  }

  /** The last `--supermarket=` argument wins. */
  lemma {:induction false} LastSupermarketWins(args: seq<string>)
    requires ParseArgs(args).supermarket.Some?
    ensures exists i :: 0 <= i < |args| && IsSupermarketArg(args[i]) &&
                       ParseArgs(args).supermarket.value == SecondField(args[i]) &&
                       forall j :: i < j < |args| ==> !IsSupermarketArg(args[j])
  {
    var prev := args[..|args| - 1];
    var last := args[|args| - 1];
    if IsSupermarketArg(last) {
      assert ParseArgs(args).supermarket.value == SecondField(args[|args| - 1]);
    } else {
      assert ParseArgs(args).supermarket == ParseArgs(prev).supermarket;
      LastSupermarketWins(prev);
      var i :| 0 <= i < |prev| && IsSupermarketArg(prev[i]) &&
        ParseArgs(prev).supermarket.value == SecondField(prev[i]) &&
        forall j :: i < j < |prev| ==> !IsSupermarketArg(prev[j]);
      assert args[i] == prev[i];
      assert forall j :: i < j < |args| ==> !IsSupermarketArg(args[j]) by {
        forall j | i < j < |args| ensures !IsSupermarketArg(args[j]) {
          if j < |args| - 1 {
            assert args[j] == prev[j];
          }
        }
      }
    }
  }

  // ---------------------------------------------------------------------------
  // Dispatch
  // ---------------------------------------------------------------------------

  datatype Action = RunAll(names: seq<string>) | RunOne(name: string) | ShowUsage

  /** The branch `main` takes: all scrapers, one named scraper, or the
      usage text when the name is absent or empty. */
  function Dispatch(o: Options): (a: Action)
    ensures o.all ==> a == RunAll(Registry)
    ensures a.RunOne? <==> !o.all && TruthyStr(o.supermarket)
    ensures a.RunOne? ==> a.name == o.supermarket.value
  {
    if o.all then RunAll(Registry)
    else if TruthyStr(o.supermarket) then RunOne(o.supermarket.value)
    else ShowUsage
  }

  /** `--all` wins over a named supermarket, wherever it appears. */
  lemma AllWins(args: seq<string>)
    requires AllFlag in args
    ensures Dispatch(ParseArgs(args)) == RunAll(Registry)
  {
  }

  /** `--supermarket=` with nothing after it shows the usage text. */
  lemma EmptyNameShowsUsage()
    ensures Dispatch(ParseArgs([SupermarketPrefix])) == ShowUsage
  {
    var arg := SupermarketPrefix;
    assert IsSupermarketArg(arg);
    assert arg[|SupermarketPrefix|..] == "";
    var args: seq<string> := [arg];
    assert args[..0] == [];
    assert ParseArgs(args) == Step(ParseArgs([]), arg);
  }

  /** Only the first `=` separates: `--supermarket=lider=x` names `lider`. */
  lemma SecondFieldStopsAtEquals(name: string, rest: string)
    requires '=' !in name
    ensures SecondField(SupermarketPrefix + name + "=" + rest) == name
  {
    var arg := SupermarketPrefix + name + "=" + rest;
    assert arg[..|SupermarketPrefix|] == SupermarketPrefix;
    assert arg[|SupermarketPrefix|..] == name + "=" + rest;
    BeforeFirstAppend(name, '=', rest);
  }

  // ---------------------------------------------------------------------------
  // printSummary tallies
  // ---------------------------------------------------------------------------

  /** One scraper's result; `count` is absent on failures. */
  datatype ScrapeResult = ScrapeResult(success: bool, supermarket: string, count: Option<nat>)

  datatype Summary = Summary(total: nat, successful: nat, failed: nat, totalProducts: nat)

  predicate Succeeded(r: ScrapeResult) { r.success }

  /** `r.count || 0`. */
  function CountOf(r: ScrapeResult): nat {
    r.count.GetOr(0)
  }

  /** The products over all results, added left to right as `reduce` does. */
  function TotalProducts(rs: seq<ScrapeResult>): nat {
    if |rs| == 0 then 0 else TotalProducts(rs[..|rs| - 1]) + CountOf(rs[|rs| - 1])
  }

  /** The tallies `printSummary` prints, in one pass. */
  method Summarize(results: seq<ScrapeResult>) returns (s: Summary)
    ensures s.total == |results|
    ensures s.successful == CountWhere(results, Succeeded)
    ensures s.successful + s.failed == s.total
    ensures s.failed == CountWhere(results, r => !Succeeded(r))
    ensures s.totalProducts == TotalProducts(results)
  {
    var ok, bad, products := 0, 0, 0;
    var i := 0;
    while i < |results|
      invariant 0 <= i <= |results|
      invariant ok == CountWhere(results[..i], Succeeded)
      invariant bad == CountWhere(results[..i], r => !Succeeded(r))
      invariant ok + bad == i
      invariant products == TotalProducts(results[..i])
    {
      var r := results[i];
      assert results[..i + 1] == results[..i] + [r];
      CountWhereSnoc(results[..i], r, Succeeded);
      CountWhereSnoc(results[..i], r, r => !Succeeded(r));
      if r.success {
        ok := ok + 1;
      } else {
        bad := bad + 1;
      }
      products := products + CountOf(r);
      i := i + 1;
    }
    assert results[..i] == results;
    s := Summary(|results|, ok, bad, products);
  }

  /** The product total adds up over concatenated result lists. */
  lemma {:induction false} TotalProductsAppend(a: seq<ScrapeResult>, b: seq<ScrapeResult>)
    ensures TotalProducts(a + b) == TotalProducts(a) + TotalProducts(b)
    decreases |b|
  {
    if |b| > 0 {
      assert (a + b)[..|a + b| - 1] == a + b[..|b| - 1];
      assert (a + b)[|a + b| - 1] == b[|b| - 1];
      TotalProductsAppend(a, b[..|b| - 1]);
    } else {
      assert a + b == a;
    }
  }

  /** A failed result with no count adds nothing to the product total. */
  lemma FailureAddsNothing(rs: seq<ScrapeResult>, name: string)
    ensures TotalProducts(rs + [ScrapeResult(false, name, None)]) == TotalProducts(rs)
  {
    assert (rs + [ScrapeResult(false, name, None)])[..|rs|] == rs;
  }
}

=== FILE: price.dfy ===
/**
  The `Price` entity of the backend: constructor coercions, the discount,
  effective-price and savings arithmetic, validation and the mapping to
  and from a `prices` row.

  Amounts are exact reals. `normalPrice` goes through `parseFloat`, so it
  may be `NaN`; `None` stands for `NaN` there.
 */
module PriceEntity {
  import opened Js

  /** The object handed to `new Price({...})`. `currency` and `isCurrent`
      have default parameters, which fire only on `undefined`. */
  datatype PriceInput = PriceInput(
    id: Option<Id>,
    productId: Option<Id>,
    normalPrice: Option<real>,
    offerPrice: Option<real>,
    discountPercentage: Option<real>,
    hasOffer: Option<bool>,
    offerDescription: Option<string>,
    pricePerUnit: Option<real>,
    currency: Field<string>,
    isCurrent: Field<bool>,
    effectiveDate: Option<Timestamp>,
    createdAt: Option<Timestamp>)

  datatype Price = Price(
    id: Option<Id>,
    productId: Option<Id>,
    normalPrice: Option<real>,
    offerPrice: Option<real>,
    discountPercentage: Option<real>,
    hasOffer: bool,
    offerDescription: Option<string>,
    pricePerUnit: Option<real>,
    currency: Option<string>,
    isCurrent: Option<bool>,
    effectiveDate: Timestamp,
    createdAt: Option<Timestamp>)

  /** A row of the `prices` table. */
  datatype PriceRow = PriceRow(
    id: Option<Id>,
    product_id: Option<Id>,
    normal_price: Option<real>,
    offer_price: Option<real>,
    discount_percentage: Option<real>,
    has_offer: Option<bool>,
    offer_description: Option<string>,
    price_per_unit: Option<real>,
    currency: Option<string>,
    is_current: Option<bool>,
    effective_date: Option<Timestamp>,
    created_at: Option<Timestamp>)

  datatype Validation = Validation(isValid: bool, errors: seq<string>)

  const ProductIdRequired := "Product ID is required"
  const NormalPriceRequired := "Normal price must be greater than 0"
  const OfferAboveNormal := "Offer price cannot be greater than normal price"

  const DefaultCurrency := "CLP"

  // ---------------------------------------------------------------------------
  // Constructor
  // ---------------------------------------------------------------------------

  /** `new Price({...})` at instant `now` (used when no effective date is
      given). Falsy amounts become `null`. */
  function New(inp: PriceInput, now: Timestamp): (p: Price)
    ensures p.offerPrice.Some? <==> TruthyNum(inp.offerPrice)
    ensures p.offerPrice.Some? ==> p.offerPrice == inp.offerPrice
    ensures p.discountPercentage.Some? <==> TruthyNum(inp.discountPercentage)
    ensures p.pricePerUnit.Some? <==> TruthyNum(inp.pricePerUnit)
    ensures p.hasOffer <==> inp.hasOffer == Some(true)
    ensures inp.currency.Undefined? ==> p.currency == Some(DefaultCurrency)
    ensures inp.isCurrent.Undefined? ==> p.isCurrent == Some(true)
    ensures inp.currency.Defined? ==> p.currency == Some(inp.currency.value)
    ensures inp.isCurrent.Null? ==> p.isCurrent.None?
    ensures inp.effectiveDate.None? ==> p.effectiveDate == now
    ensures inp.currency.Null? ==> p.currency.None?
    ensures inp.isCurrent.Defined? ==> p.isCurrent == Some(inp.isCurrent.value)
  {
    Price(
      inp.id, inp.productId, inp.normalPrice,
      NumOrNull(inp.offerPrice), NumOrNull(inp.discountPercentage),
      inp.hasOffer == Some(true), inp.offerDescription, NumOrNull(inp.pricePerUnit),
      DefaultIfUndefined(inp.currency, DefaultCurrency),
      DefaultIfUndefined(inp.isCurrent, true),
      inp.effectiveDate.GetOr(now), inp.createdAt)
  }

  /** The coercions leave no offer or per-unit price of exactly 0. */
  predicate WellFormed(p: Price) {
    p.offerPrice != Some(0.0) && p.pricePerUnit != Some(0.0)
  }

  // ---------------------------------------------------------------------------
  // Arithmetic
  // ---------------------------------------------------------------------------

  /** `Math.round(x)`: the nearest integer, halves rounded up. */
  function Round(x: real): (n: int)
    ensures x - 0.5 < n as real <= x + 0.5
  {
    (x + 0.5).Floor
  }

  /** `Math.round(x * 100) / 100`. */
  function Round2(x: real): (r: real)
    ensures x - 0.005 < r <= x + 0.005
  {
    Round(x * 100.0) as real / 100.0
  }

  /** The exact percentage off: `(normal - offer) / normal * 100`. */
  function PercentOff(normal: real, offer: real): real
    requires normal != 0.0
  {
    (normal - offer) / normal * 100.0
  }

  /** `calculateDiscount()`: with a (truthy) offer and a positive normal
      price, the rounded percentage off and `hasOffer`; otherwise neither. */
  function CalculateDiscount(p: Price): (q: Price)
    ensures q == p.(discountPercentage := q.discountPercentage, hasOffer := q.hasOffer)
    ensures q.hasOffer <==> TruthyNum(p.offerPrice) && p.normalPrice.Some? && p.normalPrice.value > 0.0
    ensures q.discountPercentage.Some? <==> q.hasOffer
    ensures q.hasOffer ==>
      q.discountPercentage == Some(Round2(PercentOff(p.normalPrice.value, p.offerPrice.value)))
    ensures q.hasOffer ==>
      var exact := PercentOff(p.normalPrice.value, p.offerPrice.value);
      exact - 0.005 < q.discountPercentage.value <= exact + 0.005
  {
    if TruthyNum(p.offerPrice) && p.normalPrice.Some? && p.normalPrice.value > 0.0 then
      p.(discountPercentage := Some(Round2(PercentOff(p.normalPrice.value, p.offerPrice.value))), hasOffer := true)
    else
      p.(discountPercentage := None, hasOffer := false)
  }

  /** `getEffectivePrice()`: the offer when truthy, else the normal price. */
  function EffectivePrice(p: Price): (r: Option<real>)
    ensures TruthyNum(p.offerPrice) ==> r == p.offerPrice
    ensures !TruthyNum(p.offerPrice) ==> r == p.normalPrice
  {
    if TruthyNum(p.offerPrice) then p.offerPrice else p.normalPrice
  }

  /** `getSavings()`: normal minus offer when there is an offer, else 0
      (`None` is the `NaN` of a missing normal price). */
  function Savings(p: Price): (r: Option<real>)
    ensures !(p.hasOffer && TruthyNum(p.offerPrice)) ==> r == Some(0.0)
    ensures p.hasOffer && TruthyNum(p.offerPrice) && p.normalPrice.Some? ==>
      r == Some(p.normalPrice.value - p.offerPrice.value)
  {
    if p.hasOffer && TruthyNum(p.offerPrice) then
      match p.normalPrice
      case Some(n) => Some(n - p.offerPrice.value)
      case None => None
    else Some(0.0)
  }

  // ---------------------------------------------------------------------------
  // Validation
  // ---------------------------------------------------------------------------

  predicate NormalPriceBad(p: Price) {
    p.normalPrice.None? || p.normalPrice.value <= 0.0
  }

  /** A comparison with `NaN` is false, so a missing normal price never
      makes the offer too high. */
  predicate OfferTooHigh(p: Price) {
    TruthyNum(p.offerPrice) && p.normalPrice.Some? && p.offerPrice.value > p.normalPrice.value
  }

  /** `validate()`, errors in source order. */
  function Validate(p: Price): (v: Validation)
    ensures v.isValid <==> v.errors == []
    ensures ProductIdRequired in v.errors <==> !TruthyStr(p.productId)
    ensures NormalPriceRequired in v.errors <==> NormalPriceBad(p)
    ensures OfferAboveNormal in v.errors <==> OfferTooHigh(p)
  {
    var errors :=
      Check(!TruthyStr(p.productId), ProductIdRequired) +
      Check(NormalPriceBad(p), NormalPriceRequired) +
      Check(OfferTooHigh(p), OfferAboveNormal);
    Validation(|errors| == 0, errors)
  }

  // ---------------------------------------------------------------------------
  // Row mapping
  // ---------------------------------------------------------------------------

  /** `toDB()`: every field but `createdAt`. */
  function ToDB(p: Price): (r: PriceRow)
    ensures r.created_at.None? && r.effective_date == Some(p.effectiveDate)
    ensures r.discount_percentage == p.discountPercentage && r.is_current == p.isCurrent
    ensures r.id == p.id && r.product_id == p.productId && r.normal_price == p.normalPrice
    ensures r.offer_price == p.offerPrice && r.has_offer == Some(p.hasOffer)
    ensures r.offer_description == p.offerDescription && r.price_per_unit == p.pricePerUnit
    ensures r.currency == p.currency
  {
    PriceRow(
      p.id, p.productId, p.normalPrice, p.offerPrice, p.discountPercentage,
      Some(p.hasOffer), p.offerDescription, p.pricePerUnit, p.currency, p.isCurrent,
      Some(p.effectiveDate), None)
  }

  /** The constructor input `fromDB` builds from a row: a `NULL` column is a
      `null` property, so the default parameters do not fire. */
  function InputOf(row: PriceRow): PriceInput {
    PriceInput(
      row.id, row.product_id, row.normal_price, row.offer_price, row.discount_percentage,
      row.has_offer, row.offer_description, row.price_per_unit,
      FromOption(row.currency), FromOption(row.is_current),
      row.effective_date, row.created_at)
  }

  /** `Price.fromDB` on a row that exists, at instant `now`. */
  function FromRow(row: PriceRow, now: Timestamp): (p: Price)
    ensures p.productId == row.product_id && p.normalPrice == row.normal_price
    ensures p.currency == row.currency && p.isCurrent == row.is_current
    ensures p.id == row.id && p.offerDescription == row.offer_description
    ensures p.offerPrice == (if TruthyNum(row.offer_price) then row.offer_price else None)
    ensures p.discountPercentage == (if TruthyNum(row.discount_percentage) then row.discount_percentage else None)
    ensures p.pricePerUnit == (if TruthyNum(row.price_per_unit) then row.price_per_unit else None)
    ensures p.hasOffer <==> row.has_offer == Some(true)
    ensures p.effectiveDate == (if row.effective_date.Some? then row.effective_date.value else now)
    ensures p.createdAt == row.created_at
  {
    New(InputOf(row), now)
  }

  /** `Price.fromDB`. */
  function FromDB(row: Option<PriceRow>, now: Timestamp): (p: Option<Price>)
    ensures p.Some? <==> row.Some?
  {
    match row
    case None => None
    case Some(r) => Some(FromRow(r, now))
  }

  // ---------------------------------------------------------------------------
  // Lemmas
  // ---------------------------------------------------------------------------

  lemma NewIsWellFormed(inp: PriceInput, now: Timestamp)
    ensures WellFormed(New(inp, now))
  {
  }

  lemma CalculateDiscountKeepsWellFormed(p: Price)
    requires WellFormed(p)
    ensures WellFormed(CalculateDiscount(p))
  {
  }

  /** `validate` accepts exactly: a product id, a positive normal price, and
      no offer above it. */
  lemma ValidateIff(p: Price)
    ensures Validate(p).isValid <==>
      TruthyStr(p.productId) && p.normalPrice.Some? && p.normalPrice.value > 0.0 &&
      !(TruthyNum(p.offerPrice) && p.offerPrice.value > p.normalPrice.value)
  {
  }

  /** A negative offer is not rejected. */
  lemma NegativeOfferIsValid(p: Price)
    requires TruthyStr(p.productId) && p.normalPrice == Some(1000.0) && p.offerPrice == Some(-5.0)
    ensures Validate(p).isValid
    ensures CalculateDiscount(p).discountPercentage.value > 100.0
  {
    var d := PercentOff(1000.0, -5.0);
    assert d == 100.5;
  }

  /** The example of the design: 750 instead of 1000 is 25% off. */
  lemma DiscountExample(p: Price)
    requires p.normalPrice == Some(1000.0) && p.offerPrice == Some(750.0)
    ensures CalculateDiscount(p).discountPercentage == Some(25.0)
    ensures CalculateDiscount(p).hasOffer
  {
    assert PercentOff(1000.0, 750.0) == 25.0;
    assert Round(2500.0) == 2500;
  }

  /** The share taken off lies between 0 and 100 percent when the offer is
      positive and at most the normal price. */
  lemma PercentOffInRange(normal: real, offer: real)
    requires 0.0 < offer <= normal
    ensures 0.0 <= PercentOff(normal, offer) <= 100.0
  {
    var q := (normal - offer) / normal;
    assert q * normal == normal - offer;
  }

  /** Rounding to hundredths keeps a value of [0, 100] in [0, 100]. */
  lemma Round2InRange(x: real)
    requires 0.0 <= x <= 100.0
    ensures 0.0 <= Round2(x) <= 100.0
  {
    var n := Round(x * 100.0);
    assert 0 <= n <= 10000;
  }

  /** For a valid price whose offer is positive, the computed discount lies
      in [0, 100]. */
  lemma DiscountInRange(p: Price)
    requires Validate(p).isValid
    requires p.offerPrice.Some? && p.offerPrice.value > 0.0
    ensures CalculateDiscount(p).discountPercentage.Some?
    ensures 0.0 <= CalculateDiscount(p).discountPercentage.value <= 100.0
  {
    PercentOffInRange(p.normalPrice.value, p.offerPrice.value);
    Round2InRange(PercentOff(p.normalPrice.value, p.offerPrice.value));
  }

  /** For a valid price the effective price exists and is at most the normal
      price, and the savings are never negative. */
  lemma ValidPriceBounds(p: Price)
    requires Validate(p).isValid
    ensures EffectivePrice(p).Some? && EffectivePrice(p).value <= p.normalPrice.value
    ensures Savings(p).Some? && Savings(p).value >= 0.0
  {
  }

  /** `fromDB(toDB(p))` gives back every field except `createdAt` (not
      written) and a discount of exactly 0, which the truthiness coercion
      turns into `null`. */
  lemma RoundTrip(p: Price, now: Timestamp)
    requires WellFormed(p)
    ensures FromDB(Some(ToDB(p)), now) ==
      Some(p.(discountPercentage := NumOrNull(p.discountPercentage), createdAt := None))
  {
  }

  /** The zero-discount case: an offer equal to the normal price is stored
      with discount 0 and read back with none. */
  lemma ZeroDiscountLost(p: Price, now: Timestamp)
    requires WellFormed(p)
    requires p.normalPrice == Some(990.0) && p.offerPrice == Some(990.0)
    ensures CalculateDiscount(p).discountPercentage == Some(0.0)
    ensures FromDB(Some(ToDB(CalculateDiscount(p))), now).value.discountPercentage.None?
  {
    assert PercentOff(990.0, 990.0) == 0.0;
    assert Round(0.0) == 0;
    RoundTrip(CalculateDiscount(p), now);
  }
}

=== FILE: pricecontroller.dfy ===
/**
  `PriceController`: the comparison endpoint's best deal and savings, and
  the limits the offers and history endpoints hand to the repository.

  A response is its status with the payload or error text. Query-string
  parameters are optional strings; a database error (a `NaN` or negative
  `LIMIT`/`OFFSET`, which PostgreSQL rejects) is the 500 response.
 */
module PriceController {
  import opened Js
  import opened Text
  import opened Tables
  import opened Numbers
  import Repo = ProductRepository
  import opened PriceRepository

  datatype Response<T> =
    | Ok(data: T)
    | BadRequest(error: string)
    | NotFound(error: string)
    | ServerError(error: string)

  const MissingMaster := "masterProductId query parameter is required"
  const NothingToCompare := "No products found for comparison"
  const OffersFailed := "Failed to fetch offers"
  const HistoryFailed := "Failed to fetch price history"

  // ---------------------------------------------------------------------------
  // compare
  // ---------------------------------------------------------------------------

  /** A comparison row with `effectivePrice` and `savingsVsBest` added. */
  datatype CompareItem = CompareItem(row: ComparisonRow, effectivePrice: Option<real>, savingsVsBest: real)

  datatype BestDeal = BestDeal(supermarket: Option<string>, price: Option<real>, hasOffer: Option<bool>)

  datatype Comparison = Comparison(comparison: seq<CompareItem>, bestDeal: BestDeal)

  /** `item.offer_price || item.normal_price`. */
  function Effective(row: ComparisonRow): (r: Option<real>)
    ensures TruthyNum(row.offer_price) ==> r == row.offer_price
    ensures !TruthyNum(row.offer_price) ==> r == row.normal_price
  {
    if TruthyNum(row.offer_price) then row.offer_price else row.normal_price
  }

  /** The number a subtraction reads: `null` counts as 0. */
  function Num(o: Option<real>): real {
    match o
    case Some(v) => v
    case None => 0.0
  }

  /** The savings map over rows that the repository returned, first row the
      best deal. */
  function Savings(rows: seq<ComparisonRow>): (items: seq<CompareItem>)
    requires |rows| > 0
    ensures |items| == |rows|
    ensures forall i :: 0 <= i < |rows| ==>
      items[i].row == rows[i] && items[i].effectivePrice == Effective(rows[i]) &&
      items[i].savingsVsBest == Num(Effective(rows[i])) - Num(Effective(rows[0]))
  {
    var best := Effective(rows[0]);
    Map(rows, row => CompareItem(row, Effective(row), Num(Effective(row)) - Num(best)))
  }

  /** `compare` given the rows the repository returns for the master id. */
  function CompareRows(masterProductId: Option<string>, rows: seq<ComparisonRow>): (r: Response<Comparison>)
    ensures r.BadRequest? <==> !TruthyStr(masterProductId)
    ensures r.BadRequest? ==> r.error == MissingMaster
    ensures r.NotFound? <==> TruthyStr(masterProductId) && |rows| == 0
    ensures r.NotFound? ==> r.error == NothingToCompare
    ensures !r.ServerError?
    ensures r.Ok? ==> |rows| > 0
    ensures r.Ok? ==> r.data.comparison == Savings(rows)
    ensures r.Ok? ==> r.data.bestDeal == BestDeal(rows[0].supermarket_name, Effective(rows[0]), rows[0].has_offer)
    ensures r.Ok? ==> r.data.comparison[0].savingsVsBest == 0.0
    ensures r.Ok? ==> r.data.bestDeal.price == r.data.comparison[0].effectivePrice
  {
    if !TruthyStr(masterProductId) then BadRequest(MissingMaster)
    else if |rows| == 0 then NotFound(NothingToCompare)
    else Ok(Comparison(Savings(rows), BestDeal(rows[0].supermarket_name, Effective(rows[0]), rows[0].has_offer)))
  }

  /** `GET /api/prices/compare?masterProductId=…` against a database. */
  function Compare(db: Db, masterProductId: Option<string>): (r: Response<Comparison>)
    ensures !TruthyStr(masterProductId) ==> r == BadRequest(MissingMaster)
  {
    if !TruthyStr(masterProductId) then BadRequest(MissingMaster)
    else CompareRows(masterProductId, CompareByMasterProduct(db, masterProductId))
  }

  /** Rows whose offer is never 0 and whose normal price is never `NULL`
      have `COALESCE(offer, normal)` equal to `offer || normal`. */
  predicate PlainPrices(row: ComparisonRow) {
    row.offer_price != Some(0.0) && row.normal_price.Some?
  }

  /** Over rows in the repository's order, and with plain prices, no row is
      cheaper than the best deal: every saving is at least 0. */
  lemma SavingsNonNegative(db: Db, masterProductId: Option<string>)
    requires Compare(db, masterProductId).Ok?
    requires forall row :: row in CompareByMasterProduct(db, masterProductId) ==> PlainPrices(row)
    ensures forall item :: item in Compare(db, masterProductId).data.comparison ==> item.savingsVsBest >= 0.0
  {
    var rows := CompareByMasterProduct(db, masterProductId);
    var items := Compare(db, masterProductId).data.comparison;
    CheapestFirstOrders();
    forall item | item in items ensures item.savingsVsBest >= 0.0 {
      var i :| 0 <= i < |items| && items[i] == item;
      if i > 0 {
        SortedPairwise(rows, CheapestFirst, 0, i);
        assert rows[0] in rows && rows[i] in rows;
        EffectiveIsKey(rows[0]);
        EffectiveIsKey(rows[i]);
      }
    }
  }

  lemma EffectiveIsKey(row: ComparisonRow)
    requires PlainPrices(row)
    ensures Effective(row) == EffectiveKey(row.offer_price, row.normal_price) && Effective(row).Some?
  {
  }

  /** An offer of exactly 0 sorts first in the database but reads as the
      normal price here, so a later row can show negative savings. This
      holds for prices delivered as numbers, the reading this model takes
      throughout; a driver that returns `NUMERIC` columns as text gives
      `"0.00"`, which is truthy, and then no such row arises. */
  lemma ZeroOfferNegativeSavings(a: ComparisonRow, b: ComparisonRow)
    requires a.offer_price == Some(0.0) && a.normal_price == Some(1000.0)
    requires b.offer_price.None? && b.normal_price == Some(500.0)
    ensures CheapestFirst(a, b)
    ensures CompareRows(Some("m"), [a, b]).data.comparison[1].savingsVsBest == -500.0
  {
  }

  // ---------------------------------------------------------------------------
  // getOffers / getHistory
  // ---------------------------------------------------------------------------

  const OffersDefault: nat := 20
  const OffersCap: int := 100

  /** `Math.min(parseInt(limit), 100)` with `limit = 20` when omitted;
      `None` is `NaN`. */
  function OffersLimit(limit: Option<string>): (r: Option<int>)
    ensures limit.None? ==> r == Some(OffersDefault)
    ensures r.Some? ==> r.value <= OffersCap
    ensures limit.Some? ==> (r.Some? <==> ParseInt(limit.value).Some?)
    ensures limit.Some? && r.Some? ==>
      r.value == (if ParseInt(limit.value).value <= OffersCap then ParseInt(limit.value).value else OffersCap)
  {
    match limit
    case None => Some(OffersDefault)
    case Some(s) =>
      match ParseInt(s)
      case None => None
      case Some(n) => Some(if n <= OffersCap then n else OffersCap)
  }

  /** `parseInt(limit)` with `limit = 30` when omitted: not clamped. */
  function HistoryLimitOf(limit: Option<string>): (r: Option<int>)
    ensures limit.None? ==> r == Some(HistoryLimit)
    ensures limit.Some? ==> r == ParseInt(limit.value)
  {
    match limit
    case None => Some(HistoryLimit)
    case Some(s) => ParseInt(s)
  }

  /** `parseInt(offset)` with `offset = 0` when omitted. */
  function OffsetOf(offset: Option<string>): (r: Option<int>)
    ensures offset.None? ==> r == Some(0)
    ensures offset.Some? ==> r == ParseInt(offset.value)
  {
    match offset
    case None => Some(0)
    case Some(s) => ParseInt(s)
  }

  /** The paging the repository can run: both values numbers, neither
      negative. */
  function Runnable(limit: Option<int>, offset: Option<int>): (p: Option<Repo.Paging>)
    ensures p.Some? <==> limit.Some? && offset.Some? && limit.value >= 0 && offset.value >= 0
    ensures p.Some? ==> p.value.limit == Some(limit.value as nat) && p.value.offset == Some(offset.value as nat)
  {
    if limit.Some? && offset.Some? && limit.value >= 0 && offset.value >= 0 then
      Some(Repo.Paging(Some(limit.value as nat), Some(offset.value as nat)))
    else None
  }

  /** `GET /api/prices/offers`. */
  function GetOffers(db: Db, limit: Option<string>, offset: Option<string>, supermarketId: Option<string>): (r: Response<seq<OfferRow>>)
    ensures r.Ok? || r == ServerError(OffersFailed)
    ensures r.Ok? <==> Runnable(OffersLimit(limit), OffsetOf(offset)).Some?
    ensures r.Ok? ==> |r.data| <= OffersLimit(limit).value <= OffersCap
  {
    match Runnable(OffersLimit(limit), OffsetOf(offset))
    case None => ServerError(OffersFailed)
    case Some(p) => Ok(FindWithOffers(db, supermarketId, p))
  }

  /** `GET /api/prices/history/:productId`. */
  function GetHistory(db: Db, productId: string, limit: Option<string>, offset: Option<string>): (r: Response<seq<HistoryRow>>)
    ensures r.Ok? || r == ServerError(HistoryFailed)
    ensures r.Ok? <==> Runnable(HistoryLimitOf(limit), OffsetOf(offset)).Some?
    ensures r.Ok? ==> |r.data| <= HistoryLimitOf(limit).value
    ensures r.Ok? ==> forall row :: row in r.data ==> row in db.history && row.product_id == Some(productId)
  {
    match Runnable(HistoryLimitOf(limit), OffsetOf(offset))
    case None => ServerError(HistoryFailed)
    case Some(p) => Ok(FindHistoryByProductId(db.history, Some(productId), p))
  }

  /** The same `limit=500` is capped at 100 for offers but passed through
      for the history. */
  lemma OnlyOffersAreCapped()
    ensures OffersLimit(Some("500")) == Some(100)
    ensures HistoryLimitOf(Some("500")) == Some(500)
  {
    FiveHundred();
    ParseIntOfNat(500);
  }

  lemma FiveHundred()
    ensures NatToString(500) == "500"
  {
    assert NatToString(50) == "50" by {
      assert NatToString(5) == "5";
    }
  }

  /** A limit that is not a number fails the request. */
  lemma NonNumericLimitFails(db: Db, offset: Option<string>, supermarketId: Option<string>)
    ensures GetOffers(db, Some("abc"), offset, supermarketId) == ServerError(OffersFailed)
  {
    assert !IsSpace('a') && !IsDigit('a');
    assert DropWhile("abc", IsSpace) == "abc";
    assert Unsigned("abc") == "abc";
  }
}

=== FILE: pricerepo.dfy ===
/**
  `PriceRepository` over in-memory tables.

  The joins of `compareByMasterProduct`, `findWithOffers` and
  `getStatsBySupermarket` are nested loops over the joined tables, one
  output row per combination that passes the `ON` and `WHERE` conditions;
  a lemma for each states its rows directly. The new row's id and
  `NOW()` are parameters.
 */
module PriceRepository {
  import opened Js
  import opened Tables
  import opened Sql
  import Prices = PriceEntity
  import Products = ProductEntity
  import Markets = SupermarketEntity
  import Repo = ProductRepository

  type PriceRow = Prices.PriceRow
  type ProductRow = Products.ProductRow
  type SupermarketRow = Markets.SupermarketRow

  /** A row of `product_matches`. */
  datatype MatchRow = MatchRow(
    master_product_id: Option<Id>,
    matched_product_id: Option<Id>,
    similarity_score: Option<real>)

  /** A row of `price_history`, by the columns the repository reads. */
  datatype HistoryRow = HistoryRow(
    product_id: Option<Id>,
    normal_price: Option<real>,
    offer_price: Option<real>,
    recorded_at: Option<Timestamp>)

  datatype Db = Db(
    supermarkets: seq<SupermarketRow>,
    products: seq<ProductRow>,
    prices: seq<PriceRow>,
    matches: seq<MatchRow>,
    history: seq<HistoryRow>)

  /** SQL `a = b`: never true when either side is `NULL`. */
  predicate Eq<T(==)>(a: Option<T>, b: Option<T>) {
    a.Some? && a == b
  }

  /** `column = true`. */
  predicate IsTrue(b: Option<bool>) {
    b == Some(true)
  }

  /** `COALESCE(offer_price, normal_price)`. */
  function EffectiveKey(offer: Option<real>, normal: Option<real>): (r: Option<real>)
    ensures r.Some? <==> offer.Some? || normal.Some?
  {
    Repo.Coalesce(offer, normal)
  }

  // ---------------------------------------------------------------------------
  // findCurrentByProductId
  // ---------------------------------------------------------------------------

  predicate CurrentFor(row: PriceRow, productId: Option<Id>) {
    Eq(row.product_id, productId) && IsTrue(row.is_current)
  }

  /** `findCurrentByProductId(productId)`: a current row of the product, or
      `null` when it has none. */
  function FindCurrentByProductId(prices: seq<PriceRow>, productId: Option<Id>, now: Timestamp): (r: Option<Prices.Price>)
    ensures r.Some? <==> exists row :: row in prices && CurrentFor(row, productId)
    ensures r.Some? ==> exists row :: row in prices && CurrentFor(row, productId) && r.value == Prices.FromRow(row, now)
  {
    Prices.FromDB(First(prices, row => CurrentFor(row, productId)), now)
  }

  // ---------------------------------------------------------------------------
  // findHistoryByProductId
  // ---------------------------------------------------------------------------

  const HistoryLimit: nat := 30

  /** `ORDER BY recorded_at DESC`. */
  predicate RecordedDesc(a: HistoryRow, b: HistoryRow) {
    DescNullsFirst(a.recorded_at, b.recorded_at, IntLe)
  }

  lemma RecordedDescOrders()
    ensures Total(RecordedDesc) && Transitive(RecordedDesc)
  {
  }

  /** The product's history rows: `WHERE product_id = $1`. */
  function OwnHistory(history: seq<HistoryRow>, productId: Option<Id>): seq<HistoryRow> {
    Where(history, (row: HistoryRow) => Eq(row.product_id, productId))
  }

  /** `findHistoryByProductId(productId, { limit = 30, offset = 0 })`. */
  function FindHistoryByProductId(history: seq<HistoryRow>, productId: Option<Id>, p: Repo.Paging): (rows: seq<HistoryRow>)
    ensures |rows| <= p.limit.GetOr(HistoryLimit)
    ensures forall row :: row in rows ==> row in history && Eq(row.product_id, productId)
    ensures SortedBy(rows, RecordedDesc)
    ensures p.offset.GetOr(0) == 0 && |OwnHistory(history, productId)| <= p.limit.GetOr(HistoryLimit) ==>
      multiset(rows) == multiset(OwnHistory(history, productId))
  {
    var own := OwnHistory(history, productId);
    var sorted := SortBy(own, RecordedDesc);
    RecordedDescOrders();
    SortBySorted(own, RecordedDesc);
    SortedWindow(sorted, RecordedDesc, p.offset.GetOr(0), p.limit.GetOr(HistoryLimit));
    WindowFrom(sorted, p.offset.GetOr(0), p.limit.GetOr(HistoryLimit));
    SmallWindowIsAll(sorted, p.limit.GetOr(HistoryLimit));
    Window(sorted, p.offset.GetOr(0), p.limit.GetOr(HistoryLimit))
  }

  /** A full page comes back while the product's history lasts. */
  lemma HistoryPageFull(history: seq<HistoryRow>, productId: Option<Id>, p: Repo.Paging)
    requires p.offset.GetOr(0) + p.limit.GetOr(HistoryLimit) <= |OwnHistory(history, productId)|
    ensures |FindHistoryByProductId(history, productId, p)| == p.limit.GetOr(HistoryLimit)
  {
  }

  /** The first page holds the most recent rows: a row of the product that
      it leaves out was recorded no later than any row it keeps. */
  lemma HistoryMostRecent(history: seq<HistoryRow>, productId: Option<Id>, p: Repo.Paging, x: HistoryRow)
    requires p.offset.GetOr(0) == 0
    requires x in history && Eq(x.product_id, productId)
    requires x !in FindHistoryByProductId(history, productId, p)
    ensures forall y :: y in FindHistoryByProductId(history, productId, p) ==> RecordedDesc(y, x)
  {
    var own := OwnHistory(history, productId);
    var sorted := SortBy(own, RecordedDesc);
    assert x in multiset(own);
    assert x in multiset(sorted);
    RecordedDescOrders();
    SortBySorted(own, RecordedDesc);
    var n := Min(p.limit.GetOr(HistoryLimit), |sorted|);
    assert FindHistoryByProductId(history, productId, p) == sorted[..n];
    TopPrefix(sorted, RecordedDesc, n, x);
  }

  // ---------------------------------------------------------------------------
  // compareByMasterProduct
  // ---------------------------------------------------------------------------

  /** One row of the comparison: the selected columns of the four tables. */
  datatype ComparisonRow = ComparisonRow(
    product_id: Option<Id>,
    product_name: Option<string>,
    brand: Option<string>,
    image_url: Option<string>,
    supermarket_name: Option<string>,
    supermarket_slug: Option<string>,
    chain_group: Option<string>,
    normal_price: Option<real>,
    offer_price: Option<real>,
    has_offer: Option<bool>,
    discount_percentage: Option<real>,
    price_per_unit: Option<real>,
    similarity_score: Option<real>)

  /** The `ON` and `WHERE` conditions of the comparison join. */
  predicate Compared(master: Option<Id>, m: MatchRow, p: ProductRow, s: SupermarketRow, pr: PriceRow) {
    Eq(m.matched_product_id, p.id) && Eq(p.supermarket_id, s.id) && Eq(p.id, pr.product_id) &&
    Eq(m.master_product_id, master) &&
    IsTrue(pr.is_current) && IsTrue(p.is_available) && IsTrue(s.is_active)
  }

  function Project(m: MatchRow, p: ProductRow, s: SupermarketRow, pr: PriceRow): ComparisonRow {
    ComparisonRow(
      p.id, p.name, p.brand, p.image_url, s.name, s.slug, s.chain_group,
      pr.normal_price, pr.offer_price, pr.has_offer, pr.discount_percentage, pr.price_per_unit,
      m.similarity_score)
  }

  function ComparePrices(db: Db, master: Option<Id>, m: MatchRow, p: ProductRow, s: SupermarketRow): seq<ComparisonRow> {
    Map(Where(db.prices, pr => Compared(master, m, p, s, pr)), pr => Project(m, p, s, pr))
  }

  function CompareSupermarkets(db: Db, master: Option<Id>, m: MatchRow, p: ProductRow): seq<ComparisonRow> {
    FlatMap(db.supermarkets, s => ComparePrices(db, master, m, p, s))
  }

  function CompareProducts(db: Db, master: Option<Id>, m: MatchRow): seq<ComparisonRow> {
    FlatMap(db.products, p => CompareSupermarkets(db, master, m, p))
  }

  /** The join before ordering. */
  function CompareJoin(db: Db, master: Option<Id>): seq<ComparisonRow> {
    FlatMap(db.matches, m => CompareProducts(db, master, m))
  }

  lemma ComparePricesRows(db: Db, master: Option<Id>, m: MatchRow, p: ProductRow, s: SupermarketRow, y: ComparisonRow)
    ensures y in ComparePrices(db, master, m, p, s) <==>
      exists pr :: pr in db.prices && Compared(master, m, p, s, pr) && y == Project(m, p, s, pr)
  {
    InMap(Where(db.prices, pr => Compared(master, m, p, s, pr)), pr => Project(m, p, s, pr), y);
  }

  lemma CompareSupermarketsRows(db: Db, master: Option<Id>, m: MatchRow, p: ProductRow, y: ComparisonRow)
    ensures y in CompareSupermarkets(db, master, m, p) <==>
      exists s, pr :: s in db.supermarkets && pr in db.prices && Compared(master, m, p, s, pr) && y == Project(m, p, s, pr)
  {
    InFlatMap(db.supermarkets, s => ComparePrices(db, master, m, p, s), y);
    forall s | s in db.supermarkets {
      ComparePricesRows(db, master, m, p, s, y);
    }
  }

  lemma CompareProductsRows(db: Db, master: Option<Id>, m: MatchRow, y: ComparisonRow)
    ensures y in CompareProducts(db, master, m) <==>
      exists p, s, pr :: p in db.products && s in db.supermarkets && pr in db.prices &&
        Compared(master, m, p, s, pr) && y == Project(m, p, s, pr)
  {
    InFlatMap(db.products, p => CompareSupermarkets(db, master, m, p), y);
    forall p | p in db.products {
      CompareSupermarketsRows(db, master, m, p, y);
    }
  }

  /** The comparison rows are exactly the projections of the matches of the
      master whose product is available, whose supermarket is active and
      whose price is current. */
  lemma CompareJoinRows(db: Db, master: Option<Id>, y: ComparisonRow)
    ensures y in CompareJoin(db, master) <==>
      exists m, p, s, pr :: m in db.matches && p in db.products && s in db.supermarkets && pr in db.prices &&
        Compared(master, m, p, s, pr) && y == Project(m, p, s, pr)
  {
    InFlatMap(db.matches, m => CompareProducts(db, master, m), y);
    forall m | m in db.matches {
      CompareProductsRows(db, master, m, y);
    }
  }

  /** `ORDER BY COALESCE(pr.offer_price, pr.normal_price) ASC`. */
  predicate CheapestFirst(a: ComparisonRow, b: ComparisonRow) {
    AscNullsLast(EffectiveKey(a.offer_price, a.normal_price), EffectiveKey(b.offer_price, b.normal_price), RealLe)
  }

  lemma CheapestFirstOrders()
    ensures Total(CheapestFirst) && Transitive(CheapestFirst)
  {
  }

  /** `compareByMasterProduct(masterProductId)`: the join, cheapest first. */
  function CompareByMasterProduct(db: Db, master: Option<Id>): (r: seq<ComparisonRow>)
    ensures multiset(r) == multiset(CompareJoin(db, master))
    ensures SortedBy(r, CheapestFirst)
  {
    CheapestFirstOrders();
    SortBySorted(CompareJoin(db, master), CheapestFirst);
    SortBy(CompareJoin(db, master), CheapestFirst)
  }

  /** Every compared row is a current, available, active match of the master. */
  lemma CompareMeaning(db: Db, master: Option<Id>, y: ComparisonRow)
    ensures y in CompareByMasterProduct(db, master) <==>
      exists m, p, s, pr :: m in db.matches && p in db.products && s in db.supermarkets && pr in db.prices &&
        Compared(master, m, p, s, pr) && y == Project(m, p, s, pr)
  {
    CompareJoinRows(db, master, y);
    assert y in CompareByMasterProduct(db, master) <==> y in multiset(CompareJoin(db, master));
  }

  /** A `null` master id compares nothing. */
  lemma CompareNullMaster(db: Db)
    ensures CompareByMasterProduct(db, None) == []
  {
    var r := CompareByMasterProduct(db, None);
    if |r| > 0 {
      CompareMeaning(db, None, r[0]);
    }
  }

  // ---------------------------------------------------------------------------
  // findWithOffers
  // ---------------------------------------------------------------------------

  /** `pr.*` with the product and supermarket names. */
  datatype OfferRow = OfferRow(
    price: PriceRow,
    product_name: Option<string>,
    brand: Option<string>,
    image_url: Option<string>,
    supermarket_name: Option<string>)

  /** The fixed `ON` and `WHERE` conditions of the offers join. */
  predicate Offered(pr: PriceRow, p: ProductRow, s: SupermarketRow) {
    Eq(pr.product_id, p.id) && Eq(p.supermarket_id, s.id) &&
    IsTrue(pr.has_offer) && IsTrue(pr.is_current) && IsTrue(p.is_available)
  }

  /** The placeholder part: the supermarket when truthy, then `LIMIT` and
      `OFFSET`. */
  function OffersQuery(supermarketId: Option<Id>, pg: Repo.Paging): (q: Query)
    ensures WellNumbered(q) && Paginated(q)
    ensures |q.conditions| == (if TruthyStr(supermarketId) then 1 else 0)
    ensures LimitOf(q) == Repo.LimitOr(pg) && OffsetOf(q) == Repo.OffsetOr(pg)
  {
    var q := if TruthyStr(supermarketId) then AndEquals(Start, "supermarket_id", Text(supermarketId.value)) else Start;
    PaginateWindow(q, Repo.LimitOr(pg), Repo.OffsetOr(pg));
    Paginate(q, Repo.LimitOr(pg), Repo.OffsetOr(pg))
  }

  lemma OffersQuerySelects(supermarketId: Option<Id>, pg: Repo.Paging, p: ProductRow)
    ensures Selects(OffersQuery(supermarketId, pg), Repo.Lookup(p)) <==>
      (TruthyStr(supermarketId) ==> p.supermarket_id == supermarketId)
    ensures LimitOf(OffersQuery(supermarketId, pg)) == Repo.LimitOr(pg)
    ensures OffsetOf(OffersQuery(supermarketId, pg)) == Repo.OffsetOr(pg)
  {
    var q := if TruthyStr(supermarketId) then AndEquals(Start, "supermarket_id", Text(supermarketId.value)) else Start;
    StartSelectsAll(Repo.Lookup(p));
    if TruthyStr(supermarketId) {
      AndEqualsSelects(Start, "supermarket_id", Text(supermarketId.value), Repo.Lookup(p));
    }
    PaginateSelects(q, Repo.LimitOr(pg), Repo.OffsetOr(pg), Repo.Lookup(p));
  }

  /** What an offer row must satisfy, stated directly. */
  predicate OfferFor(supermarketId: Option<Id>, pr: PriceRow, p: ProductRow, s: SupermarketRow) {
    Offered(pr, p, s) && (TruthyStr(supermarketId) ==> p.supermarket_id == supermarketId)
  }

  function OfferSupermarkets(db: Db, q: Query, pr: PriceRow, p: ProductRow): seq<OfferRow>
    requires WellNumbered(q)
  {
    Map(Where(db.supermarkets, s => Offered(pr, p, s) && Selects(q, Repo.Lookup(p))),
        (s: SupermarketRow) => OfferRow(pr, p.name, p.brand, p.image_url, s.name))
  }

  function OfferProducts(db: Db, q: Query, pr: PriceRow): seq<OfferRow>
    requires WellNumbered(q)
  {
    FlatMap(db.products, p => OfferSupermarkets(db, q, pr, p))
  }

  function OfferJoin(db: Db, q: Query): seq<OfferRow>
    requires WellNumbered(q)
  {
    FlatMap(db.prices, pr => OfferProducts(db, q, pr))
  }

  lemma OfferSupermarketsRows(db: Db, supermarketId: Option<Id>, pg: Repo.Paging, pr: PriceRow, p: ProductRow, y: OfferRow)
    ensures y in OfferSupermarkets(db, OffersQuery(supermarketId, pg), pr, p) <==>
      exists s :: s in db.supermarkets && OfferFor(supermarketId, pr, p, s) &&
        y == OfferRow(pr, p.name, p.brand, p.image_url, s.name)
  {
    var q := OffersQuery(supermarketId, pg);
    OffersQuerySelects(supermarketId, pg, p);
    InMap(Where(db.supermarkets, s => Offered(pr, p, s) && Selects(q, Repo.Lookup(p))),
          (s: SupermarketRow) => OfferRow(pr, p.name, p.brand, p.image_url, s.name), y);
  }

  lemma OfferProductsRows(db: Db, supermarketId: Option<Id>, pg: Repo.Paging, pr: PriceRow, y: OfferRow)
    ensures y in OfferProducts(db, OffersQuery(supermarketId, pg), pr) <==>
      exists p, s :: p in db.products && s in db.supermarkets && OfferFor(supermarketId, pr, p, s) &&
        y == OfferRow(pr, p.name, p.brand, p.image_url, s.name)
  {
    var q := OffersQuery(supermarketId, pg);
    InFlatMap(db.products, p => OfferSupermarkets(db, q, pr, p), y);
    forall p | p in db.products {
      OfferSupermarketsRows(db, supermarketId, pg, pr, p, y);
    }
  }

  /** The offers join holds exactly the current, available offers, of the
      requested supermarket when one is given. */
  lemma OfferJoinRows(db: Db, supermarketId: Option<Id>, pg: Repo.Paging, y: OfferRow)
    ensures y in OfferJoin(db, OffersQuery(supermarketId, pg)) <==>
      exists pr, p, s :: pr in db.prices && p in db.products && s in db.supermarkets &&
        OfferFor(supermarketId, pr, p, s) && y == OfferRow(pr, p.name, p.brand, p.image_url, s.name)
  {
    var q := OffersQuery(supermarketId, pg);
    InFlatMap(db.prices, pr => OfferProducts(db, q, pr), y);
    forall pr | pr in db.prices {
      OfferProductsRows(db, supermarketId, pg, pr, y);
    }
  }

  /** `ORDER BY pr.discount_percentage DESC`. */
  predicate BiggestDiscountFirst(a: OfferRow, b: OfferRow) {
    DescNullsFirst(a.price.discount_percentage, b.price.discount_percentage, RealLe)
  }

  lemma BiggestDiscountFirstOrders()
    ensures Total(BiggestDiscountFirst) && Transitive(BiggestDiscountFirst)
  {
  }

  /** `findWithOffers({ limit = 20, offset = 0, supermarketId })`. */
  function FindWithOffers(db: Db, supermarketId: Option<Id>, pg: Repo.Paging): (r: seq<OfferRow>)
    ensures |r| <= Repo.LimitOr(pg)
    ensures SortedBy(r, BiggestDiscountFirst)
    ensures Repo.OffsetOr(pg) + Repo.LimitOr(pg) <= |OfferJoin(db, OffersQuery(supermarketId, pg))| ==>
      |r| == Repo.LimitOr(pg)
    ensures Repo.OffsetOr(pg) == 0 && |OfferJoin(db, OffersQuery(supermarketId, pg))| <= Repo.LimitOr(pg) ==>
      forall y :: y in OfferJoin(db, OffersQuery(supermarketId, pg)) ==> y in r
  {
    var q := OffersQuery(supermarketId, pg);
    var sorted := SortBy(OfferJoin(db, q), BiggestDiscountFirst);
    BiggestDiscountFirstOrders();
    SortBySorted(OfferJoin(db, q), BiggestDiscountFirst);
    SortedWindow(sorted, BiggestDiscountFirst, OffsetOf(q), LimitOf(q));
    SmallPageKeepsAll(OfferJoin(db, q), BiggestDiscountFirst, LimitOf(q));
    Window(sorted, OffsetOf(q), LimitOf(q))
  }

  /** Every offer returned is a current, available price on offer, of the
      requested supermarket when one is given. */
  lemma FindWithOffersMeaning(db: Db, supermarketId: Option<Id>, pg: Repo.Paging, y: OfferRow)
    requires y in FindWithOffers(db, supermarketId, pg)
    ensures exists pr, p, s ::
      pr in db.prices && p in db.products && s in db.supermarkets &&
      OfferFor(supermarketId, pr, p, s) && y == OfferRow(pr, p.name, p.brand, p.image_url, s.name)
    ensures IsTrue(y.price.has_offer) && IsTrue(y.price.is_current)
  {
    var q := OffersQuery(supermarketId, pg);
    var sorted := SortBy(OfferJoin(db, q), BiggestDiscountFirst);
    WindowFrom(sorted, OffsetOf(q), LimitOf(q));
    assert y in multiset(OfferJoin(db, q));
    OfferJoinRows(db, supermarketId, pg, y);
  }

  /** The first page of `findWithOffers` holds the biggest discounts: a
      join row it leaves out comes no earlier than any row it returns in
      `ORDER BY discount_percentage DESC` (`NULL` first). */
  lemma OffersTop(db: Db, supermarketId: Option<Id>, pg: Repo.Paging, x: OfferRow)
    requires Repo.OffsetOr(pg) == 0
    requires x in OfferJoin(db, OffersQuery(supermarketId, pg))
    requires x !in FindWithOffers(db, supermarketId, pg)
    ensures forall y :: y in FindWithOffers(db, supermarketId, pg) ==> BiggestDiscountFirst(y, x)
  {
    var q := OffersQuery(supermarketId, pg);
    var join := OfferJoin(db, q);
    var sorted := SortBy(join, BiggestDiscountFirst);
    assert x in multiset(join);
    assert x in multiset(sorted);
    BiggestDiscountFirstOrders();
    SortBySorted(join, BiggestDiscountFirst);
    var n := Min(Repo.LimitOr(pg), |sorted|);
    assert FindWithOffers(db, supermarketId, pg) == sorted[..n];
    TopPrefix(sorted, BiggestDiscountFirst, n, x);
  }

  /** When the offers fit on the first page, every current, available offer
      (of the requested supermarket) is returned. */
  lemma FindWithOffersComplete(db: Db, supermarketId: Option<Id>, pg: Repo.Paging, pr: PriceRow, p: ProductRow, s: SupermarketRow)
    requires pr in db.prices && p in db.products && s in db.supermarkets && OfferFor(supermarketId, pr, p, s)
    requires Repo.OffsetOr(pg) == 0 && |OfferJoin(db, OffersQuery(supermarketId, pg))| <= Repo.LimitOr(pg)
    ensures OfferRow(pr, p.name, p.brand, p.image_url, s.name) in FindWithOffers(db, supermarketId, pg)
  {
    OfferJoinRows(db, supermarketId, pg, OfferRow(pr, p.name, p.brand, p.image_url, s.name));
  }

  // ---------------------------------------------------------------------------
  // create / update
  // ---------------------------------------------------------------------------

  datatype CreateOutcome = Rejected(message: string) | Created(table: seq<PriceRow>, price: Prices.Price)

  /** The row the insert stores: `toDB()` after `calculateDiscount()`, with
      the id and `created_at` the database assigns. */
  function InsertedRow(p: Prices.Price, newId: Id, now: Timestamp): PriceRow {
    Prices.ToDB(Prices.CalculateDiscount(p)).(id := Some(newId), created_at := Some(now))
  }

  /** `create(price)`: an invalid price is rejected before the insert;
      otherwise the discount is recomputed and one row is appended. */
  function Create(table: seq<PriceRow>, p: Prices.Price, newId: Id, now: Timestamp): (o: CreateOutcome)
    ensures o.Rejected? <==> !Prices.Validate(p).isValid
    ensures o.Rejected? ==> o.message == "Invalid price: " + Repo.Join(Prices.Validate(p).errors, ", ")
    ensures o.Created? ==> o.table == table + [InsertedRow(p, newId, now)]
    ensures o.Created? ==> o.price == Prices.FromRow(InsertedRow(p, newId, now), now)
  {
    var v := Prices.Validate(p);
    if !v.isValid then Rejected("Invalid price: " + Repo.Join(v.errors, ", "))
    else
      var row := InsertedRow(p, newId, now);
      Created(table + [row], Prices.FromRow(row, now))
  }

  /** A valid price with a positive offer is stored flagged as an offer,
      with a discount between 0 and 100. */
  lemma CreateStoresDiscount(table: seq<PriceRow>, p: Prices.Price, newId: Id, now: Timestamp)
    requires Prices.Validate(p).isValid
    requires p.offerPrice.Some? && p.offerPrice.value > 0.0
    ensures Create(table, p, newId, now).Created?
    ensures var row := InsertedRow(p, newId, now);
      IsTrue(row.has_offer) && row.discount_percentage.Some? &&
      0.0 <= row.discount_percentage.value <= 100.0
  {
    Prices.DiscountInRange(p);
  }

  /** Creating a current price retires nothing: a product that already had
      a current price now has two. */
  lemma CreateKeepsOlderCurrent(table: seq<PriceRow>, p: Prices.Price, newId: Id, now: Timestamp, older: PriceRow)
    requires older in table && CurrentFor(older, p.productId)
    requires Prices.Validate(p).isValid && p.isCurrent == Some(true)
    requires forall row :: row in table ==> row.id != Some(newId)
    ensures Create(table, p, newId, now).Created?
    ensures var t := Create(table, p, newId, now).table;
      older in t && CurrentFor(older, p.productId) &&
      CurrentFor(t[|t| - 1], p.productId) && t[|t| - 1] != older
  {
    var t := Create(table, p, newId, now).table;
    assert t[|t| - 1] == InsertedRow(p, newId, now);
    assert t[..|table|] == table;
  }

  /** The `SET` list of `update`: seven merged columns; `prices` has no
      `updated_at`. */
  function Merge(cur: PriceRow, data: PriceRow): PriceRow {
    cur.(
      normal_price := Repo.Coalesce(data.normal_price, cur.normal_price),
      offer_price := Repo.Coalesce(data.offer_price, cur.offer_price),
      discount_percentage := Repo.Coalesce(data.discount_percentage, cur.discount_percentage),
      has_offer := Repo.Coalesce(data.has_offer, cur.has_offer),
      offer_description := Repo.Coalesce(data.offer_description, cur.offer_description),
      price_per_unit := Repo.Coalesce(data.price_per_unit, cur.price_per_unit),
      is_current := Repo.Coalesce(data.is_current, cur.is_current))
  }

  predicate HasId(row: PriceRow, id: Id) { row.id == Some(id) }

  /** `update(id, updates)`: the table after the update and the updated
      price, or `null` when no row has that id. */
  function Update(table: seq<PriceRow>, id: Id, data: PriceRow, now: Timestamp): (r: (seq<PriceRow>, Option<Prices.Price>))
    ensures |r.0| == |table|
    ensures forall i :: 0 <= i < |table| ==> r.0[i] == (if HasId(table[i], id) then Merge(table[i], data) else table[i])
    ensures r.1.Some? <==> exists row :: row in table && HasId(row, id)
    ensures r.1.Some? ==> exists row :: row in table && HasId(row, id) && r.1.value == Prices.FromRow(Merge(row, data), now)
  {
    var selected := row => HasId(row, id);
    var after := UpdateWhere(table, selected, row => Merge(row, data));
    UpdateWhereFinds(table, selected, row => Merge(row, data));
    UpdatedFrom(table, selected, row => Merge(row, data));
    (after, Prices.FromDB(First(after, selected), now))
  }

  /** The merge can set `is_current` either way but clears nothing, and
      leaves the product, currency and dates alone. */
  lemma MergeProperties(cur: PriceRow, data: PriceRow)
    ensures var m := Merge(cur, data);
      m.id == cur.id && m.product_id == cur.product_id && m.currency == cur.currency &&
      m.effective_date == cur.effective_date && m.created_at == cur.created_at &&
      Repo.MergedColumn(m.normal_price, cur.normal_price, data.normal_price) &&
      Repo.MergedColumn(m.offer_price, cur.offer_price, data.offer_price) &&
      Repo.MergedColumn(m.discount_percentage, cur.discount_percentage, data.discount_percentage) &&
      Repo.MergedColumn(m.has_offer, cur.has_offer, data.has_offer) &&
      Repo.MergedColumn(m.offer_description, cur.offer_description, data.offer_description) &&
      Repo.MergedColumn(m.price_per_unit, cur.price_per_unit, data.price_per_unit) &&
      Repo.MergedColumn(m.is_current, cur.is_current, data.is_current) &&
      (cur.offer_price.Some? ==> m.offer_price.Some?) &&
      (cur.discount_percentage.Some? ==> m.discount_percentage.Some?) &&
      (data.is_current == Some(false) ==> m.is_current == Some(false))
  {
  }

  /** An offer cannot be removed through `update`: a `null` offer keeps the
      stored one. */
  lemma OfferCannotBeCleared(cur: PriceRow, data: PriceRow)
    requires cur.offer_price.Some? && data.offer_price.None?
    ensures Merge(cur, data).offer_price == cur.offer_price
  {
  }

  // ---------------------------------------------------------------------------
  // getStatsBySupermarket
  // ---------------------------------------------------------------------------

  datatype Stats = Stats(
    totalProducts: nat,
    productsWithOffers: nat,
    avgPrice: Option<real>,
    minPrice: Option<real>,
    maxPrice: Option<real>,
    avgDiscount: Option<real>)

  /** The conditions of the statistics join. */
  predicate Counted(supermarketId: Option<Id>, pr: PriceRow, p: ProductRow) {
    Eq(pr.product_id, p.id) && Eq(p.supermarket_id, supermarketId) &&
    IsTrue(pr.is_current) && IsTrue(p.is_available)
  }

  function CountedProducts(db: Db, supermarketId: Option<Id>, pr: PriceRow): seq<PriceRow> {
    Map(Where(db.products, p => Counted(supermarketId, pr, p)), p => pr)
  }

  /** The price rows of the join, one per joined pair. */
  function StatsRows(db: Db, supermarketId: Option<Id>): seq<PriceRow> {
    FlatMap(db.prices, pr => CountedProducts(db, supermarketId, pr))
  }

  lemma StatsRowsMeaning(db: Db, supermarketId: Option<Id>, pr: PriceRow)
    ensures pr in StatsRows(db, supermarketId) <==>
      pr in db.prices && exists p :: p in db.products && Counted(supermarketId, pr, p)
  {
    InFlatMap(db.prices, x => CountedProducts(db, supermarketId, x), pr);
    forall x | x in db.prices {
      CountedProductsRows(db, supermarketId, x, pr);
    }
  }

  lemma CountedProductsRows(db: Db, supermarketId: Option<Id>, x: PriceRow, y: PriceRow)
    ensures y in CountedProducts(db, supermarketId, x) <==>
      y == x && exists p :: p in db.products && Counted(supermarketId, x, p)
  {
    InMap(Where(db.products, p => Counted(supermarketId, x, p)), p => x, y);
  }

  predicate OnOffer(pr: PriceRow) { IsTrue(pr.has_offer) }

  function Effective(pr: PriceRow): Option<real> { EffectiveKey(pr.offer_price, pr.normal_price) }

  function Discount(pr: PriceRow): Option<real> { pr.discount_percentage }

  /** The effective prices `AVG`, `MIN` and `MAX` see. */
  function EffectivePrices(rows: seq<PriceRow>): seq<real> {
    Present(Map(rows, Effective))
  }

  /** The discounts `AVG(…) FILTER (WHERE has_offer)` sees. */
  function OfferDiscounts(rows: seq<PriceRow>): seq<real> {
    Present(Map(Where(rows, OnOffer), Discount))
  }

  /** `getStatsBySupermarket(supermarketId)`. */
  function GetStatsBySupermarket(db: Db, supermarketId: Option<Id>): (st: Stats)
    ensures st.productsWithOffers <= st.totalProducts
    ensures st.avgPrice.Some? <==> st.minPrice.Some?
    ensures st.minPrice.Some? <==> st.maxPrice.Some?
    ensures st.avgPrice.Some? ==> st.minPrice.value <= st.avgPrice.value <= st.maxPrice.value
    ensures st.totalProducts == |StatsRows(db, supermarketId)|
    ensures st.productsWithOffers == CountWhere(StatsRows(db, supermarketId), OnOffer)
  {
    var rows := StatsRows(db, supermarketId);
    var prices := EffectivePrices(rows);
    AverageBetween(prices);
    Stats(
      |rows|,
      CountWhere(rows, OnOffer),
      AvgOf(prices), MinOrNull(prices), MaxOrNull(prices),
      AvgOf(OfferDiscounts(rows)))
  }

  /** Both counts are over the joined rows: there are products exactly when
      some current price of an available product of the supermarket exists,
      and products on offer exactly when one of those prices is an offer. */
  lemma StatsCountsMeaning(db: Db, supermarketId: Option<Id>)
    ensures GetStatsBySupermarket(db, supermarketId).totalProducts > 0 <==>
      exists pr, p :: pr in db.prices && p in db.products && Counted(supermarketId, pr, p)
    ensures GetStatsBySupermarket(db, supermarketId).productsWithOffers > 0 <==>
      exists pr, p :: pr in db.prices && p in db.products && Counted(supermarketId, pr, p) && OnOffer(pr)
  {
    var rows := StatsRows(db, supermarketId);
    CountPositive(rows, OnOffer);
    forall pr {
      StatsRowsMeaning(db, supermarketId, pr);
    }
    if |rows| > 0 {
      assert rows[0] in rows;
    }
  }

  /** The price statistics are `NULL` exactly when no joined row has a
      price, and otherwise bound every effective price. */
  lemma StatsPriceBounds(db: Db, supermarketId: Option<Id>, pr: PriceRow)
    requires pr in StatsRows(db, supermarketId) && Effective(pr).Some?
    ensures var st := GetStatsBySupermarket(db, supermarketId);
      st.minPrice.Some? && st.minPrice.value <= Effective(pr).value <= st.maxPrice.value
  {
    var rows := StatsRows(db, supermarketId);
    InMap(rows, Effective, Effective(pr));
    assert Effective(pr).value in EffectivePrices(rows);
  }

  /** `avg_discount` is taken over offer rows only: it is `NULL` unless some
      joined row on offer carries a discount. */
  lemma AvgDiscountOverOffers(db: Db, supermarketId: Option<Id>)
    ensures GetStatsBySupermarket(db, supermarketId).avgDiscount.Some? <==>
      exists pr :: pr in StatsRows(db, supermarketId) && OnOffer(pr) && Discount(pr).Some?
  {
    var rows := StatsRows(db, supermarketId);
    var offers := Where(rows, OnOffer);
    var ds := OfferDiscounts(rows);
    if |ds| > 0 {
      assert ds[0] in ds;
      InMap(offers, Discount, Some(ds[0]));
    }
    if exists pr :: pr in rows && OnOffer(pr) && Discount(pr).Some? {
      var pr :| pr in rows && OnOffer(pr) && Discount(pr).Some?;
      InMap(offers, Discount, Discount(pr));
      assert Discount(pr).value in ds;
    }
  }
}

=== FILE: product.dfy ===
/**
  The `Product` entity of the backend: constructor defaults, validation and
  the mapping between the camelCase entity and the snake_case `products`
  row.

  `Product.normalizeName` runs the same pipeline, character for character,
  as the scrapers' `normalizeProductName`, so both are modelled by the one
  definition `Text.NormalizeProductName`.
 */
module ProductEntity {
  import opened Js
  import opened Text

  /** The object handed to `new Product({...})`; an omitted or `null`
      property is `None`. */
  datatype ProductInput = ProductInput(
    id: Option<Id>,
    supermarketId: Option<Id>,
    externalId: Option<string>,
    name: Option<string>,
    normalizedName: Option<string>,
    description: Option<string>,
    brand: Option<string>,
    category: Option<string>,
    subcategory: Option<string>,
    unit: Option<string>,
    unitSize: Option<string>,
    imageUrl: Option<string>,
    productUrl: Option<string>,
    barcode: Option<string>,
    isAvailable: Option<bool>,
    createdAt: Option<Timestamp>,
    updatedAt: Option<Timestamp>,
    lastScrapedAt: Option<Timestamp>)

  /** A constructed entity: `normalizedName` is always a string and
      `isAvailable` always a boolean. */
  datatype Product = Product(
    id: Option<Id>,
    supermarketId: Option<Id>,
    externalId: Option<string>,
    name: Option<string>,
    normalizedName: string,
    description: Option<string>,
    brand: Option<string>,
    category: Option<string>,
    subcategory: Option<string>,
    unit: Option<string>,
    unitSize: Option<string>,
    imageUrl: Option<string>,
    productUrl: Option<string>,
    barcode: Option<string>,
    isAvailable: bool,
    createdAt: Option<Timestamp>,
    updatedAt: Option<Timestamp>,
    lastScrapedAt: Option<Timestamp>)

  /** A row of the `products` table, named by its columns; every column may
      be `NULL`. */
  datatype ProductRow = ProductRow(
    id: Option<Id>,
    supermarket_id: Option<Id>,
    external_id: Option<string>,
    name: Option<string>,
    normalized_name: Option<string>,
    description: Option<string>,
    brand: Option<string>,
    category: Option<string>,
    subcategory: Option<string>,
    unit: Option<string>,
    unit_size: Option<string>,
    image_url: Option<string>,
    product_url: Option<string>,
    barcode: Option<string>,
    is_available: Option<bool>,
    created_at: Option<Timestamp>,
    updated_at: Option<Timestamp>,
    last_scraped_at: Option<Timestamp>)

  /** `validate()`'s result. */
  datatype Validation = Validation(isValid: bool, errors: seq<string>)

  const NameRequired := "Product name is required"
  const SupermarketIdRequired := "Supermarket ID is required"

  // ---------------------------------------------------------------------------
  // Constructor
  // ---------------------------------------------------------------------------

  /** `new Product({...})`. */
  function New(inp: ProductInput): (p: Product)
    ensures TruthyStr(inp.normalizedName) ==> p.normalizedName == inp.normalizedName.value
    ensures !TruthyStr(inp.normalizedName) ==> p.normalizedName == NormalizeProductName(inp.name)
    ensures !p.isAvailable <==> inp.isAvailable == Some(false)
    ensures p.id == inp.id && p.supermarketId == inp.supermarketId && p.name == inp.name
    ensures p.lastScrapedAt == inp.lastScrapedAt && p.createdAt == inp.createdAt
  {
    Product(
      inp.id, inp.supermarketId, inp.externalId, inp.name,
      if TruthyStr(inp.normalizedName) then inp.normalizedName.value else NormalizeProductName(inp.name),
      inp.description, inp.brand, inp.category, inp.subcategory, inp.unit, inp.unitSize,
      inp.imageUrl, inp.productUrl, inp.barcode,
      inp.isAvailable != Some(false),
      inp.createdAt, inp.updatedAt, inp.lastScrapedAt)
  }

  /** What every constructed product satisfies: an empty `normalizedName`
      only when the name itself normalises to nothing. */
  predicate Consistent(p: Product) {
    p.normalizedName != "" || NormalizeProductName(p.name) == ""
  }

  // ---------------------------------------------------------------------------
  // Validation
  // ---------------------------------------------------------------------------

  /** A name that is absent, empty or only whitespace. */
  predicate BlankName(name: Option<string>) {
    !TruthyStr(name) || Trim(name.value) == ""
  }

  /** `validate()`: the name check comes first, then the supermarket check. */
  function Validate(p: Product): (v: Validation)
    ensures v.isValid <==> v.errors == []
    ensures NameRequired in v.errors <==> BlankName(p.name)
    ensures SupermarketIdRequired in v.errors <==> !TruthyStr(p.supermarketId)
    ensures |v.errors| <= 2
  {
    var errors :=
      Check(BlankName(p.name), NameRequired) +
      Check(!TruthyStr(p.supermarketId), SupermarketIdRequired);
    Validation(|errors| == 0, errors)
  }

  // ---------------------------------------------------------------------------
  // Row mapping
  // ---------------------------------------------------------------------------

  /** `toDB()`: `created_at` and `updated_at` are not written, and
      `last_scraped_at` falls back to the current instant `now`. */
  function ToDB(p: Product, now: Timestamp): (r: ProductRow)
    ensures p.lastScrapedAt.Some? ==> r.last_scraped_at == p.lastScrapedAt
    ensures p.lastScrapedAt.None? ==> r.last_scraped_at == Some(now)
    ensures r.created_at.None? && r.updated_at.None?
    ensures r.normalized_name == Some(p.normalizedName) && r.is_available == Some(p.isAvailable)
    ensures r.id == p.id && r.supermarket_id == p.supermarketId && r.external_id == p.externalId
    ensures r.name == p.name && r.description == p.description && r.brand == p.brand
    ensures r.category == p.category && r.subcategory == p.subcategory
    ensures r.unit == p.unit && r.unit_size == p.unitSize
    ensures r.image_url == p.imageUrl && r.product_url == p.productUrl && r.barcode == p.barcode
  {
    ProductRow(
      p.id, p.supermarketId, p.externalId, p.name, Some(p.normalizedName),
      p.description, p.brand, p.category, p.subcategory, p.unit, p.unitSize,
      p.imageUrl, p.productUrl, p.barcode, Some(p.isAvailable),
      None, None, Some(p.lastScrapedAt.GetOr(now)))
  }

  /** The constructor input `fromDB` builds from a row. */
  function InputOf(row: ProductRow): ProductInput {
    ProductInput(
      row.id, row.supermarket_id, row.external_id, row.name, row.normalized_name,
      row.description, row.brand, row.category, row.subcategory, row.unit, row.unit_size,
      row.image_url, row.product_url, row.barcode, row.is_available,
      row.created_at, row.updated_at, row.last_scraped_at)
  }

  /** `Product.fromDB` on a row that exists. */
  function FromRow(row: ProductRow): (p: Product)
    ensures p.id == row.id && p.supermarketId == row.supermarket_id && p.category == row.category
    ensures p.createdAt == row.created_at
    ensures TruthyStr(row.normalized_name) ==> p.normalizedName == row.normalized_name.value
    ensures !TruthyStr(row.normalized_name) ==> p.normalizedName == NormalizeProductName(row.name)
    ensures p.externalId == row.external_id && p.name == row.name
    ensures p.description == row.description && p.brand == row.brand && p.subcategory == row.subcategory
    ensures p.unit == row.unit && p.unitSize == row.unit_size
    ensures p.imageUrl == row.image_url && p.productUrl == row.product_url && p.barcode == row.barcode
    ensures p.isAvailable <==> row.is_available != Some(false)
    ensures p.updatedAt == row.updated_at && p.lastScrapedAt == row.last_scraped_at
  {
    New(InputOf(row))
  }

  /** `Product.fromDB`: `null` for a missing row. */
  function FromDB(row: Option<ProductRow>): (p: Option<Product>)
    ensures p.Some? <==> row.Some?
  {
    match row
    case None => None
    case Some(r) => Some(FromRow(r))
  }

  // ---------------------------------------------------------------------------
  // Lemmas
  // ---------------------------------------------------------------------------

  /** Every constructed product is consistent. */
  lemma NewIsConsistent(inp: ProductInput)
    ensures Consistent(New(inp))
  {
  }

  /** A supplied (non-empty) normalised name is kept verbatim even when it is
      not the normal form of the name; an empty one is recomputed. */
  lemma SuppliedNormalizedNameKept(inp: ProductInput)
    requires inp.normalizedName == Some("Leche") && inp.name == Some("Queso")
    ensures New(inp).normalizedName == "Leche"
    ensures NormalizeProductName(inp.name) != "Leche"
  {
    CapitalizedIsNotNormal("Leche");
  }

  /** A normalised name never starts with a capital letter. */
  lemma CapitalizedIsNotNormal(t: string)
    requires |t| > 0 && IsAsciiUpper(t[0])
    ensures !IsNormalized(t)
  {
    assert !IsNormalChar(t[0]);
  }

  /** `validate` accepts exactly the products with a non-blank name and a
      supermarket id, and lists the errors name first. */
  lemma ValidateIff(p: Product)
    ensures Validate(p).isValid <==> !BlankName(p.name) && TruthyStr(p.supermarketId)
    ensures BlankName(p.name) && !TruthyStr(p.supermarketId) ==>
      Validate(p).errors == [NameRequired, SupermarketIdRequired]
    ensures BlankName(p.name) && TruthyStr(p.supermarketId) ==> Validate(p).errors == [NameRequired]
  {
  }

  /** `fromDB(toDB(p))` gives back every field `toDB` writes; `createdAt` and
      `updatedAt` are not written and come back absent, and an absent
      `lastScrapedAt` comes back as `now`. */
  lemma RoundTrip(p: Product, now: Timestamp)
    requires Consistent(p)
    ensures FromDB(Some(ToDB(p, now))) ==
      Some(p.(createdAt := None, updatedAt := None, lastScrapedAt := Some(p.lastScrapedAt.GetOr(now))))
  {
  }

  /** Round trip through a constructed product. */
  lemma NewRoundTrip(inp: ProductInput, now: Timestamp)
    ensures var p := New(inp);
      FromDB(Some(ToDB(p, now))) ==
        Some(p.(createdAt := None, updatedAt := None, lastScrapedAt := Some(p.lastScrapedAt.GetOr(now))))
  {
    NewIsConsistent(inp);
    RoundTrip(New(inp), now);
  }
}

=== FILE: productrepo.dfy ===
/**
  `ProductRepository` over an in-memory `products` table.

  Each read builds the query the source sends and selects with it; a
  companion lemma states the same result directly in terms of the filter,
  so the builder and the intended meaning are tied together. Values the
  database fills in (a new row's id, `CURRENT_TIMESTAMP`) and the trigram
  `similarity` function are parameters.
 */
module ProductRepository {
  import opened Js
  import opened Text
  import opened Tables
  import opened Sql
  import opened ProductEntity

  /** The optional filters of `findAll` and `count`. Id and category apply
      when truthy; availability whenever it is not `undefined`. */
  datatype Filter = Filter(supermarketId: Option<Id>, category: Option<string>, isAvailable: Field<bool>)

  /** `{ limit = 20, offset = 0 }`: `None` is an omitted option. */
  datatype Paging = Paging(limit: Option<nat>, offset: Option<nat>)

  const DefaultLimit: nat := 20

  function LimitOr(p: Paging): nat { p.limit.GetOr(DefaultLimit) }
  function OffsetOr(p: Paging): nat { p.offset.GetOr(0) }

  // ---------------------------------------------------------------------------
  // Column access
  // ---------------------------------------------------------------------------

  function TextValue(o: Option<string>): Value {
    match o
    case Some(s) => Text(s)
    case None => SqlNull
  }

  function FlagValue(o: Option<bool>): Value {
    match o
    case Some(b) => Flag(b)
    case None => SqlNull
  }

  /** The value of a named column of a row; the builder only names these. */
  function Column(row: ProductRow, name: string): Value {
    if name == "supermarket_id" then TextValue(row.supermarket_id)
    else if name == "category" then TextValue(row.category)
    else if name == "is_available" then FlagValue(row.is_available)
    else SqlNull
  }

  function Lookup(row: ProductRow): string -> Value {
    name => Column(row, name)
  }

  // ---------------------------------------------------------------------------
  // findAll / count
  // ---------------------------------------------------------------------------

  /** The id condition, added when the id is truthy. */
  function BySupermarket(f: Filter): (q: Query)
    ensures WellNumbered(q) && !Paginated(q)
  {
    if TruthyStr(f.supermarketId) then AndEquals(Start, "supermarket_id", Text(f.supermarketId.value)) else Start
  }

  /** Then the category condition, added when the category is truthy. */
  function ByCategory(f: Filter): (q: Query)
    ensures WellNumbered(q) && !Paginated(q)
  {
    var q1 := BySupermarket(f);
    if TruthyStr(f.category) then AndEquals(q1, "category", Text(f.category.value)) else q1
  }

  /** The `WHERE 1=1 AND …` part that `findAll` and `count` build alike:
      then availability, added unless `undefined`. */
  function FilterQuery(f: Filter): (q: Query)
    ensures WellNumbered(q) && !Paginated(q)
  {
    var q2 := ByCategory(f);
    match f.isAvailable
    case Undefined => q2
    case Null => AndEquals(q2, "is_available", SqlNull)
    case Defined(b) => AndEquals(q2, "is_available", Flag(b))
  }

  /** `findAll`'s query: the filter, then `LIMIT` and `OFFSET`. */
  function FindAllQuery(f: Filter, p: Paging): (q: Query)
    ensures WellNumbered(q) && Paginated(q)
    ensures q.conditions == FilterQuery(f).conditions
    ensures LimitOf(q) == LimitOr(p) && OffsetOf(q) == OffsetOr(p)
  {
    PaginateWindow(FilterQuery(f), LimitOr(p), OffsetOr(p));
    Paginate(FilterQuery(f), LimitOr(p), OffsetOr(p))
  }

  /** What the filter means, stated directly. A `null` availability compares
      with `NULL` and so matches nothing. */
  predicate Matches(f: Filter, row: ProductRow) {
    (TruthyStr(f.supermarketId) ==> row.supermarket_id == f.supermarketId) &&
    (TruthyStr(f.category) ==> row.category == f.category) &&
    (!f.isAvailable.Undefined? ==> f.isAvailable.Defined? && row.is_available == Some(f.isAvailable.value))
  }

  function Matcher(f: Filter): ProductRow -> bool {
    row => Matches(f, row)
  }

  /** `ORDER BY created_at DESC`. */
  predicate NewestFirst(a: ProductRow, b: ProductRow) {
    DescNullsFirst(a.created_at, b.created_at, IntLe)
  }

  /** The rows `findAll` returns, before `Product.fromDB`. */
  function FindAllRows(table: seq<ProductRow>, f: Filter, p: Paging): (rows: seq<ProductRow>)
    ensures |rows| <= LimitOr(p)
  {
    var q := FindAllQuery(f, p);
    Window(SortBy(Where(table, row => Selects(q, Lookup(row))), NewestFirst), OffsetOf(q), LimitOf(q))
  }

  /** `findAll({ limit, offset, supermarketId, category, isAvailable })`. */
  function FindAll(table: seq<ProductRow>, f: Filter, p: Paging): (r: seq<Product>)
    ensures |r| == |FindAllRows(table, f, p)| && |r| <= LimitOr(p)
    ensures forall i :: 0 <= i < |r| ==> r[i] == FromRow(FindAllRows(table, f, p)[i])
  {
    Map(FindAllRows(table, f, p), FromRow)
  }

  /** `count({ supermarketId, category, isAvailable })`. */
  function Count(table: seq<ProductRow>, f: Filter): (n: nat)
    ensures n <= |table|
    ensures n == CountWhere(table, Matcher(f))
  {
    FilterSelectsMatching(table, f);
    |Where(table, FilterSelector(f))|
  }

  /** The row test `count`'s WHERE clause performs. */
  function FilterSelector(f: Filter): ProductRow -> bool {
    row => Selects(FilterQuery(f), Lookup(row))
  }

  lemma FilterSelectsMatching(table: seq<ProductRow>, f: Filter)
    ensures |Where(table, FilterSelector(f))| == CountWhere(table, Matcher(f))
  {
    forall row | row in table
      ensures FilterSelector(f)(row) <==> Matches(f, row)
    {
      FilterQuerySelects(f, row);
    }
    WhereSame(table, FilterSelector(f), Matcher(f));
    CountIsWhereLength(table, Matcher(f));
  }

  /** The three columns the filter names, read through the lookup. */
  lemma LookupColumns(row: ProductRow)
    ensures Lookup(row)("supermarket_id") == TextValue(row.supermarket_id)
    ensures Lookup(row)("category") == TextValue(row.category)
    ensures Lookup(row)("is_available") == FlagValue(row.is_available)
  {
  }

  /** The availability condition alone: `= NULL` matches nothing, `= b`
      matches the rows whose flag is `b`. */
  lemma AvailabilityEquals(f: Filter, row: ProductRow)
    requires !f.isAvailable.Undefined?
    ensures SqlEquals(Lookup(row)("is_available"), if f.isAvailable.Null? then SqlNull else Flag(f.isAvailable.value)) <==>
      f.isAvailable.Defined? && row.is_available == Some(f.isAvailable.value)
  {
    LookupColumns(row);
  }

  lemma BySupermarketSelects(f: Filter, row: ProductRow)
    ensures Selects(BySupermarket(f), Lookup(row)) <==>
      (TruthyStr(f.supermarketId) ==> row.supermarket_id == f.supermarketId)
  {
    StartSelectsAll(Lookup(row));
    if TruthyStr(f.supermarketId) {
      AndEqualsSelects(Start, "supermarket_id", Text(f.supermarketId.value), Lookup(row));
    }
  }

  lemma ByCategorySelects(f: Filter, row: ProductRow)
    ensures Selects(ByCategory(f), Lookup(row)) <==>
      Selects(BySupermarket(f), Lookup(row)) && (TruthyStr(f.category) ==> row.category == f.category)
  {
    if TruthyStr(f.category) {
      AndEqualsSelects(BySupermarket(f), "category", Text(f.category.value), Lookup(row));
    }
  }

  /** The built conditions select exactly the rows the filter means. */
  lemma FilterQuerySelects(f: Filter, row: ProductRow)
    ensures Selects(FilterQuery(f), Lookup(row)) <==> Matches(f, row)
  {
    BySupermarketSelects(f, row);
    ByCategorySelects(f, row);
    match f.isAvailable
    case Undefined =>
    case Null =>
      AndEqualsSelects(ByCategory(f), "is_available", SqlNull, Lookup(row));
      AvailabilityEquals(f, row);
    case Defined(b) =>
      AndEqualsSelects(ByCategory(f), "is_available", Flag(b), Lookup(row));
      AvailabilityEquals(f, row);
  }

  lemma FindAllQuerySelects(f: Filter, p: Paging, row: ProductRow)
    ensures Selects(FindAllQuery(f, p), Lookup(row)) <==> Matches(f, row)
  {
    PaginateSelects(FilterQuery(f), LimitOr(p), OffsetOr(p), Lookup(row));
    FilterQuerySelects(f, row);
  }

  /** The rows `findAll` returns are the filtered table, newest first, in
      the window `[offset, offset + limit)`. */
  lemma FindAllMeaning(table: seq<ProductRow>, f: Filter, p: Paging)
    ensures FindAllRows(table, f, p) ==
      Window(SortBy(Where(table, Matcher(f)), NewestFirst), OffsetOr(p), LimitOr(p))
  {
    var q := FindAllQuery(f, p);
    forall row | row in table
      ensures Selects(q, Lookup(row)) <==> Matches(f, row)
    {
      FindAllQuerySelects(f, p, row);
    }
    WhereSame(table, row => Selects(q, Lookup(row)), Matcher(f));
  }

  /** `count` is the size of the filtered table, whatever the window. */
  lemma CountMeaning(table: seq<ProductRow>, f: Filter)
    ensures Count(table, f) == |Where(table, Matcher(f))|
    ensures Count(table, f) == CountWhere(table, Matcher(f))
  {
    CountIsWhereLength(table, Matcher(f));
  }

  lemma NewestFirstOrders()
    ensures Total(NewestFirst) && Transitive(NewestFirst)
  {
  }

  /** Every row `findAll` returns is in the table and passes the filter; the
      rows come newest first; a full page is returned while the filtered
      rows last. */
  lemma FindAllProperties(table: seq<ProductRow>, f: Filter, p: Paging)
    ensures forall row :: row in FindAllRows(table, f, p) ==> row in table && Matches(f, row)
    ensures SortedBy(FindAllRows(table, f, p), NewestFirst)
    ensures OffsetOr(p) + LimitOr(p) <= Count(table, f) ==> |FindAllRows(table, f, p)| == LimitOr(p)
  {
    FindAllMeaning(table, f, p);
    CountMeaning(table, f);
    var matching := Where(table, Matcher(f));
    var sorted := SortBy(matching, NewestFirst);
    forall row | row in FindAllRows(table, f, p)
      ensures row in table && Matches(f, row)
    {
      var w := FindAllRows(table, f, p);
      var i :| 0 <= i < |w| && w[i] == row;
      assert row == sorted[OffsetOr(p) + i];
      assert row in multiset(sorted);
    }
    NewestFirstOrders();
    SortBySorted(matching, NewestFirst);
    SortedWindow(sorted, NewestFirst, OffsetOr(p), LimitOr(p));
  }

  /** A `null` availability filter matches no row. */
  lemma NullAvailabilityMatchesNothing(table: seq<ProductRow>, f: Filter)
    requires f.isAvailable.Null?
    ensures Count(table, f) == 0
  {
    CountMeaning(table, f);
    WhereNone(table, Matcher(f));
  }

  // ---------------------------------------------------------------------------
  // Single-row lookups
  // ---------------------------------------------------------------------------

  predicate HasId(row: ProductRow, id: Id) { row.id == Some(id) }

  /** `findById(id)`: the first row with that id, or `null`. */
  function FindById(table: seq<ProductRow>, id: Id): (r: Option<Product>)
    ensures r.Some? <==> exists row :: row in table && HasId(row, id)
    ensures r.Some? ==> exists row :: row in table && HasId(row, id) && r.value == FromRow(row)
  {
    FromDB(First(table, row => HasId(row, id)))
  }

  /** `supermarket_id = $1 AND external_id = $2`; a `null` parameter
      matches nothing. */
  predicate HasExternalId(row: ProductRow, supermarketId: Option<Id>, externalId: Option<string>) {
    supermarketId.Some? && externalId.Some? &&
    row.supermarket_id == supermarketId && row.external_id == externalId
  }

  /** `findByExternalId(supermarketId, externalId)`. */
  function FindByExternalId(table: seq<ProductRow>, supermarketId: Option<Id>, externalId: Option<string>): (r: Option<Product>)
    ensures r.Some? <==> exists row :: row in table && HasExternalId(row, supermarketId, externalId)
    ensures r.Some? ==> exists row :: row in table && HasExternalId(row, supermarketId, externalId) && r.value == FromRow(row)
    ensures supermarketId.None? || externalId.None? ==> r.None?
  {
    FromDB(First(table, row => HasExternalId(row, supermarketId, externalId)))
  }

  // ---------------------------------------------------------------------------
  // search / findSimilar
  // ---------------------------------------------------------------------------

  /** PostgreSQL's `pg_trgm.similarity_threshold` default, used by `%`. */
  const TrigramThreshold: real := 0.3

  /** `ILIKE`: `LIKE` after case folding both sides. */
  predicate ILike(s: string, pattern: string) {
    LikeMatch(Lower(s), Lower(pattern))
  }

  /** The search term as sent: lower-cased and stripped of accents only. */
  function SearchTerm(term: string): (t: string)
    ensures AllChars(t, IsNotMark)
  {
    Unaccent(term)
  }

  /** `normalized_name % $1 OR normalized_name ILIKE '%' || $1 || '%'`. */
  predicate SearchHit(row: ProductRow, sim: (string, string) -> real, t: string) {
    row.normalized_name.Some? &&
    (sim(row.normalized_name.value, t) > TrigramThreshold || ILike(row.normalized_name.value, "%" + t + "%"))
  }

  /** The similarity of a row's normalised name to `t` (rows without one
      are never selected). */
  function Score(row: ProductRow, sim: (string, string) -> real, t: string): real {
    if row.normalized_name.Some? then sim(row.normalized_name.value, t) else 0.0
  }

  /** `search(term, { limit, offset })`: hits, most similar first. */
  function SearchRows(table: seq<ProductRow>, sim: (string, string) -> real, term: string, p: Paging): (rows: seq<ProductRow>)
    ensures |rows| <= LimitOr(p)
    ensures forall row :: row in rows ==> row in table && SearchHit(row, sim, SearchTerm(term))
    ensures SortedBy(rows, (a, b) => Score(a, sim, SearchTerm(term)) >= Score(b, sim, SearchTerm(term)))
    ensures OffsetOr(p) + LimitOr(p) <= CountWhere(table, row => SearchHit(row, sim, SearchTerm(term))) ==>
      |rows| == LimitOr(p)
    ensures OffsetOr(p) == 0 && CountWhere(table, row => SearchHit(row, sim, SearchTerm(term))) <= LimitOr(p) ==>
      forall row :: row in table && SearchHit(row, sim, SearchTerm(term)) ==> row in rows
  {
    var t := SearchTerm(term);
    var le := (a, b) => Score(a, sim, t) >= Score(b, sim, t);
    var hits := Where(table, row => SearchHit(row, sim, t));
    var sorted := SortBy(hits, le);
    SortBySorted(hits, le);
    SortedWindow(sorted, le, OffsetOr(p), LimitOr(p));
    WindowFrom(sorted, OffsetOr(p), LimitOr(p));
    CountIsWhereLength(table, row => SearchHit(row, sim, t));
    SmallPageKeepsAll(hits, le, LimitOr(p));
    Window(sorted, OffsetOr(p), LimitOr(p))
  }

  /** The first page of `search` holds the best hits: a hit it leaves out
      is no more similar than any row it returns. */
  lemma SearchTop(table: seq<ProductRow>, sim: (string, string) -> real, term: string, p: Paging, x: ProductRow)
    requires OffsetOr(p) == 0
    requires x in table && SearchHit(x, sim, SearchTerm(term))
    requires x !in SearchRows(table, sim, term, p)
    ensures forall y :: y in SearchRows(table, sim, term, p) ==> Score(y, sim, SearchTerm(term)) >= Score(x, sim, SearchTerm(term))
  {
    var t := SearchTerm(term);
    var le := (a, b) => Score(a, sim, t) >= Score(b, sim, t);
    var hits := Where(table, row => SearchHit(row, sim, t));
    var sorted := SortBy(hits, le);
    assert x in multiset(hits);
    assert x in multiset(sorted);
    SortBySorted(hits, le);
    var n := Min(LimitOr(p), |sorted|);
    assert SearchRows(table, sim, term, p) == sorted[..n];
    TopPrefix(sorted, le, n, x);
  }

  function Search(table: seq<ProductRow>, sim: (string, string) -> real, term: string, p: Paging): (r: seq<Product>)
    ensures |r| == |SearchRows(table, sim, term, p)|
    ensures forall i :: 0 <= i < |r| ==> r[i] == FromRow(SearchRows(table, sim, term, p)[i])
  {
    Map(SearchRows(table, sim, term, p), FromRow)
  }

  /** With no wildcard in the term, the `ILIKE` half of a search is plain
      case-insensitive substring search on the normalised name. */
  lemma SearchSubstring(name: string, t: string)
    requires Plain(t)
    ensures ILike(name, "%" + t + "%") <==> Contains(Lower(name), Lower(t))
  {
    var lt := Lower(t);
    assert Lower("%" + t + "%") == "%" + lt + "%";
    assert Plain(lt);
    LikeContains(Lower(name), lt);
  }

  /** The term keeps punctuation: `_` and `%` in it act as wildcards. */
  lemma SearchTermKeepsWildcards()
    ensures SearchTerm("50%") == "50%"
  {
    UnaccentFixed("50%");
  }

  const SimilarLimit: nat := 10
  const DefaultSimilarity: real := 0.65

  /** `category = $2 AND similarity(normalized_name, $1) > $3`. */
  predicate SimilarCandidate(row: ProductRow, sim: (string, string) -> real, name: string, category: Option<string>, threshold: real) {
    category.Some? && row.category == category &&
    row.normalized_name.Some? && sim(row.normalized_name.value, name) > threshold
  }

  datatype SimilarMatch = SimilarMatch(product: Product, score: real)

  /** The rows `findSimilar` returns: candidates by score, at most ten. */
  function SimilarRows(table: seq<ProductRow>, sim: (string, string) -> real, name: string, category: Option<string>, threshold: Option<real>): (rows: seq<ProductRow>)
    ensures |rows| <= SimilarLimit
    ensures forall row :: row in rows ==> row in table && SimilarCandidate(row, sim, name, category, threshold.GetOr(DefaultSimilarity))
    ensures SortedBy(rows, (a, b) => Score(a, sim, name) >= Score(b, sim, name))
    ensures |rows| == Min(SimilarLimit, CountWhere(table, row => SimilarCandidate(row, sim, name, category, threshold.GetOr(DefaultSimilarity))))
    ensures CountWhere(table, row => SimilarCandidate(row, sim, name, category, threshold.GetOr(DefaultSimilarity))) <= SimilarLimit ==>
      forall row :: row in table && SimilarCandidate(row, sim, name, category, threshold.GetOr(DefaultSimilarity)) ==> row in rows
  {
    var th := threshold.GetOr(DefaultSimilarity);
    var le := (a, b) => Score(a, sim, name) >= Score(b, sim, name);
    var candidates := Where(table, row => SimilarCandidate(row, sim, name, category, th));
    var sorted := SortBy(candidates, le);
    SortBySorted(candidates, le);
    SortedWindow(sorted, le, 0, SimilarLimit);
    WindowFrom(sorted, 0, SimilarLimit);
    CountIsWhereLength(table, row => SimilarCandidate(row, sim, name, category, th));
    SmallPageKeepsAll(candidates, le, SimilarLimit);
    Window(sorted, 0, SimilarLimit)
  }

  /** `findSimilar(normalizedName, category, threshold = 0.65)`. */
  function FindSimilar(table: seq<ProductRow>, sim: (string, string) -> real, name: string, category: Option<string>, threshold: Option<real>): (r: seq<SimilarMatch>)
    ensures |r| <= SimilarLimit
    ensures forall i :: 0 <= i < |r| ==> r[i].score > threshold.GetOr(DefaultSimilarity)
    ensures forall i :: 0 <= i < |r| - 1 ==> r[i].score >= r[i + 1].score
    ensures |r| == |SimilarRows(table, sim, name, category, threshold)|
    ensures forall i :: 0 <= i < |r| ==> r[i].product == FromRow(SimilarRows(table, sim, name, category, threshold)[i])
  {
    var rows := SimilarRows(table, sim, name, category, threshold);
    ScoresOfCandidates(rows, sim, name, category, threshold.GetOr(DefaultSimilarity));
    MatchesOf(rows, sim, name)
  }

  /** Candidates sorted by score have their scores above the threshold and
      in descending order. */
  lemma ScoresOfCandidates(rows: seq<ProductRow>, sim: (string, string) -> real, name: string, category: Option<string>, th: real)
    requires forall row :: row in rows ==> SimilarCandidate(row, sim, name, category, th)
    requires SortedBy(rows, (a, b) => Score(a, sim, name) >= Score(b, sim, name))
    ensures forall i :: 0 <= i < |rows| ==> Score(rows[i], sim, name) > th
    ensures forall i :: 0 <= i < |rows| - 1 ==> Score(rows[i], sim, name) >= Score(rows[i + 1], sim, name)
  {
    forall i | 0 <= i < |rows|
      ensures Score(rows[i], sim, name) > th
    {
      assert SimilarCandidate(rows[i], sim, name, category, th);
    }
  }

  /** Each row paired with its score, as the query's projection does. */
  function MatchesOf(rows: seq<ProductRow>, sim: (string, string) -> real, name: string): (r: seq<SimilarMatch>)
    ensures |r| == |rows|
    ensures forall i :: 0 <= i < |r| ==> r[i].product == FromRow(rows[i]) && r[i].score == Score(rows[i], sim, name)
  {
    Map(rows, row => SimilarMatch(FromRow(row), Score(row, sim, name)))
  }

  /** `findSimilar` keeps a top ten: a candidate left out scores no higher
      than any row kept. */
  lemma SimilarTopTen(table: seq<ProductRow>, sim: (string, string) -> real, name: string, category: Option<string>, threshold: Option<real>, x: ProductRow)
    requires x in table && SimilarCandidate(x, sim, name, category, threshold.GetOr(DefaultSimilarity))
    requires x !in SimilarRows(table, sim, name, category, threshold)
    ensures forall y :: y in SimilarRows(table, sim, name, category, threshold) ==> Score(y, sim, name) >= Score(x, sim, name)
  {
    var th := threshold.GetOr(DefaultSimilarity);
    var le := (a, b) => Score(a, sim, name) >= Score(b, sim, name);
    var candidates := Where(table, row => SimilarCandidate(row, sim, name, category, th));
    var sorted := SortBy(candidates, le);
    assert x in multiset(sorted);
    SortBySorted(candidates, le);
    var n := Min(SimilarLimit, |sorted|);
    assert SimilarRows(table, sim, name, category, threshold) == sorted[..n];
    TopPrefix(sorted, le, n, x);
  }

  // ---------------------------------------------------------------------------
  // create / update / delete
  // ---------------------------------------------------------------------------

  /** `errors.join(sep)`. */
  function Join(parts: seq<string>, sep: string): (r: string)
    ensures |parts| == 1 ==> r == parts[0]
  {
    if |parts| == 0 then ""
    else if |parts| == 1 then parts[0]
    else parts[0] + sep + Join(parts[1..], sep)
  }

  datatype CreateOutcome = Rejected(message: string) | Created(table: seq<ProductRow>, product: Product)

  /** The row the insert stores: `toDB()` plus what the database fills in. */
  function InsertedRow(p: Product, newId: Id, now: Timestamp): ProductRow {
    ToDB(p, now).(id := Some(newId), created_at := Some(now), updated_at := Some(now))
  }

  /** `create(product)`: an invalid product is rejected before the insert
      with its errors joined; otherwise one row is appended. */
  function Create(table: seq<ProductRow>, p: Product, newId: Id, now: Timestamp): (o: CreateOutcome)
    ensures o.Rejected? <==> !Validate(p).isValid
    ensures o.Rejected? ==> o.message == "Invalid product: " + Join(Validate(p).errors, ", ")
    ensures o.Created? ==> o.table == table + [InsertedRow(p, newId, now)]
    ensures o.Created? ==> o.product == FromRow(InsertedRow(p, newId, now))
  {
    var v := Validate(p);
    if !v.isValid then Rejected("Invalid product: " + Join(v.errors, ", "))
    else
      var row := InsertedRow(p, newId, now);
      Created(table + [row], FromRow(row))
  }

  /** The created product is the one given, with the id and timestamps the
      database assigned and the scrape time filled in. */
  lemma CreateReturnsProduct(table: seq<ProductRow>, p: Product, newId: Id, now: Timestamp)
    requires Consistent(p) && Validate(p).isValid
    ensures Create(table, p, newId, now).product ==
      p.(id := Some(newId), createdAt := Some(now), updatedAt := Some(now), lastScrapedAt := Some(p.lastScrapedAt.GetOr(now)))
  {
  }

  /** A product without a name is rejected with exactly the name error. */
  lemma CreateRejectsNameless(table: seq<ProductRow>, p: Product, newId: Id, now: Timestamp)
    requires p.name.None? && TruthyStr(p.supermarketId)
    ensures Create(table, p, newId, now) == Rejected("Invalid product: Product name is required")
  {
    ValidateIff(p);
    var o := Create(table, p, newId, now);
    assert o.Rejected?;
    assert o.message == "Invalid product: " + NameRequired;
    NamelessMessage();
  }

  lemma NamelessMessage()
    ensures "Invalid product: " + NameRequired == "Invalid product: Product name is required"
  {
  }

  /** `COALESCE($n, column)`. */
  function Coalesce<T>(incoming: Option<T>, current: Option<T>): (r: Option<T>)
    ensures incoming.Some? ==> r == incoming
    ensures incoming.None? ==> r == current
  {
    if incoming.Some? then incoming else current
  }

  /** The `SET` list of `update`: thirteen merged columns and `updated_at`. */
  function Merge(cur: ProductRow, data: ProductRow, now: Timestamp): ProductRow {
    cur.(
      name := Coalesce(data.name, cur.name),
      normalized_name := Coalesce(data.normalized_name, cur.normalized_name),
      description := Coalesce(data.description, cur.description),
      brand := Coalesce(data.brand, cur.brand),
      category := Coalesce(data.category, cur.category),
      subcategory := Coalesce(data.subcategory, cur.subcategory),
      unit := Coalesce(data.unit, cur.unit),
      unit_size := Coalesce(data.unit_size, cur.unit_size),
      image_url := Coalesce(data.image_url, cur.image_url),
      product_url := Coalesce(data.product_url, cur.product_url),
      barcode := Coalesce(data.barcode, cur.barcode),
      is_available := Coalesce(data.is_available, cur.is_available),
      last_scraped_at := Coalesce(data.last_scraped_at, cur.last_scraped_at),
      updated_at := Some(now))
  }

  /** A column `update` merges: the incoming value if given, else the cur. */
  predicate MergedColumn<T(==)>(after: Option<T>, before: Option<T>, incoming: Option<T>) {
    after == (if incoming.Some? then incoming else before)
  }

  /** `update(id, data)`: the table after the update and the updated
      product, or `null` when no row has that id. */
  function Update(table: seq<ProductRow>, id: Id, data: ProductRow, now: Timestamp): (r: (seq<ProductRow>, Option<Product>))
    ensures |r.0| == |table|
    ensures forall i :: 0 <= i < |table| ==> r.0[i] == (if HasId(table[i], id) then Merge(table[i], data, now) else table[i])
    ensures r.1.Some? <==> exists row :: row in table && HasId(row, id)
    ensures r.1 == FindById(r.0, id)
    ensures r.1.Some? ==> exists row :: row in table && HasId(row, id) && r.1.value == FromRow(Merge(row, data, now))
  {
    var selected := row => HasId(row, id);
    var after := UpdateWhere(table, selected, row => Merge(row, data, now));
    UpdateWhereFinds(table, selected, row => Merge(row, data, now));
    UpdatedFrom(table, selected, row => Merge(row, data, now));
    (after, FromDB(First(after, selected)))
  }

  /** The merge keeps the identity columns and creation time, takes every
      given column, keeps every other one, and never clears a column. */
  lemma MergeProperties(cur: ProductRow, data: ProductRow, now: Timestamp)
    ensures var m := Merge(cur, data, now);
      m.id == cur.id && m.supermarket_id == cur.supermarket_id &&
      m.external_id == cur.external_id && m.created_at == cur.created_at &&
      m.updated_at == Some(now) &&
      (cur.name.Some? ==> m.name.Some?) && (cur.is_available.Some? ==> m.is_available.Some?)
    ensures var m := Merge(cur, data, now);
      MergedColumn(m.name, cur.name, data.name) &&
      MergedColumn(m.normalized_name, cur.normalized_name, data.normalized_name) &&
      MergedColumn(m.description, cur.description, data.description) &&
      MergedColumn(m.brand, cur.brand, data.brand) &&
      MergedColumn(m.category, cur.category, data.category)
    ensures var m := Merge(cur, data, now);
      MergedColumn(m.subcategory, cur.subcategory, data.subcategory) &&
      MergedColumn(m.unit, cur.unit, data.unit) &&
      MergedColumn(m.unit_size, cur.unit_size, data.unit_size) &&
      MergedColumn(m.image_url, cur.image_url, data.image_url)
    ensures var m := Merge(cur, data, now);
      MergedColumn(m.product_url, cur.product_url, data.product_url) &&
      MergedColumn(m.barcode, cur.barcode, data.barcode) &&
      MergedColumn(m.is_available, cur.is_available, data.is_available) &&
      MergedColumn(m.last_scraped_at, cur.last_scraped_at, data.last_scraped_at)
  {
  }

  /** A new name alone leaves the stored normalised name as it was. */
  lemma RenameKeepsNormalizedName(cur: ProductRow, data: ProductRow, now: Timestamp)
    requires data.name.Some? && data.normalized_name.None?
    ensures Merge(cur, data, now).name == data.name
    ensures Merge(cur, data, now).normalized_name == cur.normalized_name
  {
  }

  /** Merging with nothing only refreshes `updated_at`. */
  lemma EmptyMerge(cur: ProductRow, now: Timestamp)
    ensures Merge(cur, ProductRow(None, None, None, None, None, None, None, None, None, None, None, None, None, None, None, None, None, None), now)
      == cur.(updated_at := Some(now))
  {
  }

  /** `delete(id)`: the table without the rows of that id, and whether any
      row was removed. */
  function Delete(table: seq<ProductRow>, id: Id): (r: (seq<ProductRow>, bool))
    ensures forall row :: row in r.0 <==> row in table && !HasId(row, id)
    ensures r.1 <==> exists row :: row in table && HasId(row, id)
  {
    (Where(table, row => !HasId(row, id)), First(table, row => HasId(row, id)).Some?)
  }

  /** `delete` reports true exactly when the table shrank. */
  lemma DeleteShrinks(table: seq<ProductRow>, id: Id)
    ensures Delete(table, id).1 <==> |Delete(table, id).0| < |table|
  {
    var kept := Delete(table, id).0;
    CountIsWhereLength(table, row => !HasId(row, id));
    if Delete(table, id).1 {
      var row :| row in table && HasId(row, id);
      CountBelow(table, row => !HasId(row, id), row);
    } else {
      WhereAll(table, row => !HasId(row, id));
    }
  }
}

=== FILE: scraping.dfy ===
/**
  The deterministic half of the scrapers: the shared `createProductObject`
  and the per-site `parseProduct` of Lider and Jumbo, once the page
  lookups have produced their text.

  A page lookup (`element.$eval(selector, callback).catch(() => null)`)
  is an input here: `None` when the selector matched nothing, otherwise
  the raw text or attribute the callback reads.
 */
module Scraping {
  import opened Js
  import opened Text
  import opened Numbers

  const DefaultCategory := "Sin categoría"
  const JumboBaseUrl := "https://www.jumbo.cl"

  /** What a site parser hands to `createProductObject`. `normalPrice` is
      always the (truthy) number the parser extracted. */
  datatype ScrapedData = ScrapedData(
    externalId: Option<string>,
    name: Option<string>,
    description: Option<string>,
    brand: Option<string>,
    category: Option<string>,
    subcategory: Option<string>,
    unit: Option<string>,
    unitSize: Option<string>,
    imageUrl: Option<string>,
    productUrl: Option<string>,
    barcode: Option<string>,
    normalPrice: real,
    offerPrice: Option<real>,
    offerDescription: Option<string>,
    pricePerUnit: Option<real>)

  /** The product object a scraper collects. */
  datatype ScrapedProduct = ScrapedProduct(
    externalId: Option<string>,
    name: Option<string>,
    normalizedName: string,
    description: Option<string>,
    brand: Option<string>,
    category: string,
    subcategory: Option<string>,
    unit: Option<string>,
    unitSize: Option<string>,
    imageUrl: Option<string>,
    productUrl: Option<string>,
    barcode: Option<string>,
    normalPrice: real,
    offerPrice: Option<real>,
    hasOffer: bool,
    offerDescription: Option<string>,
    pricePerUnit: Option<real>)

  // ---------------------------------------------------------------------------
  // createProductObject
  // ---------------------------------------------------------------------------

  /** `createProductObject(data)`: falsy optional fields become `null`, the
      category defaults, and `hasOffer` compares the raw offer with the
      normal price. */
  function CreateProductObject(d: ScrapedData): (p: ScrapedProduct)
    ensures p.name == d.name && p.normalPrice == d.normalPrice
    ensures p.normalizedName == NormalizeProductName(d.name) && IsNormalized(p.normalizedName)
    ensures p.externalId.Some? <==> TruthyStr(d.externalId)
    ensures p.category == (if TruthyStr(d.category) then d.category.value else DefaultCategory)
    ensures p.category != ""
    ensures p.offerPrice.Some? <==> TruthyNum(d.offerPrice)
    ensures p.offerPrice.Some? ==> p.offerPrice == d.offerPrice
    ensures p.hasOffer <==> d.offerPrice.Some? && d.offerPrice.value < d.normalPrice
    ensures p.pricePerUnit.Some? <==> TruthyNum(d.pricePerUnit)
  {
    ScrapedProduct(
      StrOrNull(d.externalId), d.name, NormalizeProductName(d.name),
      StrOrNull(d.description), StrOrNull(d.brand), StrOr(d.category, DefaultCategory),
      StrOrNull(d.subcategory), StrOrNull(d.unit), StrOrNull(d.unitSize),
      StrOrNull(d.imageUrl), StrOrNull(d.productUrl), StrOrNull(d.barcode),
      d.normalPrice, NumOrNull(d.offerPrice),
      d.offerPrice.Some? && d.offerPrice.value < d.normalPrice,
      StrOrNull(d.offerDescription), NumOrNull(d.pricePerUnit))
  }

  /** An offer of exactly 0 is stored as no offer price, yet the product is
      flagged as on offer: `hasOffer` tests the raw value, `offerPrice` its
      truthiness. */
  lemma ZeroOfferFlagged(d: ScrapedData)
    requires d.offerPrice == Some(0.0) && d.normalPrice > 0.0
    ensures CreateProductObject(d).hasOffer
    ensures CreateProductObject(d).offerPrice.None?
  {
  }

  /** Apart from that case, an offer flag always comes with an offer price
      below the normal price. */
  lemma OfferFlagMeansCheaper(d: ScrapedData)
    requires d.offerPrice != Some(0.0)
    ensures CreateProductObject(d).hasOffer <==>
      CreateProductObject(d).offerPrice.Some? && CreateProductObject(d).offerPrice.value < d.normalPrice
  {
  }

  // ---------------------------------------------------------------------------
  // External id from a product URL
  // ---------------------------------------------------------------------------

  /** `s.split(c).pop()`: the text after the last `c` (all of `s` when
      there is none). */
  function AfterLast(s: string, c: char): (r: string)
    ensures |r| <= |s| && r == s[|s| - |r|..]
    ensures c !in r
    ensures |r| < |s| ==> s[|s| - |r| - 1] == c
  {
    if |s| == 0 then ""
    else if s[|s| - 1] == c then ""
    else
      var r := AfterLast(s[..|s| - 1], c) + [s[|s| - 1]];
      assert s[..|s| - 1][|s| - |r|..] + [s[|s| - 1]] == s[|s| - |r|..];
      r
  }

  /** The product id at the end of a product URL:
      `url.split('/').pop().split('?')[0]`. */
  function ExternalIdFromUrl(url: string): (id: string)
    ensures '/' !in id && '?' !in id
    ensures |id| <= |url|
  {
    BeforeFirst(AfterLast(url, '/'), '?')
  }

  lemma {:induction false} AfterLastAppend(p: string, c: char, t: string)
    requires c !in t
    ensures AfterLast(p + [c] + t, c) == t
    decreases |t|
  {
    var s := p + [c] + t;
    if |t| > 0 {
      var u := t[..|t| - 1];
      assert s[..|s| - 1] == p + [c] + u;
      AfterLastAppend(p, c, u);
      assert u + [t[|t| - 1]] == t;
    }
  }

  /** The id is recovered from any URL built as `base/id?query`, whatever
      the base, provided the query has no `/`. */
  lemma ExternalIdOfQueryUrl(base: string, id: string, query: string)
    requires '/' !in id && '?' !in id && '/' !in query
    ensures ExternalIdFromUrl(base + "/" + id + "?" + query) == id
  {
    var tail := id + "?" + query;
    assert '/' !in tail;
    assert base + "/" + id + "?" + query == base + ['/'] + tail;
    AfterLastAppend(base, '/', tail);
    assert tail == id + ['?'] + query;
    BeforeFirstAppend(id, '?', query);
  }

  /** ... and from `base/id`. */
  lemma ExternalIdOfPlainUrl(base: string, id: string)
    requires '/' !in id && '?' !in id
    ensures ExternalIdFromUrl(base + "/" + id) == id
  {
    assert base + "/" + id == base + ['/'] + id;
    AfterLastAppend(base, '/', id);
    BeforeFirstAll(id, '?');
  }

  /** A URL that ends in `/` has the empty id, which `createProductObject`
      turns into `null`. */
  lemma TrailingSlashHasNoId(base: string)
    ensures ExternalIdFromUrl(base + "/") == ""
  {
  }

  // ---------------------------------------------------------------------------
  // Site parsers
  // ---------------------------------------------------------------------------

  /** The lookups Lider's `parseProduct` makes on one product card: raw
      `textContent` for text, the attribute for links and images. */
  datatype LiderCard = LiderCard(
    title: Option<string>,
    normalPriceText: Option<string>,
    offerPriceText: Option<string>,
    imageUrl: Option<string>,
    productUrl: Option<string>,
    brand: Option<string>,
    unitText: Option<string>,
    pricePerUnitText: Option<string>)

  /** The lookups Jumbo's `parseProduct` makes on one product card. */
  datatype JumboCard = JumboCard(
    title: Option<string>,
    normalPriceText: Option<string>,
    offerPriceText: Option<string>,
    imageUrl: Option<string>,
    productUrl: Option<string>,
    brand: Option<string>)

  /** `el => el.textContent.trim()` after a lookup that may have failed. */
  function TrimmedText(o: Option<string>): (r: Option<string>)
    ensures r.Some? <==> o.Some?
    ensures r.Some? ==> NoEdge(r.value, IsSpace)
  {
    match o
    case None => None
    case Some(t) => Some(Trim(t))
  }

  /** `productUrl ? <id from productUrl> : null`. */
  function UrlId(url: Option<string>): (r: Option<string>)
    ensures r.Some? <==> TruthyStr(url)
  {
    if TruthyStr(url) then Some(ExternalIdFromUrl(url.value)) else None
  }

  /** Lider's `parseProduct(element, category)`: `None` for a card without a
      name or without a truthy normal price. */
  function ParseLider(card: LiderCard, category: Option<string>): (r: Option<ScrapedProduct>)
    ensures r.Some? <==>
      TruthyStr(TrimmedText(card.title)) && TruthyNum(ExtractPrice(TrimmedText(card.normalPriceText)))
    ensures r.Some? ==> r.value.normalPrice != 0.0 && r.value.name == TrimmedText(card.title)
    ensures r.Some? ==> r.value.productUrl == StrOrNull(card.productUrl)
    ensures r.Some? ==> r.value.normalPrice == ExtractPrice(TrimmedText(card.normalPriceText)).value
    ensures r.Some? ==> r.value.externalId == StrOrNull(UrlId(card.productUrl))
    ensures r.Some? ==> r.value.offerPrice == NumOrNull(ExtractPrice(TrimmedText(card.offerPriceText)))
    ensures r.Some? && r.value.externalId.Some? ==>
      r.value.externalId.value != "" && '/' !in r.value.externalId.value && '?' !in r.value.externalId.value
    ensures r.Some? ==> r.value.description == StrOrNull(TrimmedText(card.unitText))
    ensures r.Some? ==> r.value.pricePerUnit == NumOrNull(ExtractPrice(TrimmedText(card.pricePerUnitText)))
    ensures r.Some? ==> r.value.category == StrOr(category, DefaultCategory)
    ensures r.Some? ==> r.value.brand == StrOrNull(TrimmedText(card.brand)) && r.value.imageUrl == StrOrNull(card.imageUrl)
    ensures r.Some? ==> (r.value.hasOffer <==>
      ExtractPrice(TrimmedText(card.offerPriceText)).Some? &&
      ExtractPrice(TrimmedText(card.offerPriceText)).value < r.value.normalPrice)
  {
    var name := TrimmedText(card.title);
    if !TruthyStr(name) then None
    else
      var normalPrice := ExtractPrice(TrimmedText(card.normalPriceText));
      var offerPrice := ExtractPrice(TrimmedText(card.offerPriceText));
      if !TruthyNum(normalPrice) then None
      else
        Some(CreateProductObject(ScrapedData(
          UrlId(card.productUrl), name, TrimmedText(card.unitText), TrimmedText(card.brand), category,
          None, None, None, card.imageUrl, card.productUrl, None,
          normalPrice.value, offerPrice, None, ExtractPrice(TrimmedText(card.pricePerUnitText)))))
  }

  /** `productUrl ? `${baseUrl}${productUrl}` : null`. */
  function JumboLink(url: Option<string>): (r: Option<string>)
    ensures TruthyStr(url) ==> r == Some(JumboBaseUrl + url.value) && StrOrNull(r) == r
    ensures !TruthyStr(url) ==> r.None?
  {
    if TruthyStr(url) then
      assert |JumboBaseUrl + url.value| > 0;
      Some(JumboBaseUrl + url.value)
    else None
  }

  /** Jumbo's `parseProduct(element, category)`: as Lider's, but there is
      neither a description nor a per-unit price, and the link is prefixed
      with the site's base URL whatever it holds (an anchor's `href` is
      already absolute, so the base URL then appears twice). */
  function ParseJumbo(card: JumboCard, category: Option<string>): (r: Option<ScrapedProduct>)
    ensures r.Some? <==>
      TruthyStr(TrimmedText(card.title)) && TruthyNum(ExtractPrice(TrimmedText(card.normalPriceText)))
    ensures r.Some? ==> r.value.normalPrice != 0.0 && r.value.name == TrimmedText(card.title)
    ensures r.Some? ==> r.value.description.None? && r.value.pricePerUnit.None?
    ensures r.Some? && TruthyStr(card.productUrl) ==> r.value.productUrl == Some(JumboBaseUrl + card.productUrl.value)
    ensures r.Some? && !TruthyStr(card.productUrl) ==> r.value.productUrl.None?
    ensures r.Some? ==> r.value.externalId == StrOrNull(UrlId(card.productUrl))
    ensures r.Some? ==> r.value.normalPrice == ExtractPrice(TrimmedText(card.normalPriceText)).value
    ensures r.Some? ==> r.value.offerPrice == NumOrNull(ExtractPrice(TrimmedText(card.offerPriceText)))
    ensures r.Some? ==> r.value.category == StrOr(category, DefaultCategory)
    ensures r.Some? ==> r.value.brand == StrOrNull(TrimmedText(card.brand)) && r.value.imageUrl == StrOrNull(card.imageUrl)
    ensures r.Some? ==> (r.value.hasOffer <==>
      ExtractPrice(TrimmedText(card.offerPriceText)).Some? &&
      ExtractPrice(TrimmedText(card.offerPriceText)).value < r.value.normalPrice)
  {
    var name := TrimmedText(card.title);
    if !TruthyStr(name) then None
    else
      var normalPrice := ExtractPrice(TrimmedText(card.normalPriceText));
      var offerPrice := ExtractPrice(TrimmedText(card.offerPriceText));
      if !TruthyNum(normalPrice) then None
      else
        Some(CreateProductObject(ScrapedData(
          UrlId(card.productUrl), name, None, TrimmedText(card.brand), category,
          None, None, None, card.imageUrl, JumboLink(card.productUrl), None,
          normalPrice.value, offerPrice, None, None)))
  }

  /** A Lider card whose price tag is a printed peso amount, with no offer
      tag and a link ending in a product id, yields exactly that amount and
      id, and no offer. */
  lemma LiderReadsCard(card: LiderCard, category: Option<string>, n: nat, base: string, id: string)
    requires TruthyStr(TrimmedText(card.title))
    requires n > 0 && card.normalPriceText == Some(PesoText(n)) && card.offerPriceText.None?
    requires card.productUrl == Some(base + "/" + id) && '/' !in id && '?' !in id && id != ""
    ensures ParseLider(card, category).Some?
    ensures ParseLider(card, category).value.normalPrice == n as real
    ensures ParseLider(card, category).value.externalId == Some(id)
    ensures !ParseLider(card, category).value.hasOffer && ParseLider(card, category).value.offerPrice.None?
  {
    PesoTextTrimmed(n);
    ExtractPesoText(n);
    ExternalIdOfPlainUrl(base, id);
  }

  /** A Jumbo card whose link is a path ending in a product id takes its id
      from the link as it was read, while the stored link carries the site's
      base URL in front. */
  lemma JumboReadsCard(card: JumboCard, category: Option<string>, n: nat, path: string, id: string)
    requires TruthyStr(TrimmedText(card.title))
    requires n > 0 && card.normalPriceText == Some(PesoText(n)) && card.offerPriceText.None?
    requires card.productUrl == Some(path + "/" + id) && '/' !in id && '?' !in id && id != ""
    ensures ParseJumbo(card, category).Some?
    ensures ParseJumbo(card, category).value.normalPrice == n as real
    ensures ParseJumbo(card, category).value.externalId == Some(id)
    ensures ParseJumbo(card, category).value.productUrl == Some(JumboBaseUrl + path + "/" + id)
    ensures !ParseJumbo(card, category).value.hasOffer && ParseJumbo(card, category).value.offerPrice.None?
  {
    PesoTextTrimmed(n);
    ExtractPesoText(n);
    assert ExtractPrice(TrimmedText(card.normalPriceText)) == Some(n as real);
    assert ExtractPrice(TrimmedText(card.offerPriceText)).None?;
    var r := ParseJumbo(card, category);
    ExternalIdOfPlainUrl(path, id);
    assert UrlId(card.productUrl) == Some(id);
    LinkAssoc(path, id);
  }

  lemma LinkAssoc(path: string, id: string)
    ensures JumboBaseUrl + (path + "/" + id) == JumboBaseUrl + path + "/" + id
  {
  }
}

=== FILE: sql.dfy ===
/**
  The dynamic `WHERE … AND column = $n … LIMIT $n OFFSET $n` builder the
  repositories share, and what such a query selects.

  The builder in the source appends text and parameters side by side,
  bumping a counter for each placeholder. Here a query is kept as its
  structure: the equality conditions in order, each with the placeholder
  number it was given, the parameter list, and the placeholders of `LIMIT`
  and `OFFSET`. The SQL text is a function of that structure.
 */
module Sql {
  import opened Js

  /** A query parameter or column value. */
  datatype Value = Text(s: string) | Flag(b: bool) | Number(n: int) | SqlNull

  /** `AND column = $slot`. */
  datatype Condition = Condition(column: string, slot: nat)

  datatype Query = Query(
    conditions: seq<Condition>,
    params: seq<Value>,
    limitSlot: Option<nat>,
    offsetSlot: Option<nat>)

  /** `WHERE 1=1` with no parameter yet. */
  const Start := Query([], [], None, None)

  /** The placeholders are `$1 … $k` in the order they were written, `$i`
      carries the `i`-th parameter, and `LIMIT`/`OFFSET` (when present)
      take the last two. */
  predicate WellNumbered(q: Query) {
    (forall i :: 0 <= i < |q.conditions| ==> q.conditions[i].slot == i + 1) &&
    (q.limitSlot.None? <==> q.offsetSlot.None?) &&
    (q.limitSlot.None? ==> |q.params| == |q.conditions|) &&
    (q.limitSlot.Some? ==>
      |q.params| == |q.conditions| + 2 &&
      q.limitSlot.value == |q.conditions| + 1 && q.offsetSlot.value == |q.conditions| + 2)
  }

  predicate Paginated(q: Query) {
    q.limitSlot.Some?
  }

  /** `paramCount++; sql += ' AND column = $' + paramCount; params.push(v)`. */
  function AndEquals(q: Query, column: string, v: Value): (r: Query)
    requires WellNumbered(q) && !Paginated(q)
    ensures WellNumbered(r) && !Paginated(r)
    ensures r.conditions == q.conditions + [Condition(column, |q.params| + 1)]
    ensures r.params == q.params + [v]
  {
    q.(conditions := q.conditions + [Condition(column, |q.params| + 1)], params := q.params + [v])
  }

  /** `LIMIT $n OFFSET $n+1` with the next two placeholders. */
  function Paginate(q: Query, limit: nat, offset: nat): (r: Query)
    requires WellNumbered(q) && !Paginated(q)
    ensures WellNumbered(r) && Paginated(r)
    ensures r.conditions == q.conditions
    ensures r.params == q.params + [Number(limit), Number(offset)]
  {
    q.(params := q.params + [Number(limit), Number(offset)],
       limitSlot := Some(|q.params| + 1), offsetSlot := Some(|q.params| + 2))
  }

  /** The parameter a placeholder refers to. */
  function Param(q: Query, slot: nat): Value
    requires 1 <= slot <= |q.params|
  {
    q.params[slot - 1]
  }

  /** SQL `=`: a comparison with `NULL` is not true. */
  predicate SqlEquals(a: Value, b: Value) {
    a != SqlNull && b != SqlNull && a == b
  }

  /** Whether a row, given by its column lookup, passes every condition. */
  predicate Selects(q: Query, row: string -> Value)
    requires WellNumbered(q)
  {
    forall i :: 0 <= i < |q.conditions| ==>
      SqlEquals(row(q.conditions[i].column), Param(q, q.conditions[i].slot))
  }

  /** The `LIMIT` and `OFFSET` values of a paginated query. */
  function LimitOf(q: Query): int
    requires WellNumbered(q) && Paginated(q)
  {
    match Param(q, q.limitSlot.value)
    case Number(n) => n
    case _ => 0
  }

  function OffsetOf(q: Query): int
    requires WellNumbered(q) && Paginated(q)
  {
    match Param(q, q.offsetSlot.value)
    case Number(n) => n
    case _ => 0
  }

  /** Adding a condition selects exactly the rows the old conditions select
      that also pass the new one. */
  lemma AndEqualsSelects(q: Query, column: string, v: Value, row: string -> Value)
    requires WellNumbered(q) && !Paginated(q)
    ensures Selects(AndEquals(q, column, v), row) <==> Selects(q, row) && SqlEquals(row(column), v)
  {
    var r := AndEquals(q, column, v);
    var n := |q.conditions|;
    assert r.conditions[n] == Condition(column, n + 1);
    assert Param(r, n + 1) == v;
    if Selects(q, row) && SqlEquals(row(column), v) {
      forall i | 0 <= i < |r.conditions|
        ensures SqlEquals(row(r.conditions[i].column), Param(r, r.conditions[i].slot))
      {
        if i < n {
          assert r.conditions[i] == q.conditions[i];
          assert Param(r, i + 1) == Param(q, i + 1);
        }
      }
    }
    if Selects(r, row) {
      forall i | 0 <= i < n
        ensures SqlEquals(row(q.conditions[i].column), Param(q, q.conditions[i].slot))
      {
        assert r.conditions[i] == q.conditions[i];
        assert Param(r, i + 1) == Param(q, i + 1);
      }
    }
  }

  /** Pagination changes neither the conditions nor what they select, and
      its two parameters are read back as written. */
  lemma PaginateSelects(q: Query, limit: nat, offset: nat, row: string -> Value)
    requires WellNumbered(q) && !Paginated(q)
    ensures Selects(Paginate(q, limit, offset), row) <==> Selects(q, row)
    ensures LimitOf(Paginate(q, limit, offset)) == limit
    ensures OffsetOf(Paginate(q, limit, offset)) == offset
  {
    var r := Paginate(q, limit, offset);
    assert forall i :: 1 <= i <= |q.params| ==> Param(r, i) == Param(q, i);
    PaginateWindow(q, limit, offset);
  }

  /** The `LIMIT` and `OFFSET` a paginated query reads are the two values
      it was given. */
  lemma PaginateWindow(q: Query, limit: nat, offset: nat)
    requires WellNumbered(q) && !Paginated(q)
    ensures LimitOf(Paginate(q, limit, offset)) == limit
    ensures OffsetOf(Paginate(q, limit, offset)) == offset
  {
  }

  /** The start selects every row. */
  lemma StartSelectsAll(row: string -> Value)
    ensures WellNumbered(Start) && Selects(Start, row)
  {
  }

  // ---------------------------------------------------------------------------
  // LIKE
  // ---------------------------------------------------------------------------

  /** `s LIKE p`: `%` matches any run, `_` any one character, and `\`
      makes the next character literal. */
  predicate LikeMatch(s: string, p: string)
    decreases |s| + |p|
  {
    if |p| == 0 then |s| == 0
    else if p[0] == '%' then LikeMatch(s, p[1..]) || (|s| > 0 && LikeMatch(s[1..], p))
    else if p[0] == '_' then |s| > 0 && LikeMatch(s[1..], p[1..])
    else if p[0] == '\\' && |p| >= 2 then |s| > 0 && s[0] == p[1] && LikeMatch(s[1..], p[2..])
    else |s| > 0 && s[0] == p[0] && LikeMatch(s[1..], p[1..])
  }

  /** Text with no wildcard and no escape character. */
  predicate Plain(t: string) {
    forall i :: 0 <= i < |t| ==> t[i] != '%' && t[i] != '_' && t[i] != '\\'
  }

  /** `t` occurs in `s` starting at position `k`. */
  predicate OccursAt(s: string, t: string, k: int) {
    0 <= k <= |s| - |t| && s[k..k + |t|] == t
  }

  /** `t` occurs in `s` as a contiguous substring. */
  predicate Contains(s: string, t: string) {
    exists k :: 0 <= k <= |s| && OccursAt(s, t, k)
  }

  /** A plain prefix of the pattern matches itself literally. */
  lemma {:induction false} LikeLiteral(s: string, t: string, rest: string)
    requires Plain(t)
    ensures LikeMatch(s, t + rest) <==> |t| <= |s| && s[..|t|] == t && LikeMatch(s[|t|..], rest)
  {
    if |t| > 0 {
      var p := t + rest;
      assert p[0] == t[0] && p[1..] == t[1..] + rest;
      assert Plain(t[1..]) by {
        forall i | 0 <= i < |t[1..]| ensures t[1..][i] != '%' && t[1..][i] != '_' && t[1..][i] != '\\' {
          assert t[1..][i] == t[i + 1];
        }
      }
      LikeLiteral(if |s| > 0 then s[1..] else s, t[1..], rest);
      if |s| > 0 && |t| <= |s| {
        assert s[1..][..|t| - 1] == s[1..|t|];
        assert s[..|t|] == [s[0]] + s[1..|t|];
        assert t == [t[0]] + t[1..];
        assert s[1..][|t| - 1..] == s[|t|..];
      }
    } else {
      assert t + rest == rest;
    }
  }

  /** A lone `%` matches anything. */
  lemma {:induction false} LikeAnything(s: string)
    ensures LikeMatch(s, "%")
  {
    assert "%"[1..] == "";
    if |s| > 0 {
      LikeAnything(s[1..]);
    }
  }

  /** A leading `%` lets the rest of the pattern match any suffix. */
  lemma {:induction false} LikeLeadingPercent(s: string, q: string)
    ensures LikeMatch(s, "%" + q) <==> exists k :: 0 <= k <= |s| && LikeMatch(s[k..], q)
  {
    var p := "%" + q;
    assert p[0] == '%' && p[1..] == q;
    assert s[0..] == s;
    if |s| > 0 {
      LikeLeadingPercent(s[1..], q);
      if exists k :: 0 <= k <= |s| && LikeMatch(s[k..], q) {
        var k :| 0 <= k <= |s| && LikeMatch(s[k..], q);
        if k > 0 {
          assert s[1..][k - 1..] == s[k..];
        }
      }
      if exists k :: 0 <= k <= |s[1..]| && LikeMatch(s[1..][k..], q) {
        var k :| 0 <= k <= |s[1..]| && LikeMatch(s[1..][k..], q);
        assert s[1..][k..] == s[k + 1..];
      }
    }
  }

  /** `LIKE '%t%'` with a plain `t` is substring search. */
  lemma LikeContains(s: string, t: string)
    requires Plain(t)
    ensures LikeMatch(s, "%" + t + "%") <==> Contains(s, t)
  {
    assert "%" + t + "%" == "%" + (t + "%");
    LikeLeadingPercent(s, t + "%");
    if Contains(s, t) {
      ContainedMatches(s, t);
    }
    if exists k :: 0 <= k <= |s| && LikeMatch(s[k..], t + "%") {
      MatchContains(s, t);
    }
  }

  lemma ContainedMatches(s: string, t: string)
    requires Plain(t) && Contains(s, t)
    ensures exists k :: 0 <= k <= |s| && LikeMatch(s[k..], t + "%")
  {
    var k :| 0 <= k <= |s| && OccursAt(s, t, k);
    LikeLiteral(s[k..], t, "%");
    assert s[k..][..|t|] == s[k..k + |t|];
    LikeAnything(s[k..][|t|..]);
  }

  lemma MatchContains(s: string, t: string)
    requires Plain(t)
    requires exists k :: 0 <= k <= |s| && LikeMatch(s[k..], t + "%")
    ensures Contains(s, t)
  {
    var k :| 0 <= k <= |s| && LikeMatch(s[k..], t + "%");
    LikeLiteral(s[k..], t, "%");
    assert s[k..][..|t|] == s[k..k + |t|];
    assert OccursAt(s, t, k);
  }
}

=== FILE: supermarket.dfy ===
/**
  The `Supermarket` entity of the backend: the slug default, validation and
  the mapping to and from a `supermarkets` row.

  `generateSlug` is the same pipeline as the scrapers' `slugify`, so both
  are `Text.Slugify`.
 */
module SupermarketEntity {
  import opened Js
  import opened Text

  /** The object handed to `new Supermarket({...})`. `location` and
      `isActive` have default parameters, which fire only on `undefined`. */
  datatype SupermarketInput = SupermarketInput(
    id: Option<Id>,
    name: Option<string>,
    slug: Option<string>,
    websiteUrl: Option<string>,
    logoUrl: Option<string>,
    chainGroup: Option<string>,
    location: Field<string>,
    isActive: Field<bool>,
    createdAt: Option<Timestamp>,
    updatedAt: Option<Timestamp>)

  datatype Supermarket = Supermarket(
    id: Option<Id>,
    name: Option<string>,
    slug: string,
    websiteUrl: Option<string>,
    logoUrl: Option<string>,
    chainGroup: Option<string>,
    location: Option<string>,
    isActive: Option<bool>,
    createdAt: Option<Timestamp>,
    updatedAt: Option<Timestamp>)

  /** A row of the `supermarkets` table. */
  datatype SupermarketRow = SupermarketRow(
    id: Option<Id>,
    name: Option<string>,
    slug: Option<string>,
    website_url: Option<string>,
    logo_url: Option<string>,
    chain_group: Option<string>,
    location: Option<string>,
    is_active: Option<bool>,
    created_at: Option<Timestamp>,
    updated_at: Option<Timestamp>)

  datatype Validation = Validation(isValid: bool, errors: seq<string>)

  const NameRequired := "Supermarket name is required"
  const WebsiteRequired := "Website URL is required"
  const SlugRequired := "Slug is required"

  const DefaultLocation := "Temuco"

  /** `new Supermarket({...})`: a missing or empty slug is derived from the
      name. */
  function New(inp: SupermarketInput): (s: Supermarket)
    ensures TruthyStr(inp.slug) ==> s.slug == inp.slug.value
    ensures !TruthyStr(inp.slug) ==> s.slug == Slugify(inp.name)
    ensures IsSlug(s.slug) || s.slug == inp.slug.value
    ensures inp.location.Undefined? ==> s.location == Some(DefaultLocation)
    ensures inp.isActive.Undefined? ==> s.isActive == Some(true)
    ensures inp.isActive.Null? ==> s.isActive.None?
    ensures inp.location.Defined? ==> s.location == Some(inp.location.value)
    ensures inp.location.Null? ==> s.location.None?
    ensures inp.isActive.Defined? ==> s.isActive == Some(inp.isActive.value)
  {
    Supermarket(
      inp.id, inp.name, StrOr(inp.slug, Slugify(inp.name)),
      inp.websiteUrl, inp.logoUrl, inp.chainGroup,
      DefaultIfUndefined(inp.location, DefaultLocation),
      DefaultIfUndefined(inp.isActive, true),
      inp.createdAt, inp.updatedAt)
  }

  /** What every constructed supermarket satisfies: an empty slug only when
      the name has no slug either. */
  predicate Consistent(s: Supermarket) {
    s.slug != "" || Slugify(s.name) == ""
  }

  predicate BlankName(name: Option<string>) {
    !TruthyStr(name) || Trim(name.value) == ""
  }

  /** `validate()`, errors in source order. */
  function Validate(s: Supermarket): (v: Validation)
    ensures v.isValid <==> v.errors == []
    ensures NameRequired in v.errors <==> BlankName(s.name)
    ensures WebsiteRequired in v.errors <==> !TruthyStr(s.websiteUrl)
    ensures SlugRequired in v.errors <==> s.slug == ""
  {
    MessagesDistinct();
    var errors :=
      Check(BlankName(s.name), NameRequired) +
      Check(!TruthyStr(s.websiteUrl), WebsiteRequired) +
      Check(s.slug == "", SlugRequired);
    Validation(|errors| == 0, errors)
  }

  lemma MessagesDistinct()
    ensures NameRequired != WebsiteRequired && NameRequired != SlugRequired && WebsiteRequired != SlugRequired
  {
    assert |NameRequired| == 28 && |WebsiteRequired| == 23 && |SlugRequired| == 16;
  }

  /** `toDB()`: the timestamps are not written. */
  function ToDB(s: Supermarket): (r: SupermarketRow)
    ensures r.slug == Some(s.slug) && r.location == s.location && r.is_active == s.isActive
    ensures r.created_at.None? && r.updated_at.None?
    ensures r.id == s.id && r.name == s.name && r.website_url == s.websiteUrl
    ensures r.logo_url == s.logoUrl && r.chain_group == s.chainGroup
  {
    SupermarketRow(
      s.id, s.name, Some(s.slug), s.websiteUrl, s.logoUrl, s.chainGroup,
      s.location, s.isActive, None, None)
  }

  /** The constructor input `fromDB` builds: a `NULL` column is `null`, so
      the defaults do not fire. */
  function InputOf(row: SupermarketRow): SupermarketInput {
    SupermarketInput(
      row.id, row.name, row.slug, row.website_url, row.logo_url, row.chain_group,
      FromOption(row.location), FromOption(row.is_active),
      row.created_at, row.updated_at)
  }

  function FromRow(row: SupermarketRow): (s: Supermarket)
    ensures s.location == row.location && s.isActive == row.is_active
    ensures TruthyStr(row.slug) ==> s.slug == row.slug.value
    ensures !TruthyStr(row.slug) ==> s.slug == Slugify(row.name)
    ensures s.id == row.id && s.name == row.name && s.websiteUrl == row.website_url
    ensures s.logoUrl == row.logo_url && s.chainGroup == row.chain_group
    ensures s.createdAt == row.created_at && s.updatedAt == row.updated_at
  {
    StoredDefault(row.location, DefaultLocation);
    StoredDefault(row.is_active, true);
    New(InputOf(row))
  }

  /** `Supermarket.fromDB`. */
  function FromDB(row: Option<SupermarketRow>): (s: Option<Supermarket>)
    ensures s.Some? <==> row.Some?
  {
    match row
    case None => None
    case Some(r) => Some(FromRow(r))
  }

  // ---------------------------------------------------------------------------
  // Lemmas
  // ---------------------------------------------------------------------------

  lemma NewIsConsistent(inp: SupermarketInput)
    ensures Consistent(New(inp))
  {
  }

  /** `validate` accepts exactly: a non-blank name, a website and a slug. */
  lemma ValidateIff(s: Supermarket)
    ensures Validate(s).isValid <==> !BlankName(s.name) && TruthyStr(s.websiteUrl) && s.slug != ""
  {
  }

  /** A name made only of punctuation has no slug: the entity is rejected
      for the slug alone. */
  lemma PunctuationNameHasNoSlug(inp: SupermarketInput)
    requires inp.name == Some("!!!") && inp.slug.None? && inp.websiteUrl == Some("https://x.cl")
    ensures New(inp).slug == ""
    ensures Validate(New(inp)).errors == [SlugRequired]
  {
    BangsHaveNoSlug();
    BangsNotBlank();
    OnlySlugMissing(New(inp));
  }

  lemma OnlySlugMissing(s: Supermarket)
    requires !BlankName(s.name) && TruthyStr(s.websiteUrl) && s.slug == ""
    ensures Validate(s).errors == [SlugRequired]
  {
  }

  lemma BangsHaveNoSlug()
    ensures Slugify(Some("!!!")) == ""
  {
    var t := "!!!";
    assert forall i | 0 <= i < |t| :: t[i] == '!';
    BangIsDropped();
    EmptySlug(t);
  }

  lemma BangIsDropped()
    ensures '!' as int < 0x80 && !IsAsciiUpper('!') && !IsSlugSourceChar('!')
  {
  }

  lemma BangsNotBlank()
    ensures !BlankName(Some("!!!"))
  {
    assert !IsSpace("!!!"[0]);
  }

  /** `fromDB(toDB(s))` gives back every field but the timestamps. */
  lemma RoundTrip(s: Supermarket)
    requires Consistent(s)
    ensures FromDB(Some(ToDB(s))) == Some(s.(createdAt := None, updatedAt := None))
  {
  }

  /** A stored slug survives the round trip even when it is not the slug of
      the name. */
  lemma StoredSlugKept(s: Supermarket)
    requires s.slug == "lider" && s.name == Some("Jumbo")
    ensures FromDB(Some(ToDB(s))).value.slug == "lider"
  {
  }
}

=== FILE: supermarketrepo.dfy ===
/**
  `SupermarketRepository` over an in-memory `supermarkets` table.

  Rows are ordered by name in code-point order; the database collation is
  not modelled. The new row's id and `CURRENT_TIMESTAMP` are parameters.
 */
module SupermarketRepository {
  import opened Js
  import opened Tables
  import opened Sql
  import opened SupermarketEntity
  import Repo = ProductRepository

  // ---------------------------------------------------------------------------
  // findAll / count
  // ---------------------------------------------------------------------------

  /** The value of a named column of a row; the builder only names these. */
  function Column(row: SupermarketRow, name: string): Value {
    if name == "is_active" then Repo.FlagValue(row.is_active) else SqlNull
  }

  function Lookup(row: SupermarketRow): string -> Value {
    name => Column(row, name)
  }

  /** `WHERE is_active = $1` unless `isActive` is `undefined`. */
  function ActiveQuery(isActive: Field<bool>): (q: Query)
    ensures WellNumbered(q) && !Paginated(q)
    ensures |q.params| == (if isActive.Undefined? then 0 else 1)
  {
    match isActive
    case Undefined => Start
    case Null => AndEquals(Start, "is_active", SqlNull)
    case Defined(b) => AndEquals(Start, "is_active", Flag(b))
  }

  /** What the filter means: a `null` filter compares with `NULL` and
      matches nothing. */
  predicate ActiveMatches(isActive: Field<bool>, row: SupermarketRow) {
    match isActive
    case Undefined => true
    case Null => false
    case Defined(b) => row.is_active == Some(b)
  }

  function ActiveMatcher(isActive: Field<bool>): SupermarketRow -> bool {
    row => ActiveMatches(isActive, row)
  }

  lemma ActiveQuerySelects(isActive: Field<bool>, row: SupermarketRow)
    ensures Selects(ActiveQuery(isActive), Lookup(row)) <==> ActiveMatches(isActive, row)
  {
    StartSelectsAll(Lookup(row));
    match isActive
    case Undefined =>
    case Null => AndEqualsSelects(Start, "is_active", SqlNull, Lookup(row));
    case Defined(b) => AndEqualsSelects(Start, "is_active", Flag(b), Lookup(row));
  }

  /** `ORDER BY name ASC`, `NULL` names last. */
  predicate ByName(a: SupermarketRow, b: SupermarketRow) {
    AscNullsLast(a.name, b.name, LexLe)
  }

  lemma ByNameOrders()
    ensures Total(ByName) && Transitive(ByName)
  {
    forall a: SupermarketRow, b: SupermarketRow ensures ByName(a, b) || ByName(b, a) {
      if a.name.Some? && b.name.Some? {
        LexTotal(a.name.value, b.name.value);
      }
    }
    forall a: SupermarketRow, b: SupermarketRow, c: SupermarketRow | ByName(a, b) && ByName(b, c)
      ensures ByName(a, c)
    {
      if a.name.Some? && b.name.Some? && c.name.Some? {
        LexTransitive(a.name.value, b.name.value, c.name.value);
      }
    }
  }

  /** The rows `findAll` returns, before `Supermarket.fromDB`. */
  function FindAllRows(table: seq<SupermarketRow>, isActive: Field<bool>): (rows: seq<SupermarketRow>)
    ensures SortedBy(rows, ByName)
  {
    var q := ActiveQuery(isActive);
    var selected := Where(table, row => Selects(q, Lookup(row)));
    ByNameOrders();
    SortBySorted(selected, ByName);
    SortBy(selected, ByName)
  }

  /** `findAll({ isActive })`. */
  function FindAll(table: seq<SupermarketRow>, isActive: Field<bool>): (r: seq<Supermarket>)
    ensures |r| == |FindAllRows(table, isActive)|
    ensures forall i :: 0 <= i < |r| ==> r[i] == FromRow(FindAllRows(table, isActive)[i])
  {
    Map(FindAllRows(table, isActive), FromRow)
  }

  /** `count({ isActive })`. */
  function Count(table: seq<SupermarketRow>, isActive: Field<bool>): (n: nat)
    ensures n <= |table|
    ensures n == |FindAllRows(table, isActive)|
  {
    var q := ActiveQuery(isActive);
    |Where(table, row => Selects(q, Lookup(row)))|
  }

  /** `findAll` returns the rows the filter means, sorted by name. */
  lemma FindAllMeaning(table: seq<SupermarketRow>, isActive: Field<bool>)
    ensures FindAllRows(table, isActive) == SortBy(Where(table, ActiveMatcher(isActive)), ByName)
    ensures forall row :: row in FindAllRows(table, isActive) <==> row in table && ActiveMatches(isActive, row)
  {
    var q := ActiveQuery(isActive);
    forall row | row in table
      ensures Selects(q, Lookup(row)) <==> ActiveMatcher(isActive)(row)
    {
      ActiveQuerySelects(isActive, row);
    }
    WhereSame(table, row => Selects(q, Lookup(row)), ActiveMatcher(isActive));
    var sorted := FindAllRows(table, isActive);
    assert forall row :: row in sorted <==> row in multiset(Where(table, ActiveMatcher(isActive)));
  }

  /** `count` is the number of rows `findAll` returns under the same filter. */
  lemma CountIsFindAllSize(table: seq<SupermarketRow>, isActive: Field<bool>)
    ensures Count(table, isActive) == |FindAll(table, isActive)|
  {
  }

  // ---------------------------------------------------------------------------
  // Single-row lookups
  // ---------------------------------------------------------------------------

  predicate HasId(row: SupermarketRow, id: Id) { row.id == Some(id) }

  /** `findById(id)`. */
  function FindById(table: seq<SupermarketRow>, id: Id): (r: Option<Supermarket>)
    ensures r.Some? <==> exists row :: row in table && HasId(row, id)
    ensures r.Some? ==> exists row :: row in table && HasId(row, id) && r.value == FromRow(row)
  {
    FromDB(First(table, row => HasId(row, id)))
  }

  predicate HasSlug(row: SupermarketRow, slug: string) { row.slug == Some(slug) }

  /** `findBySlug(slug)`. */
  function FindBySlug(table: seq<SupermarketRow>, slug: string): (r: Option<Supermarket>)
    ensures r.Some? <==> exists row :: row in table && HasSlug(row, slug)
    ensures r.Some? ==> exists row :: row in table && HasSlug(row, slug) && r.value == FromRow(row)
  {
    FromDB(First(table, row => HasSlug(row, slug)))
  }

  /** A supermarket found by a non-empty slug carries that slug. */
  lemma FindBySlugKeepsSlug(table: seq<SupermarketRow>, slug: string)
    requires slug != "" && FindBySlug(table, slug).Some?
    ensures FindBySlug(table, slug).value.slug == slug
  {
  }

  /** `chain_group = $1`: a `null` chain matches nothing. */
  predicate InChain(row: SupermarketRow, chainGroup: Option<string>) {
    chainGroup.Some? && row.chain_group == chainGroup
  }

  /** The rows `findByChainGroup` returns, before `Supermarket.fromDB`. */
  function ChainRows(table: seq<SupermarketRow>, chainGroup: Option<string>): (rows: seq<SupermarketRow>)
    ensures SortedBy(rows, ByName)
    ensures forall row :: row in rows <==> row in table && InChain(row, chainGroup)
    ensures |rows| == CountWhere(table, row => InChain(row, chainGroup))
  {
    var selected := Where(table, row => InChain(row, chainGroup));
    ByNameOrders();
    SortBySorted(selected, ByName);
    CountIsWhereLength(table, row => InChain(row, chainGroup));
    var sorted := SortBy(selected, ByName);
    assert forall row :: row in sorted <==> row in multiset(selected);
    sorted
  }

  /** `findByChainGroup(chainGroup)`. */
  function FindByChainGroup(table: seq<SupermarketRow>, chainGroup: Option<string>): (r: seq<Supermarket>)
    ensures |r| == |ChainRows(table, chainGroup)|
    ensures forall i :: 0 <= i < |r| ==> r[i] == FromRow(ChainRows(table, chainGroup)[i])
  {
    Map(ChainRows(table, chainGroup), FromRow)
  }

  // ---------------------------------------------------------------------------
  // create / update / delete
  // ---------------------------------------------------------------------------

  datatype CreateOutcome = Rejected(message: string) | Created(table: seq<SupermarketRow>, supermarket: Supermarket)

  /** The row the insert stores: `toDB()` with the id and timestamps the
      database assigns. */
  function InsertedRow(s: Supermarket, newId: Id, now: Timestamp): SupermarketRow {
    ToDB(s).(id := Some(newId), created_at := Some(now), updated_at := Some(now))
  }

  /** `create(supermarket)`: an invalid supermarket is rejected before the
      insert; otherwise one row is appended. */
  function Create(table: seq<SupermarketRow>, s: Supermarket, newId: Id, now: Timestamp): (o: CreateOutcome)
    ensures o.Rejected? <==> !Validate(s).isValid
    ensures o.Rejected? ==> o.message == "Invalid supermarket: " + Repo.Join(Validate(s).errors, ", ")
    ensures o.Created? ==> o.table == table + [InsertedRow(s, newId, now)]
    ensures o.Created? ==> o.supermarket == FromRow(InsertedRow(s, newId, now))
  {
    var v := Validate(s);
    if !v.isValid then Rejected("Invalid supermarket: " + Repo.Join(v.errors, ", "))
    else
      var row := InsertedRow(s, newId, now);
      Created(table + [row], FromRow(row))
  }

  /** The created supermarket is the one given, with the id and timestamps
      the database assigned. */
  lemma CreateReturnsSupermarket(table: seq<SupermarketRow>, s: Supermarket, newId: Id, now: Timestamp)
    requires Validate(s).isValid
    ensures Create(table, s, newId, now).supermarket ==
      s.(id := Some(newId), createdAt := Some(now), updatedAt := Some(now))
  {
  }

  /** The `SET` list of `update`: seven merged columns and `updated_at`. */
  function Merge(cur: SupermarketRow, data: SupermarketRow, now: Timestamp): SupermarketRow {
    cur.(
      name := Repo.Coalesce(data.name, cur.name),
      slug := Repo.Coalesce(data.slug, cur.slug),
      website_url := Repo.Coalesce(data.website_url, cur.website_url),
      logo_url := Repo.Coalesce(data.logo_url, cur.logo_url),
      chain_group := Repo.Coalesce(data.chain_group, cur.chain_group),
      location := Repo.Coalesce(data.location, cur.location),
      is_active := Repo.Coalesce(data.is_active, cur.is_active),
      updated_at := Some(now))
  }

  /** `update(id, updates)`: the table after the update and the updated
      supermarket, or `null` when no row has that id. */
  function Update(table: seq<SupermarketRow>, id: Id, data: SupermarketRow, now: Timestamp): (r: (seq<SupermarketRow>, Option<Supermarket>))
    ensures |r.0| == |table|
    ensures forall i :: 0 <= i < |table| ==> r.0[i] == (if HasId(table[i], id) then Merge(table[i], data, now) else table[i])
    ensures r.1.Some? <==> exists row :: row in table && HasId(row, id)
    ensures r.1 == FindById(r.0, id)
    ensures r.1.Some? ==> r.1.value.updatedAt == Some(now)
  {
    var selected := row => HasId(row, id);
    var after := UpdateWhere(table, selected, row => Merge(row, data, now));
    UpdateWhereFinds(table, selected, row => Merge(row, data, now));
    (after, FromDB(First(after, selected)))
  }

  /** The merge keeps the id and creation time, takes every given column,
      keeps every other one, and never clears a column. */
  lemma MergeProperties(cur: SupermarketRow, data: SupermarketRow, now: Timestamp)
    ensures var m := Merge(cur, data, now);
      m.id == cur.id && m.created_at == cur.created_at && m.updated_at == Some(now) &&
      Repo.MergedColumn(m.name, cur.name, data.name) &&
      Repo.MergedColumn(m.slug, cur.slug, data.slug) &&
      Repo.MergedColumn(m.website_url, cur.website_url, data.website_url) &&
      Repo.MergedColumn(m.logo_url, cur.logo_url, data.logo_url) &&
      Repo.MergedColumn(m.chain_group, cur.chain_group, data.chain_group) &&
      Repo.MergedColumn(m.location, cur.location, data.location) &&
      Repo.MergedColumn(m.is_active, cur.is_active, data.is_active) &&
      (cur.slug.Some? ==> m.slug.Some?) && (cur.is_active.Some? ==> m.is_active.Some?)
  {
  }

  /** A new name alone does not re-derive the slug: the stored slug is read
      back as it was. */
  lemma RenameKeepsSlug(cur: SupermarketRow, data: SupermarketRow, now: Timestamp)
    requires data.name.Some? && data.slug.None? && TruthyStr(cur.slug)
    ensures FromRow(Merge(cur, data, now)).name == data.name
    ensures FromRow(Merge(cur, data, now)).slug == cur.slug.value
  {
  }

  /** `delete(id)`: the table without the rows of that id, and whether any
      row was removed. */
  function Delete(table: seq<SupermarketRow>, id: Id): (r: (seq<SupermarketRow>, bool))
    ensures forall row :: row in r.0 <==> row in table && !HasId(row, id)
    ensures r.1 <==> FindById(table, id).Some?
    ensures FindById(r.0, id).None?
  {
    (Where(table, row => !HasId(row, id)), First(table, row => HasId(row, id)).Some?)
  }

  /** `delete` reports true exactly when the table shrank. */
  lemma DeleteShrinks(table: seq<SupermarketRow>, id: Id)
    ensures Delete(table, id).1 <==> |Delete(table, id).0| < |table|
  {
    CountIsWhereLength(table, row => !HasId(row, id));
    if Delete(table, id).1 {
      var row :| row in table && HasId(row, id);
      CountBelow(table, row => !HasId(row, id), row);
    } else {
      WhereAll(table, row => !HasId(row, id));
    }
  }
}

=== FILE: tables.dfy ===
/**
  In-memory tables: a table is a `seq` of rows, and the SQL clauses the
  repositories use become functions on sequences.

  - `Where` keeps the rows a condition accepts, in table order.
  - `SortBy` orders rows with a "may precede" relation (an insertion sort:
    SQL leaves the order of ties open, and this model picks one).
  - `Window` is `OFFSET offset LIMIT limit`.
  - `FlatMap` is the nested-loop join.
 */
module Tables {
  import opened Js

  // ---------------------------------------------------------------------------
  // WHERE
  // ---------------------------------------------------------------------------

  /** The rows of `s` that satisfy `p`, in their original order. */
  function Where<T(!new)>(s: seq<T>, p: T -> bool): (r: seq<T>)
    ensures |r| <= |s|
    ensures forall i :: 0 <= i < |r| ==> p(r[i])
    ensures forall x :: x in r <==> x in s && p(x)
  {
    if |s| == 0 then []
    else if p(s[0]) then [s[0]] + Where(s[1..], p)
    else Where(s[1..], p)
  }

  /** How many rows of `s` satisfy `p`. */
  function CountWhere<T(!new)>(s: seq<T>, p: T -> bool): (n: nat)
    ensures n <= |s|
  {
    if |s| == 0 then 0
    else (if p(s[0]) then 1 else 0) + CountWhere(s[1..], p)
  }

  /** The first row that satisfies `p`: a query read with `rows[0]`. */
  function First<T(!new)>(s: seq<T>, p: T -> bool): (r: Option<T>)
    ensures r.Some? <==> exists x :: x in s && p(x)
    ensures r.Some? ==> r.value in s && p(r.value)
  {
    if |s| == 0 then None
    else if p(s[0]) then Some(s[0])
    else First(s[1..], p)
  }

  /** `First` finds the earliest such row: every row before it fails `p`. */
  lemma {:induction false} FirstIsEarliest<T(!new)>(s: seq<T>, p: T -> bool)
    requires First(s, p).Some?
    ensures exists i :: 0 <= i < |s| && s[i] == First(s, p).value && forall j :: 0 <= j < i ==> !p(s[j])
  {
    if !p(s[0]) {
      FirstIsEarliest(s[1..], p);
      var i :| 0 <= i < |s[1..]| && s[1..][i] == First(s, p).value && forall j :: 0 <= j < i ==> !p(s[1..][j]);
      assert s[i + 1] == First(s, p).value;
      forall j | 0 <= j < i + 1 ensures !p(s[j]) {
        if j > 0 {
          assert s[j] == s[1..][j - 1];
        }
      }
    } else {
      assert s[0] == First(s, p).value;
    }
  }

  /** `COUNT(*) FILTER (WHERE p)` is the length of the filtered table. */
  lemma {:induction false} CountIsWhereLength<T(!new)>(s: seq<T>, p: T -> bool)
    ensures CountWhere(s, p) == |Where(s, p)|
  {
    if |s| > 0 {
      CountIsWhereLength(s[1..], p);
    }
  }

  /** Some row satisfies `p` exactly when the count is positive. */
  lemma CountPositive<T(!new)>(s: seq<T>, p: T -> bool)
    ensures CountWhere(s, p) > 0 <==> exists x :: x in s && p(x)
  {
    CountIsWhereLength(s, p);
    var w := Where(s, p);
    if |w| > 0 {
      assert w[0] in w;
    }
  }

  /** Counting row by row from the front: the count of a prefix grows by
      one exactly at the rows that satisfy `p`. */
  lemma {:induction false} CountWhereSnoc<T(!new)>(s: seq<T>, x: T, p: T -> bool)
    ensures CountWhere(s + [x], p) == CountWhere(s, p) + (if p(x) then 1 else 0)
  {
    if |s| > 0 {
      assert (s + [x])[1..] == s[1..] + [x];
      CountWhereSnoc(s[1..], x, p);
    }
  }

  /** Filtering a table with one more row at the end. */
  lemma {:induction false} WhereSnoc<T(!new)>(s: seq<T>, x: T, p: T -> bool)
    ensures Where(s + [x], p) == Where(s, p) + (if p(x) then [x] else [])
  {
    if |s| > 0 {
      assert (s + [x])[1..] == s[1..] + [x];
      WhereSnoc(s[1..], x, p);
    } else {
      assert s + [x] == [x];
    }
  }

  /** Filtering twice is filtering once by both conditions. */
  lemma {:induction false} WhereWhere<T(!new)>(s: seq<T>, p: T -> bool, q: T -> bool)
    ensures Where(Where(s, p), q) == Where(s, x => p(x) && q(x))
  {
    if |s| > 0 {
      WhereWhere(s[1..], p, q);
    }
  }

  /** Conditions that agree on every row select the same rows. */
  lemma {:induction false} WhereSame<T(!new)>(s: seq<T>, p: T -> bool, q: T -> bool)
    requires forall x :: x in s ==> (p(x) <==> q(x))
    ensures Where(s, p) == Where(s, q)
  {
    if |s| > 0 {
      WhereSame(s[1..], p, q);
    }
  }

  /** A condition no row satisfies selects nothing. */
  lemma {:induction false} WhereNone<T(!new)>(s: seq<T>, p: T -> bool)
    requires forall x :: x in s ==> !p(x)
    ensures Where(s, p) == []
  {
    if |s| > 0 {
      assert s[0] in s;
      assert forall x :: x in s[1..] ==> x in s;
      WhereNone(s[1..], p);
    }
  }

  /** A row that fails the condition makes the count smaller than the table. */
  lemma {:induction false} CountBelow<T(!new)>(s: seq<T>, p: T -> bool, x: T)
    requires x in s && !p(x)
    ensures CountWhere(s, p) < |s|
  {
    if s[0] != x {
      CountBelow(s[1..], p, x);
    }
  }

  /** When every row passes, filtering keeps the table. */
  lemma {:induction false} WhereAll<T(!new)>(s: seq<T>, p: T -> bool)
    requires forall x :: x in s ==> p(x)
    ensures Where(s, p) == s
  {
    if |s| > 0 {
      assert s[0] in s;
      assert forall x :: x in s[1..] ==> x in s;
      WhereAll(s[1..], p);
    }
  }

  // ---------------------------------------------------------------------------
  // SELECT list and joins
  // ---------------------------------------------------------------------------

  function Map<T, U>(s: seq<T>, f: T -> U): (r: seq<U>)
    ensures |r| == |s|
    ensures forall i :: 0 <= i < |s| ==> r[i] == f(s[i])
  {
    if |s| == 0 then [] else [f(s[0])] + Map(s[1..], f)
  }

  lemma {:induction false} InMap<T(!new), U>(s: seq<T>, f: T -> U, y: U)
    ensures y in Map(s, f) <==> exists x :: x in s && y == f(x)
  {
    var m := Map(s, f);
    if y in m {
      var i :| 0 <= i < |m| && m[i] == y;
      assert s[i] in s;
    }
    if exists x :: x in s && y == f(x) {
      var x :| x in s && y == f(x);
      var i :| 0 <= i < |s| && s[i] == x;
      assert m[i] == y;
    }
  }

  /** `UPDATE … SET … WHERE p`: the rows that satisfy `p` become `f` of
      themselves, in place. */
  function UpdateWhere<T>(s: seq<T>, p: T -> bool, f: T -> T): (r: seq<T>)
    ensures |r| == |s|
    ensures forall i :: 0 <= i < |s| ==> r[i] == (if p(s[i]) then f(s[i]) else s[i])
  {
    Map(s, x => if p(x) then f(x) else x)
  }

  /** When the update keeps the rows it touches selected, a row satisfies
      `p` after the update exactly when one did before. */
  lemma UpdateWhereFinds<T(!new)>(s: seq<T>, p: T -> bool, f: T -> T)
    requires forall x :: x in s && p(x) ==> p(f(x))
    ensures (exists x :: x in UpdateWhere(s, p, f) && p(x)) <==> (exists x :: x in s && p(x))
  {
    var r := UpdateWhere(s, p, f);
    if exists x :: x in s && p(x) {
      var x :| x in s && p(x);
      var i :| 0 <= i < |s| && s[i] == x;
      assert r[i] in r && p(r[i]);
    }
    if exists x :: x in r && p(x) {
      var x :| x in r && p(x);
      var i :| 0 <= i < |r| && r[i] == x;
      assert s[i] in s && p(s[i]);
    }
  }

  /** A row the update leaves satisfying `p` is the update of a row that
      satisfied `p`. */
  lemma UpdatedFrom<T(!new)>(s: seq<T>, p: T -> bool, f: T -> T)
    ensures forall y :: y in UpdateWhere(s, p, f) && p(y) ==> exists x :: x in s && p(x) && y == f(x)
  {
    var r := UpdateWhere(s, p, f);
    forall y | y in r && p(y) ensures exists x :: x in s && p(x) && y == f(x) {
      var i :| 0 <= i < |r| && r[i] == y;
      assert s[i] in s;
    }
  }

  /** The concatenation of `f(x)` over the rows `x` of `s`. */
  function FlatMap<T, U>(s: seq<T>, f: T -> seq<U>): (r: seq<U>)
  {
    if |s| == 0 then [] else f(s[0]) + FlatMap(s[1..], f)
  }

  lemma {:induction false} InFlatMap<T(!new), U>(s: seq<T>, f: T -> seq<U>, y: U)
    ensures y in FlatMap(s, f) <==> exists x :: x in s && y in f(x)
  {
    if |s| > 0 {
      InFlatMap(s[1..], f, y);
      assert forall x :: x in s <==> x == s[0] || x in s[1..];
    }
  }

  // ---------------------------------------------------------------------------
  // LIMIT / OFFSET
  // ---------------------------------------------------------------------------

  function Min(a: nat, b: nat): nat { if a <= b then a else b }

  /** `OFFSET offset LIMIT limit`: the rows at positions
      `offset .. offset + limit - 1` that exist. */
  function Window<T>(s: seq<T>, offset: nat, limit: nat): (r: seq<T>)
    ensures |r| <= limit
    ensures offset + limit <= |s| ==> |r| == limit
    ensures forall i :: 0 <= i < |r| ==> offset + i < |s| && r[i] == s[offset + i]
  {
    var start := Min(offset, |s|);
    var stop := Min(offset + limit, |s|);
    s[start..stop]
  }

  // ---------------------------------------------------------------------------
  // ORDER BY
  // ---------------------------------------------------------------------------

  /** Any two rows can be compared one way or the other. */
  ghost predicate Total<T(!new)>(le: (T, T) -> bool) {
    forall a: T, b: T :: le(a, b) || le(b, a)
  }

  ghost predicate Transitive<T(!new)>(le: (T, T) -> bool) {
    forall a: T, b: T, c: T :: le(a, b) && le(b, c) ==> le(a, c)
  }

  /** Each row may precede the next. */
  predicate SortedBy<T>(s: seq<T>, le: (T, T) -> bool) {
    forall i :: 0 <= i < |s| - 1 ==> le(s[i], s[i + 1])
  }

  /** Inserts `x` in front of the first row it may precede. */
  function Insert<T>(x: T, s: seq<T>, le: (T, T) -> bool): (r: seq<T>)
    ensures |r| == |s| + 1
    ensures multiset(r) == multiset(s) + multiset{x}
    ensures |r| > 0 && (r[0] == x || (|s| > 0 && r[0] == s[0]))
  {
    if |s| == 0 || le(x, s[0]) then [x] + s
    else
      var rest := Insert(x, s[1..], le);
      assert s == [s[0]] + s[1..];
      [s[0]] + rest
  }

  /** `ORDER BY`: a permutation of the rows; sorted when `le` is total. */
  function SortBy<T>(s: seq<T>, le: (T, T) -> bool): (r: seq<T>)
    ensures |r| == |s|
    ensures multiset(r) == multiset(s)
  {
    if |s| == 0 then []
    else
      assert s == [s[0]] + s[1..];
      Insert(s[0], SortBy(s[1..], le), le)
  }

  lemma {:induction false} InsertSorted<T(!new)>(x: T, s: seq<T>, le: (T, T) -> bool)
    requires Total(le)
    requires SortedBy(s, le)
    ensures SortedBy(Insert(x, s, le), le)
  {
    if |s| > 0 && !le(x, s[0]) {
      assert le(s[0], x);
      var rest := Insert(x, s[1..], le);
      assert SortedBy(s[1..], le) by {
        forall i | 0 <= i < |s[1..]| - 1 ensures le(s[1..][i], s[1..][i + 1]) {
          assert s[1..][i] == s[i + 1] && s[1..][i + 1] == s[i + 2];
        }
      }
      InsertSorted(x, s[1..], le);
      var r := [s[0]] + rest;
      assert r == Insert(x, s, le);
      forall i | 0 <= i < |r| - 1 ensures le(r[i], r[i + 1]) {
        if i == 0 {
          assert r[1] == rest[0];
          if rest[0] != x {
            assert rest[0] == s[1];
          }
        } else {
          assert r[i] == rest[i - 1] && r[i + 1] == rest[i];
        }
      }
    }
  }

  /** With a total relation, `SortBy` sorts. */
  lemma {:induction false} SortBySorted<T(!new)>(s: seq<T>, le: (T, T) -> bool)
    requires Total(le)
    ensures SortedBy(SortBy(s, le), le)
  {
    if |s| > 0 {
      SortBySorted(s[1..], le);
      InsertSorted(s[0], SortBy(s[1..], le), le);
    }
  }

  /** With a transitive relation, a sorted sequence is ordered pairwise. */
  lemma {:induction false} SortedPairwise<T(!new)>(s: seq<T>, le: (T, T) -> bool, i: nat, j: nat)
    requires Transitive(le)
    requires SortedBy(s, le)
    requires i < j < |s|
    ensures le(s[i], s[j])
    decreases j - i
  {
    if j > i + 1 {
      SortedPairwise(s, le, i + 1, j);
    }
  }

  lemma SortedPrefix<T>(s: seq<T>, le: (T, T) -> bool, n: nat)
    requires SortedBy(s, le)
    requires n <= |s|
    ensures SortedBy(s[..n], le)
  {
    forall i | 0 <= i < n - 1 ensures le(s[..n][i], s[..n][i + 1]) {
      assert s[..n][i] == s[i] && s[..n][i + 1] == s[i + 1];
    }
  }

  lemma SortedWindow<T>(s: seq<T>, le: (T, T) -> bool, offset: nat, limit: nat)
    requires SortedBy(s, le)
    ensures SortedBy(Window(s, offset, limit), le)
  {
    var w := Window(s, offset, limit);
    forall i | 0 <= i < |w| - 1 ensures le(w[i], w[i + 1]) {
      assert w[i] == s[offset + i] && w[i + 1] == s[offset + i + 1];
    }
  }

  /** Every row of a window is a row of the sequence. */
  lemma WindowFrom<T>(s: seq<T>, offset: nat, limit: nat)
    ensures forall x :: x in Window(s, offset, limit) ==> x in multiset(s)
  {
    var w := Window(s, offset, limit);
    forall x | x in w ensures x in multiset(s) {
      var i :| 0 <= i < |w| && w[i] == x;
      assert s[offset + i] == x;
    }
  }

  /** A first page as long as the sequence is the whole sequence. */
  lemma SmallWindowIsAll<T>(s: seq<T>, limit: nat)
    ensures |s| <= limit ==> Window(s, 0, limit) == s
  {
  }

  /** When all rows fit on the first page, sorting and paging drop none. */
  lemma SmallPageKeepsAll<T(!new)>(s: seq<T>, le: (T, T) -> bool, limit: nat)
    ensures |s| <= limit ==> forall x :: x in s ==> x in Window(SortBy(s, le), 0, limit)
  {
    if |s| <= limit {
      var sorted := SortBy(s, le);
      assert Window(sorted, 0, limit) == sorted;
      forall x | x in s ensures x in sorted {
        assert x in multiset(s);
      }
    }
  }

  /** The rows a sorted prefix leaves out come no earlier than any row it
      keeps: a `LIMIT n` after `ORDER BY` keeps a top `n`. */
  lemma TopPrefix<T(!new)>(s: seq<T>, le: (T, T) -> bool, n: nat, x: T)
    requires Transitive(le)
    requires SortedBy(s, le)
    requires n <= |s|
    requires x in s && x !in s[..n]
    ensures forall y :: y in s[..n] ==> le(y, x)
  {
    var k :| 0 <= k < |s| && s[k] == x;
    forall y | y in s[..n] ensures le(y, x) {
      var i :| 0 <= i < n && s[..n][i] == y;
      SortedPairwise(s, le, i, k);
    }
  }

  // ---------------------------------------------------------------------------
  // Sort keys
  // ---------------------------------------------------------------------------

  /** `ORDER BY key ASC`: PostgreSQL puts `NULL`s last. */
  predicate AscNullsLast<K>(a: Option<K>, b: Option<K>, le: (K, K) -> bool) {
    b.None? || (a.Some? && le(a.value, b.value))
  }

  /** `ORDER BY key DESC`: PostgreSQL puts `NULL`s first. */
  predicate DescNullsFirst<K>(a: Option<K>, b: Option<K>, le: (K, K) -> bool) {
    a.None? || (b.Some? && le(b.value, a.value))
  }

  predicate IntLe(a: int, b: int) { a <= b }

  predicate RealLe(a: real, b: real) { a <= b }

  /** Code-point lexicographic order on text. */
  predicate LexLe(a: string, b: string)
    decreases |a|
  {
    |a| == 0 || (|b| > 0 && (a[0] < b[0] || (a[0] == b[0] && LexLe(a[1..], b[1..]))))
  }

  lemma {:induction false} LexTotal(a: string, b: string)
    ensures LexLe(a, b) || LexLe(b, a)
    decreases |a|
  {
    if |a| > 0 && |b| > 0 && a[0] == b[0] {
      LexTotal(a[1..], b[1..]);
    }
  }

  lemma {:induction false} LexTransitive(a: string, b: string, c: string)
    requires LexLe(a, b) && LexLe(b, c)
    ensures LexLe(a, c)
    decreases |a|
  {
    if |a| > 0 && a[0] == b[0] && b[0] == c[0] {
      LexTransitive(a[1..], b[1..], c[1..]);
    }
  }

  // ---------------------------------------------------------------------------
  // Aggregates
  // ---------------------------------------------------------------------------

  /** The non-`NULL` values of a column, in order: what `AVG`, `MIN` and
      `MAX` aggregate. */
  function Present(s: seq<Option<real>>): (r: seq<real>)
    ensures |r| <= |s|
    ensures forall x :: x in r <==> Some(x) in s
  {
    if |s| == 0 then []
    else if s[0].Some? then [s[0].value] + Present(s[1..])
    else Present(s[1..])
  }

  function Sum(xs: seq<real>): real {
    if |xs| == 0 then 0.0 else xs[0] + Sum(xs[1..])
  }

  /** `MIN`: the least value, itself one of the values. */
  function MinOf(xs: seq<real>): (m: real)
    requires |xs| > 0
    ensures m in xs && forall x :: x in xs ==> m <= x
  {
    if |xs| == 1 then xs[0]
    else
      var rest := MinOf(xs[1..]);
      assert forall x :: x in xs ==> x == xs[0] || x in xs[1..];
      if xs[0] <= rest then xs[0] else rest
  }

  /** `MAX`: the greatest value, itself one of the values. */
  function MaxOf(xs: seq<real>): (m: real)
    requires |xs| > 0
    ensures m in xs && forall x :: x in xs ==> x <= m
  {
    if |xs| == 1 then xs[0]
    else
      var rest := MaxOf(xs[1..]);
      assert forall x :: x in xs ==> x == xs[0] || x in xs[1..];
      if xs[0] >= rest then xs[0] else rest
  }

  /** An aggregate over no values is `NULL`. */
  function AvgOf(xs: seq<real>): (r: Option<real>)
    ensures r.Some? <==> |xs| > 0
  {
    if |xs| == 0 then None else Some(Sum(xs) / |xs| as real)
  }

  function MinOrNull(xs: seq<real>): (r: Option<real>)
    ensures r.Some? <==> |xs| > 0
    ensures r.Some? ==> r.value == MinOf(xs)
  {
    if |xs| == 0 then None else Some(MinOf(xs))
  }

  function MaxOrNull(xs: seq<real>): (r: Option<real>)
    ensures r.Some? <==> |xs| > 0
    ensures r.Some? ==> r.value == MaxOf(xs)
  {
    if |xs| == 0 then None else Some(MaxOf(xs))
  }

  /** Values bounded by `lo` and `hi` sum to between `n·lo` and `n·hi`. */
  lemma {:induction false} SumBounds(xs: seq<real>, lo: real, hi: real)
    requires forall x :: x in xs ==> lo <= x <= hi
    ensures |xs| as real * lo <= Sum(xs) <= |xs| as real * hi
  {
    if |xs| > 0 {
      assert xs[0] in xs;
      assert forall x :: x in xs[1..] ==> x in xs;
      SumBounds(xs[1..], lo, hi);
      var m := |xs[1..]| as real;
      assert |xs| as real == m + 1.0;
      ScaleStep(m, lo);
      ScaleStep(m, hi);
    }
  }

  lemma ScaleStep(m: real, c: real)
    ensures (m + 1.0) * c == c + m * c
  {
  }

  /** The average lies between the least and the greatest value. */
  lemma AverageBetween(xs: seq<real>)
    ensures |xs| > 0 ==> MinOf(xs) <= AvgOf(xs).value <= MaxOf(xs)
  {
    if |xs| > 0 {
      MeanBounds(xs, MinOf(xs), MaxOf(xs));
    }
  }

  lemma MeanBounds(xs: seq<real>, lo: real, hi: real)
    requires |xs| > 0
    requires forall x :: x in xs ==> lo <= x <= hi
    ensures lo <= Sum(xs) / |xs| as real <= hi
  {
    SumBounds(xs, lo, hi);
    DivideBounds(Sum(xs), |xs| as real, lo, hi);
  }

  lemma DivideBounds(total: real, n: real, lo: real, hi: real)
    requires n > 0.0 && n * lo <= total <= n * hi
    ensures lo <= total / n <= hi
  {
    var a := total / n;
    assert total == n * a;
  }
}

=== FILE: text.dfy ===
/**
  The text canonicalisers of the scrapers' utility module: the product-name
  normaliser, `cleanText`, `slugify`, and the accent folding shared with the
  entity classes and the product search.

  Unicode case mapping and canonical decomposition (NFD) are modelled by an
  explicit table that is exact on ASCII and Latin-1 (U+0000..U+00FF); every
  other code point is treated as caseless and non-decomposing.
 */
module Text {
  import opened Js

  // ---------------------------------------------------------------------------
  // Character classes
  // ---------------------------------------------------------------------------

  /** The regular-expression class `\s` (and the set `trim()` removes):
      ECMAScript WhiteSpace and LineTerminator code points. */
  predicate IsSpace(c: char) {
    var k := c as int;
    k == 0x20 || (0x09 <= k <= 0x0D) || k == 0xA0 || k == 0x1680
    || (0x2000 <= k <= 0x200A) || k == 0x2028 || k == 0x2029 || k == 0x202F
    || k == 0x205F || k == 0x3000 || k == 0xFEFF
  }

  predicate IsAsciiLower(c: char) { 'a' <= c <= 'z' }

  predicate IsAsciiUpper(c: char) { 'A' <= c <= 'Z' }

  predicate IsDigit(c: char) { '0' <= c <= '9' }

  predicate IsHyphen(c: char) { c == '-' }

  /** Combining diacritical marks, the range `[̀-ͯ]`. */
  predicate IsCombiningMark(c: char) { 0x300 <= c as int <= 0x36F }

  /** What the name normaliser keeps: `[a-z0-9\s]`. */
  predicate IsNameChar(c: char) { IsAsciiLower(c) || IsDigit(c) || IsSpace(c) }

  /** What `slugify` keeps: `[a-z0-9\s-]`. */
  predicate IsSlugSourceChar(c: char) { IsNameChar(c) || IsHyphen(c) }

  /** The alphabet of a normalised name: `a-z`, `0-9` and the plain space. */
  predicate IsNormalChar(c: char) { IsAsciiLower(c) || IsDigit(c) || c == ' ' }

  /** The alphabet of a slug: `a-z`, `0-9` and the hyphen. */
  predicate IsSlugChar(c: char) { IsAsciiLower(c) || IsDigit(c) || IsHyphen(c) }

  /** A character that is not whitespace, or is the plain space. */
  predicate IsPlainSpace(c: char) { IsSpace(c) ==> c == ' ' }

  predicate AllChars(s: string, p: char -> bool) {
    forall i :: 0 <= i < |s| ==> p(s[i])
  }

  /** No two neighbouring characters both belong to `p`. */
  predicate NoAdjacent(s: string, p: char -> bool) {
    forall i :: 0 <= i < |s| - 1 ==> !(p(s[i]) && p(s[i + 1]))
  }

  /** No leading and no trailing character of class `p`. */
  predicate NoEdge(s: string, p: char -> bool) {
    |s| > 0 ==> !p(s[0]) && !p(s[|s| - 1])
  }

  // ---------------------------------------------------------------------------
  // Case mapping and decomposition
  // ---------------------------------------------------------------------------

  /** `toLowerCase` on one code point: ASCII and the Latin-1 capitals
      U+00C0..U+00DE (except U+00D7, the multiplication sign) move down by 0x20. */
  function LowerChar(c: char): (r: char)
    ensures !IsAsciiUpper(r)
    ensures !IsAsciiUpper(c) && !(0xC0 <= c as int <= 0xDE) ==> r == c
  {
    var k := c as int;
    if 'A' <= c <= 'Z' || (0xC0 <= k <= 0xDE && k != 0xD7) then (k + 0x20) as char else c
  }

  function Lower(s: string): (r: string)
    ensures |r| == |s|
    ensures forall i :: 0 <= i < |s| ==> r[i] == LowerChar(s[i])
  {
    seq(|s|, i requires 0 <= i < |s| => LowerChar(s[i]))
  }

  /** The canonical decomposition of one Latin-1 code point: a base letter
      followed by one combining mark, or the code point itself. */
  function DecomposeChar(c: char): (r: string)
    ensures 1 <= |r| <= 2
    ensures |r| == 2 ==> IsCombiningMark(r[1]) && (IsAsciiLower(r[0]) || IsAsciiUpper(r[0]))
    ensures !(0xC0 <= c as int <= 0xFF) ==> r == [c]
  {
    var k := c as int;
    if !(0xC0 <= k <= 0xFF) then [c]
    else
      var lower := k >= 0xE0;
      var idx := if lower then k - 0xE0 else k - 0xC0;
      var shift := if lower then 0x20 else 0;
      var grave := 0x300 as char;
      var acute := 0x301 as char;
      var circumflex := 0x302 as char;
      var tilde := 0x303 as char;
      var diaeresis := 0x308 as char;
      var ring := 0x30A as char;
      var cedilla := 0x327 as char;
      if idx <= 5 then
        [('A' as int + shift) as char, [grave, acute, circumflex, tilde, diaeresis, ring][idx]]
      else if idx == 7 then [('C' as int + shift) as char, cedilla]
      else if 8 <= idx <= 11 then [('E' as int + shift) as char, [grave, acute, circumflex, diaeresis][idx - 8]]
      else if 12 <= idx <= 15 then [('I' as int + shift) as char, [grave, acute, circumflex, diaeresis][idx - 12]]
      else if idx == 17 then [('N' as int + shift) as char, tilde]
      else if 18 <= idx <= 22 then [('O' as int + shift) as char, [grave, acute, circumflex, tilde, diaeresis][idx - 18]]
      else if 25 <= idx <= 28 then [('U' as int + shift) as char, [grave, acute, circumflex, diaeresis][idx - 25]]
      else if idx == 29 then [('Y' as int + shift) as char, acute]
      else if idx == 31 && lower then ['y', diaeresis]
      else [c]
  }

  /** `normalize('NFD')` on the modelled alphabet. */
  function Decompose(s: string): (r: string)
    ensures |r| >= |s|
  {
    if |s| == 0 then "" else DecomposeChar(s[0]) + Decompose(s[1..])
  }

  /** Keeps the characters that satisfy `p`, in order (`replace(/[^…]/g, '')`). */
  function Filter(s: string, p: char -> bool): (r: string)
    ensures |r| <= |s|
    ensures AllChars(r, p)
    ensures forall i :: 0 <= i < |r| ==> r[i] in s
  {
    if |s| == 0 then ""
    else if p(s[0]) then [s[0]] + Filter(s[1..], p)
    else Filter(s[1..], p)
  }

  predicate IsNotMark(c: char) { !IsCombiningMark(c) }

  /** Lower-cases, decomposes and drops the combining marks: the first three
      steps shared by the normaliser, `slugify` and the product search. */
  function Unaccent(s: string): (r: string)
    ensures AllChars(r, IsNotMark)
  {
    Filter(Decompose(Lower(s)), IsNotMark)
  }

  // ---------------------------------------------------------------------------
  // Runs, trimming
  // ---------------------------------------------------------------------------

  /** Drops the longest prefix whose characters satisfy `p`. */
  function DropWhile(s: string, p: char -> bool): (r: string)
    ensures |r| <= |s| && r == s[|s| - |r|..]
    ensures forall i :: 0 <= i < |s| - |r| ==> p(s[i])
    ensures |r| > 0 ==> !p(r[0])
  {
    if |s| > 0 && p(s[0]) then DropWhile(s[1..], p) else s
  }

  /** Drops the longest suffix whose characters satisfy `p`. */
  function DropWhileEnd(s: string, p: char -> bool): (r: string)
    ensures |r| <= |s| && r == s[..|r|]
    ensures forall i :: |r| <= i < |s| ==> p(s[i])
    ensures |r| > 0 ==> !p(r[|r| - 1])
  {
    if |s| > 0 && p(s[|s| - 1]) then DropWhileEnd(s[..|s| - 1], p) else s
  }

  /** Where `trim()` starts its result. */
  function TrimStart(s: string): (k: nat)
    ensures k <= |s|
  {
    |s| - |DropWhile(s, IsSpace)|
  }

  /** `String.prototype.trim`. */
  function Trim(s: string): (r: string)
    ensures TrimStart(s) + |r| <= |s| && r == s[TrimStart(s)..TrimStart(s) + |r|]
    ensures NoEdge(r, IsSpace)
    ensures r == "" <==> AllChars(s, IsSpace)
  {
    var d := DropWhile(s, IsSpace);
    var r := DropWhileEnd(d, IsSpace);
    assert |r| > 0 ==> r[0] == d[0];
    r
  }

  /** Replaces every maximal run of characters satisfying `p` by the single
      character `rep` (`replace(/p+/g, rep)`). */
  function Squash(s: string, p: char -> bool, rep: char): (r: string)
    ensures |r| <= |s|
    ensures |r| == 0 <==> |s| == 0
    ensures |s| > 0 ==> r[0] == (if p(s[0]) then rep else s[0])
    ensures |s| > 0 ==> r[|r| - 1] == (if p(s[|s| - 1]) then rep else s[|s| - 1])
    ensures NoAdjacent(r, p)
    decreases |s|
  {
    if |s| == 0 then ""
    else if p(s[0]) then
      var t := Squash(DropWhile(s[1..], p), p, rep);
      RunStep(s, p, rep, t);
      [rep] + t
    else
      var t := Squash(s[1..], p, rep);
      PlainStep(s, p, rep, t);
      [s[0]] + t
  }

  /** The shape `Squash` promises: no longer, empty only when the input is,
      the first and last characters mapped, and no adjacent `p` pair. */
  predicate Squashed(s: string, p: char -> bool, rep: char, r: string) {
    |r| <= |s| && (|r| == 0 <==> |s| == 0) &&
    (|s| > 0 ==> r[0] == (if p(s[0]) then rep else s[0])) &&
    (|s| > 0 ==> r[|r| - 1] == (if p(s[|s| - 1]) then rep else s[|s| - 1])) &&
    NoAdjacent(r, p)
  }

  /** A leading run of `p` squashed to `rep` in front of the squashed rest. */
  lemma RunStep(s: string, p: char -> bool, rep: char, t: string)
    requires |s| > 0 && p(s[0])
    requires Squashed(DropWhile(s[1..], p), p, rep, t)
    ensures Squashed(s, p, rep, [rep] + t)
  {
    DropWhileLast(s, p);
    ConsNoAdjacent(rep, t, p);
  }

  /** A character outside `p` kept in front of the squashed rest. */
  lemma PlainStep(s: string, p: char -> bool, rep: char, t: string)
    requires |s| > 0 && !p(s[0])
    requires Squashed(s[1..], p, rep, t)
    ensures Squashed(s, p, rep, [s[0]] + t)
  {
    ConsNoAdjacent(s[0], t, p);
  }

  /** What is left after a leading `p` and the run of `p` after it ends as
      `s` does; when nothing is left, `s` ended inside the run. */
  lemma DropWhileLast(s: string, p: char -> bool)
    requires |s| > 0 && p(s[0])
    ensures var d := DropWhile(s[1..], p);
      (|d| == 0 ==> p(s[|s| - 1])) && (|d| > 0 ==> d[|d| - 1] == s[|s| - 1])
  {
    var d := DropWhile(s[1..], p);
    if |d| == 0 && |s| > 1 {
      assert p(s[1..][|s| - 2]);
    }
  }

  /** Putting a character in front keeps adjacent pairs out when it does
      not start one. */
  lemma ConsNoAdjacent(c: char, t: string, p: char -> bool)
    requires NoAdjacent(t, p)
    requires |t| > 0 && p(c) ==> !p(t[0])
    ensures NoAdjacent([c] + t, p)
  {
    var r := [c] + t;
    forall i | 0 <= i < |r| - 1 ensures !(p(r[i]) && p(r[i + 1])) {
      if i > 0 {
        assert r[i] == t[i - 1] && r[i + 1] == t[i];
      }
    }
  }

  /** Every character `Squash` emits is `rep` or a character of the input
      outside `p`; so any class containing both is kept. */
  lemma {:induction false} SquashChars(s: string, p: char -> bool, rep: char, q: char -> bool)
    requires forall i :: 0 <= i < |s| ==> !p(s[i]) ==> q(s[i])
    requires q(rep)
    ensures AllChars(Squash(s, p, rep), q)
    decreases |s|
  {
    if |s| > 0 {
      if p(s[0]) {
        var d := DropWhile(s[1..], p);
        assert d == s[|s| - |d|..];
        SuffixChars(s, d, p, q);
        SquashChars(d, p, rep, q);
        SquashRunHead(s, p, rep);
        ConsAllChars(rep, Squash(d, p, rep), q);
      } else {
        SuffixChars(s, s[1..], p, q);
        SquashChars(s[1..], p, rep, q);
        SquashPlainHead(s, p, rep);
        ConsAllChars(s[0], Squash(s[1..], p, rep), q);
      }
    }
  }

  /** `trim()` returns an infix, so it keeps every per-character property
      and the absence of adjacent pairs. */
  lemma TrimKeeps(s: string, p: char -> bool, q: char -> bool)
    requires AllChars(s, p)
    requires NoAdjacent(s, q)
    ensures AllChars(Trim(s), p)
    ensures NoAdjacent(Trim(s), q)
  {
    TrimIsSlice(s);
    InfixKeeps(s, TrimStart(s), Trim(s), p, q);
  }

  lemma TrimIsSlice(s: string)
    ensures TrimStart(s) + |Trim(s)| <= |s| && Trim(s) == s[TrimStart(s)..TrimStart(s) + |Trim(s)|]
  {
  }

  /** A slice keeps every per-character property and the absence of
      adjacent pairs. */
  lemma InfixKeeps(s: string, a: nat, r: string, p: char -> bool, q: char -> bool)
    requires a + |r| <= |s| && r == s[a..a + |r|]
    requires AllChars(s, p)
    requires NoAdjacent(s, q)
    ensures AllChars(r, p)
    ensures NoAdjacent(r, q)
  {
    assert forall i :: 0 <= i < |r| ==> r[i] == s[a + i];
  }

  // ---------------------------------------------------------------------------
  // The canonicalisers
  // ---------------------------------------------------------------------------

  /** The shape of every normalised name: only `a-z`, `0-9` and single
      spaces, never at either end. */
  predicate IsNormalized(s: string) {
    AllChars(s, IsNormalChar) && NoAdjacent(s, IsSpace) && NoEdge(s, IsSpace)
  }

  /** The shape of every slug: only `a-z`, `0-9` and hyphens, never two
      hyphens in a row. */
  predicate IsSlug(s: string) {
    AllChars(s, IsSlugChar) && NoAdjacent(s, IsHyphen)
  }

  /** The shape of every `cleanText` result: whitespace only as single plain
      spaces, none at either end. */
  predicate IsClean(s: string) {
    AllChars(s, IsPlainSpace) && NoAdjacent(s, IsSpace) && NoEdge(s, IsSpace)
  }

  /** `normalizeProductName` (scrapers) and `Product.normalizeName` (backend). */
  function NormalizeProductName(name: Option<string>): (r: string)
    ensures !TruthyStr(name) ==> r == ""
    ensures IsNormalized(r)
  {
    if !TruthyStr(name) then ""
    else
      var kept := Filter(Unaccent(name.value), IsNameChar);
      var squashed := Squash(kept, IsSpace, ' ');
      SquashChars(kept, IsSpace, ' ', IsNormalChar);
      TrimKeeps(squashed, IsNormalChar, IsSpace);
      Trim(squashed)
  }

  /** `cleanText`: trim, then every whitespace run becomes one space. */
  function CleanText(text: Option<string>): (r: string)
    ensures !TruthyStr(text) ==> r == ""
    ensures IsClean(r)
  {
    if !TruthyStr(text) then ""
    else
      var t := Trim(text.value);
      SquashChars(t, IsSpace, ' ', IsPlainSpace);
      Squash(t, IsSpace, ' ')
  }

  /** `slugify` (scrapers) and `Supermarket.generateSlug` (backend). The final
      `trim()` never has anything to remove, so a hyphen produced from a
      leading or trailing blank stays. */
  function Slugify(text: Option<string>): (r: string)
    ensures !TruthyStr(text) ==> r == ""
    ensures IsSlug(r)
  {
    if !TruthyStr(text) then ""
    else
      var hyphened := Hyphenated(text.value);
      var single := Squash(hyphened, IsHyphen, '-');
      SquashChars(hyphened, IsHyphen, '-', IsSlugChar);
      SlugCharsUntrimmed(single);
      Trim(single)
  }

  /** The first steps of `slugify`: accents folded, everything but
      `[a-z0-9\s-]` dropped, each blank run made one hyphen. */
  function Hyphenated(s: string): (r: string)
    ensures AllChars(r, IsSlugChar)
  {
    var kept := Filter(Unaccent(s), IsSlugSourceChar);
    SquashChars(kept, IsSpace, '-', IsSlugChar);
    Squash(kept, IsSpace, '-')
  }

  /** Slug characters are not blanks, so `trim()` finds nothing to remove. */
  lemma SlugCharsUntrimmed(s: string)
    requires AllChars(s, IsSlugChar)
    ensures Trim(s) == s
  {
    if |s| > 0 {
      assert IsSlugChar(s[0]) && IsSlugChar(s[|s| - 1]);
    }
    TrimFixed(s);
  }

  // ---------------------------------------------------------------------------
  // Lemmas
  // ---------------------------------------------------------------------------

  lemma {:induction false} FilterFixed(s: string, p: char -> bool)
    requires AllChars(s, p)
    ensures Filter(s, p) == s
  {
    if |s| > 0 {
      FilterFixed(s[1..], p);
    }
  }

  lemma {:induction false} DecomposeFixed(s: string)
    requires forall i :: 0 <= i < |s| ==> s[i] as int < 0xC0
    ensures Decompose(s) == s
  {
    if |s| > 0 {
      DecomposeFixed(s[1..]);
    }
  }

  lemma TrimFixed(s: string)
    requires NoEdge(s, IsSpace)
    ensures Trim(s) == s
  {
  }

  /** A string already made of single `rep` characters between non-`p`
      characters is a fixed point of `Squash`. */
  lemma {:induction false} SquashFixed(s: string, p: char -> bool, rep: char)
    requires forall i :: 0 <= i < |s| ==> p(s[i]) ==> s[i] == rep
    requires NoAdjacent(s, p)
    ensures Squash(s, p, rep) == s
  {
    if |s| > 0 {
      var t := s[1..];
      SquashedTail(s, p, rep);
      SquashFixed(t, p, rep);
      if p(s[0]) {
        SquashStep(s, p, rep);
      } else {
        SquashPlainHead(s, p, rep);
      }
      assert s == [s[0]] + t;
    }
  }

  /** The tail of a fixed point of `Squash` is one too. */
  lemma SquashedTail(s: string, p: char -> bool, rep: char)
    requires |s| > 0
    requires forall i :: 0 <= i < |s| ==> p(s[i]) ==> s[i] == rep
    requires NoAdjacent(s, p)
    ensures forall i :: 0 <= i < |s[1..]| ==> p(s[1..][i]) ==> s[1..][i] == rep
    ensures NoAdjacent(s[1..], p)
    ensures p(s[0]) ==> s[0] == rep && (|s[1..]| == 0 || !p(s[1..][0]))
  {
    var t := s[1..];
    assert forall i :: 0 <= i < |t| ==> t[i] == s[i + 1];
  }

  /** A suffix keeps the property that characters outside `p` are in `q`. */
  lemma SuffixChars(s: string, d: string, p: char -> bool, q: char -> bool)
    requires |d| <= |s| && d == s[|s| - |d|..]
    requires forall i :: 0 <= i < |s| ==> !p(s[i]) ==> q(s[i])
    ensures forall i :: 0 <= i < |d| ==> !p(d[i]) ==> q(d[i])
  {
    assert forall i :: 0 <= i < |d| ==> d[i] == s[|s| - |d| + i];
  }

  lemma ConsAllChars(c: char, t: string, q: char -> bool)
    requires q(c) && AllChars(t, q)
    ensures AllChars([c] + t, q)
  {
    assert forall i :: 0 < i < |t| + 1 ==> ([c] + t)[i] == t[i - 1];
  }

  /** A leading run of `p` becomes one `rep`. */
  lemma SquashRunHead(s: string, p: char -> bool, rep: char)
    requires |s| > 0 && p(s[0])
    ensures Squash(s, p, rep) == [rep] + Squash(DropWhile(s[1..], p), p, rep)
  {
  }

  /** A leading character outside `p` is kept. */
  lemma SquashPlainHead(s: string, p: char -> bool, rep: char)
    requires |s| > 0 && !p(s[0])
    ensures Squash(s, p, rep) == [s[0]] + Squash(s[1..], p, rep)
  {
  }

  /** A single leading `p` character is replaced by `rep`. */
  lemma SquashStep(s: string, p: char -> bool, rep: char)
    requires |s| > 0 && p(s[0])
    requires |s[1..]| == 0 || !p(s[1..][0])
    ensures Squash(s, p, rep) == [rep] + Squash(s[1..], p, rep)
  {
    assert DropWhile(s[1..], p) == s[1..];
  }

  /** Lower-casing, decomposition and mark removal leave plain lower-case
      ASCII unchanged. */
  lemma UnaccentFixed(s: string)
    requires forall i :: 0 <= i < |s| ==> s[i] as int < 0x80 && !IsAsciiUpper(s[i])
    ensures Unaccent(s) == s
  {
    assert Lower(s) == s;
    DecomposeFixed(s);
    FilterFixed(s, IsNotMark);
  }

  /** A normalised name is its own normal form. */
  lemma NormalizedIsFixedPoint(t: string)
    requires IsNormalized(t)
    ensures NormalizeProductName(Some(t)) == t
  {
    if t != "" {
      NameStagesFixed(t);
    }
  }

  lemma NameStagesFixed(t: string)
    requires IsNormalized(t)
    ensures Filter(Unaccent(t), IsNameChar) == t
    ensures Squash(t, IsSpace, ' ') == t
    ensures Trim(t) == t
  {
    NormalCharsArePlain(t);
    UnaccentFixed(t);
    FilterFixed(t, IsNameChar);
    SpacesArePlain(t);
    SquashFixed(t, IsSpace, ' ');
    TrimFixed(t);
  }

  lemma NormalCharsArePlain(t: string)
    requires AllChars(t, IsNormalChar)
    ensures forall i :: 0 <= i < |t| ==> t[i] as int < 0x80 && !IsAsciiUpper(t[i])
    ensures AllChars(t, IsNameChar)
  {
    assert forall i :: 0 <= i < |t| ==> IsNormalChar(t[i]);
  }

  lemma SpacesArePlain(t: string)
    requires AllChars(t, IsNormalChar)
    ensures forall i :: 0 <= i < |t| ==> IsSpace(t[i]) ==> t[i] == ' '
  {
    assert forall i :: 0 <= i < |t| ==> IsNormalChar(t[i]);
  }

  /** `normalizeProductName` is idempotent. */
  lemma NormalizeIdempotent(name: Option<string>)
    ensures NormalizeProductName(Some(NormalizeProductName(name))) == NormalizeProductName(name)
  {
    NormalizedIsFixedPoint(NormalizeProductName(name));
  }

  lemma SlugStagesFixed(t: string)
    requires IsSlug(t)
    ensures Hyphenated(t) == t
    ensures Squash(t, IsHyphen, '-') == t
    ensures Trim(t) == t
  {
    SlugSourceFixed(t);
    SquashFixed(t, IsHyphen, '-');
    SlugCharsUntrimmed(t);
  }

  lemma SlugSourceFixed(t: string)
    requires IsSlug(t)
    ensures Filter(Unaccent(t), IsSlugSourceChar) == t
    ensures Squash(t, IsSpace, '-') == t
  {
    assert forall i :: 0 <= i < |t| ==> IsSlugChar(t[i]) && !IsSpace(t[i]);
    UnaccentFixed(t);
    FilterFixed(t, IsSlugSourceChar);
    SquashFixed(t, IsSpace, '-');
  }

  /** A slug is its own slug. */
  lemma SlugIsFixedPoint(t: string)
    requires IsSlug(t)
    ensures Slugify(Some(t)) == t
  {
    if t != "" {
      SlugStagesFixed(t);
    }
  }

  /** Text with no letter, digit, blank or hyphen has the empty slug. */
  lemma EmptySlug(t: string)
    requires forall i :: 0 <= i < |t| ==> t[i] as int < 0x80 && !IsAsciiUpper(t[i]) && !IsSlugSourceChar(t[i])
    ensures Slugify(Some(t)) == ""
  {
    UnaccentFixed(t);
  }

  /** One leading `p` character before a squashed string becomes `rep`. */
  lemma SquashLead(c: char, t: string, p: char -> bool, rep: char)
    requires p(c) && |t| > 0 && !p(t[0])
    requires forall i :: 0 <= i < |t| ==> p(t[i]) ==> t[i] == rep
    requires NoAdjacent(t, p)
    ensures Squash([c] + t, p, rep) == [rep] + t
  {
    assert ([c] + t)[1..] == t;
    assert DropWhile(t, p) == t;
    SquashFixed(t, p, rep);
  }

  /** The final `trim()` of `slugify` runs after blanks became hyphens, so
      a leading blank survives as a leading hyphen: `" a"` gives `"-a"`. */
  lemma LeadingBlankSlug(t: string)
    requires IsSlug(t) && |t| > 0 && !IsHyphen(t[0])
    ensures Slugify(Some([' '] + t)) == ['-'] + t
  {
    LeadingBlankStages(t);
  }

  lemma LeadingBlankStages(t: string)
    requires IsSlug(t) && |t| > 0 && !IsHyphen(t[0])
    ensures Hyphenated([' '] + t) == ['-'] + t
    ensures Squash(['-'] + t, IsHyphen, '-') == ['-'] + t
    ensures Trim(['-'] + t) == ['-'] + t
  {
    LeadingBlankHyphened(t);
    SquashLead('-', t, IsHyphen, '-');
    LeadingHyphenTrimmed(t);
  }

  lemma LeadingBlankHyphened(t: string)
    requires IsSlug(t) && |t| > 0 && !IsHyphen(t[0])
    ensures Hyphenated([' '] + t) == ['-'] + t
  {
    LeadingBlankKept(t);
    assert !IsSpace(t[0]) by {
      assert IsSlugChar(t[0]);
    }
    SquashLead(' ', t, IsSpace, '-');
  }

  lemma LeadingBlankKept(t: string)
    requires IsSlug(t)
    ensures Filter(Unaccent([' '] + t), IsSlugSourceChar) == [' '] + t
  {
    var s := [' '] + t;
    assert forall i :: 1 <= i < |s| ==> s[i] == t[i - 1];
    UnaccentFixed(s);
    FilterFixed(s, IsSlugSourceChar);
  }

  lemma LeadingHyphenTrimmed(t: string)
    requires IsSlug(t) && |t| > 0
    ensures Trim(['-'] + t) == ['-'] + t
  {
    assert (['-'] + t)[|t|] == t[|t| - 1];
    TrimFixed(['-'] + t);
  }


  /** `slugify` is idempotent. */
  lemma SlugifyIdempotent(text: Option<string>)
    ensures Slugify(Some(Slugify(text))) == Slugify(text)
  {
    SlugIsFixedPoint(Slugify(text));
  }

  /** `cleanText` is idempotent. */
  lemma CleanTextIdempotent(text: Option<string>)
    ensures CleanText(Some(CleanText(text))) == CleanText(text)
  {
    var t := CleanText(text);
    if t != "" {
      TrimFixed(t);
      SquashFixed(t, IsSpace, ' ');
    }
  }

  // ---------------------------------------------------------------------------
  // Splitting
  // ---------------------------------------------------------------------------

  /** `s.split(c)[0]`: the text before the first `c` (all of `s` when there
      is none). */
  function BeforeFirst(s: string, c: char): (r: string)
    ensures |r| <= |s| && r == s[..|r|]
    ensures c !in r
    ensures |r| < |s| ==> s[|r|] == c
  {
    if |s| == 0 || s[0] == c then ""
    else [s[0]] + BeforeFirst(s[1..], c)
  }

  lemma {:induction false} BeforeFirstAppend(a: string, c: char, b: string)
    requires c !in a
    ensures BeforeFirst(a + [c] + b, c) == a
  {
    var s := a + [c] + b;
    if |a| > 0 {
      assert s[1..] == a[1..] + [c] + b;
      BeforeFirstAppend(a[1..], c, b);
    }
  }

  lemma BeforeFirstAll(a: string, c: char)
    requires c !in a
    ensures BeforeFirst(a, c) == a
  {
  }
}
